=== FILE: README.md ===
# Meshtastic base station — a Dafny model of its core

This project models the data path of the Meshtastic base station. A radio
callback receives packets from a mesh node and queues them. A consumer loop
takes them off the queue, normalises each one into a typed record
(`nodeinfo`, `text`, `device_telemetry`, `network_telemetry` or
`environment_telemetry`), and checks the record against its TypedDict schema.
Records that pass are stored as JSON strings in Redis lists, newest first.
The display side reads those lists back and formats rows for the user
interfaces. The model also covers:

- the earlier single-file pipeline: `redis_handler.py`,
  `meshtastic_data_handler.py` and the message/node callbacks and listing
  in `mesh_console.py`;
- the runtime type validator: `validate_typed_dict` and its copy in
  `type_validation.py`;
- log-level resolution, log-level filters and logger configuration;
- configuration loading and environment overrides;
- platform detection and user-interface selection;
- the curses interface's key/refresh state machine;
- the DearPyGui interface's plot buffers.

Python values are modelled by `PyValue.Value` (None, bool, int, float as a
real, str, list and dict). Raised exceptions are the `PyValue.Exc` datatype.
An operation that can raise returns `Outcome<T>`, which is `Ok(value)` or
`Err(exception)`.

The Redis server is a map from key to list (`Gateway.Db`) with LPUSH and
LRANGE semantics. An unreachable server is a boolean input. A stored string
is `Json.Blob`: either the `json.dumps` of a value, or raw text that only a
parse function (an input) can decode. Other inputs are the clock, the host's
`platform.system()`, the text of `/proc/cpuinfo`, importability of optional
modules, the process environment and the configuration files.

Modules:

- `Wrappers`, `Text`, `PyValue` and `Json`: the Python-level vocabulary.
- `Schema` and `Validation`: the TypedDicts and the validator.
- `Gateway`, `Ingress`, `Normaliser`, `DataHandler` and `MvcApp`: the
  `src/station` pipeline.
- `HexId`, `LegacyStore`, `LegacyDisplay` and `Console`: the earlier
  pipeline.
- `LogFilter`, `LogLevels`, `Config`, `Platform`, `TerminalUi` and
  `PlotBuffers`: the supporting modules.

## Model

| member | source | states |
|---|---|---|
| Schema.SchemaOf | meshtastic_types.py:59-120 | Each record kind's schema starts with the envelope `type`, `timestamp`, `from_num`, `from_id` with a literal type tag. Only the three telemetry kinds carry `priority: Optional[str]`. |
| Schema.TypeTagsDistinct | meshtastic_types.py:59-120 | The five records' `type` literals are pairwise distinct, so the tag identifies the kind. |
| Schema.PacketTypes | meshtastic_types.py:129-133 | NODEINFO_APP maps to node info, TEXT_MESSAGE_APP to text, and TELEMETRY_APP to exactly the three telemetry kinds. Any other port maps to nothing. |
| Validation.CheckFieldIffConforms | src/station/utils/validation.py:41-67 | Checking one field succeeds exactly when the value conforms to the field's declared type. This covers Optional, nested TypedDict, Literal and base types. |
| Validation.ValidateFieldsIffConform | type_validation.py:19-53 | The standalone validator accepts a dict exactly when every annotated field is present and conforms. |
| Validation.ValidateIffConforms | src/station/utils/validation.py:21-69 | `validate_typed_dict` returns True exactly when the dict conforms to the TypedDict, and raises otherwise. |
| Validation.FirstMissingFieldReported | src/station/utils/validation.py:35-39 | When every earlier field passes, the first annotated field missing from the dict is the one reported. |
| Validation.UnannotatedKeysIgnored | src/station/utils/validation.py:37-41 | Two dicts that agree on the annotated keys get the same verdict, whatever other keys they hold. |
| Validation.OptionalField | src/station/utils/validation.py:44-50 | An Optional field accepts None, and checks any other value as its inner type. |
| Validation.NestedRecordField | src/station/utils/validation.py:53-67 | A dict under a nested TypedDict field is checked recursively, and its problem is reported prefixed with the field name. A non-dict value there raises TypeError from `isinstance`. |
| Validation.LiteralField | src/station/utils/validation.py:60-63 | A Literal field accepts exactly its listed strings, and otherwise reports the field as not allowed. |
| Validation.BaseTypeField | src/station/utils/validation.py:66-67 | Base types are an `isinstance` check: a str field accepts exactly strings, a bool passes an int field, and an int fails a float field. |
| Gateway.LRangeFromHead | src/station/handlers/redis_handler.py:89 | LRANGE from 0 to -1 returns the whole list, and from 0 to n returns the first n+1 entries. |
| Gateway.KeysDistinct | src/station/handlers/redis_handler.py:40-46 | The five record kinds use five distinct Redis keys. |
| Gateway.Store | src/station/handlers/redis_handler.py:60-78 | Storing prepends the string to its key's list and leaves every other key unchanged. When the server is unreachable the store raises. |
| Gateway.Load | src/station/handlers/redis_handler.py:80-94 | A down server gives an empty list instead of raising. LRANGE 0 -1 gives the whole list. |
| Gateway.StoreKind | src/station/handlers/redis_handler.py:96-135 | Each `store_*` method prepends to its own kind's list only. |
| Gateway.LoadKind | src/station/handlers/redis_handler.py:106-139 | Each `load_*` method reads its own kind's list from index 0 to `limit`. |
| Gateway.NewestFirst | src/station/handlers/redis_handler.py:96-112 | Storing a and then b in one kind loads b, then a, then the older entries. |
| Gateway.LoadHeadAfterStore | src/station/handlers/redis_handler.py:60-94 | Right after `store(key, d)`, `load(key, 0, 0)` is exactly `[d]`. |
| Ingress.Item | src/station/handlers/meshtastic_handler.py:20-23 | A queued update is the dict with exactly the keys `type` and `packet`. The type is the callback's category tag, and the packet is unchanged. |
| Ingress.PutNowait | src/station/handlers/meshtastic_handler.py:17-25 | QueueFull is raised exactly when a bounded queue is full. Otherwise the item is appended and counted as unfinished. |
| Ingress.OnPacket | src/station/handlers/meshtastic_handler.py:17-46 | A callback appends its update unless the queue is full, in which case the update is dropped and the queue is unchanged. It never raises, and keeps the queue valid. |
| Ingress.UnboundedKeepsArrivalOrder | src/station/handlers/meshtastic_handler.py:17-46 | On an unbounded queue, a run of callbacks queues exactly their updates, in arrival order. |
| Ingress.BoundedNeverOverflows | src/station/handlers/meshtastic_handler.py:17-46 | Whatever arrives, a bounded queue never holds more than `maxsize` items, and every queued item stays counted as unfinished. |
| Normaliser.ExtractMetrics | src/station/handlers/data_handler.py:148-153 | The metrics are built exactly when `rxTime` converts with `int()` and each optional field present converts. `rx_time` is that int, and `rx_snr`, `rx_rssi` and `hop_limit` are the converted fields, defaulting to 0.0, 0 and 3. The result conforms to Metrics. |
| Normaliser.Envelope | src/station/handlers/data_handler.py:159-173 | The envelope holds the kind's type tag, the timestamp, `from_num`, `from_id`, the metrics and `raw`, each from the packet's head. |
| Normaliser.MetricsRecord | meshtastic_types.py:20-25 | A metrics dict built from an int, a float and two ints conforms to Metrics. |
| Normaliser.ReadHead | src/station/handlers/data_handler.py:159-173 | The envelope fields are read exactly when `from` converts to int, and `fromId`, `raw` and the metrics are present. `from_id` is `str(fromId)`. |
| Normaliser.RecordConforms | meshtastic_types.py:59-120 | Given a well-formed envelope, a record conforms to its kind's schema exactly when its kind-specific fields conform. |
| Normaliser.UserBody | src/station/handlers/data_handler.py:158-171 | The `user` sub-dict is built exactly when all six user keys are present, and the result conforms to UserInfo. |
| Normaliser.DeviceBody | src/station/handlers/data_handler.py:219-225 | Device metrics are built exactly when battery, voltage, air utilisation and uptime are present and convert, and `channelUtilization` converts when present. Each field is its converted input, and `channel_utilization` is 0.0 when absent. The result conforms to DeviceMetrics. |
| Normaliser.Counters | src/station/handlers/data_handler.py:256-263 | The eight counters are read exactly when every present one converts. Each is its input converted with `int()` or `float()` as declared, and 0 or 0.0 when absent. |
| Normaliser.LocalStatsBody | src/station/handlers/data_handler.py:255-266 | The local stats hold exactly the eight converted counters and the three relay and dupe counters. Those three are copied as given, None when absent. The result conforms to LocalStats exactly when each of them is None or an int. |
| Normaliser.LocalStatsConforms | meshtastic_types.py:44-56 | A local-stats dict with the required counters conforms exactly when its optional counters are None or ints. |
| Normaliser.EnvironmentBody | src/station/handlers/data_handler.py:289-295 | Environment metrics are built exactly when every present field converts. Each field is its converted input, defaulting to 0.0, or to 0 for `iaq`. An empty dict always succeeds, and the result conforms to EnvironmentMetrics. |
| Normaliser.TextExtras | src/station/handlers/data_handler.py:189-191 | A text record's extras are built exactly when `to` converts to int and `toId` and the decoded text are present. They are that int, `str(toId)` and `str` of the text. |
| Normaliser.TelemetryExtras | src/station/handlers/data_handler.py:212-229 | A telemetry record adds its metrics part and `priority` copied from the packet, or None when it is absent. |
| Normaliser.Extras | src/station/handlers/data_handler.py:164-298 | Node records take the user extras, text records the text extras, and telemetry records their kind's metrics part and priority. |
| Normaliser.Checked | src/station/handlers/data_handler.py:175 | Validation passes the record through unchanged exactly when it conforms, and raises otherwise. |
| Normaliser.Normalise | src/station/handlers/data_handler.py:155-301 | A normalised record is exactly the kind's envelope (type tag, current timestamp, `from` as int, `str(fromId)`, metrics, `str(raw)`) joined with the kind's extras read from the packet. It always conforms to its kind's schema, and is produced exactly when it can be built and its extras conform. |
| Normaliser.WhenValidationFails | src/station/handlers/data_handler.py:201-301 | Node and text records never fail validation once built. Device and environment records fail exactly when `priority` is not None or a str. Network records also fail on a non-int optional counter. |
| DataHandler.HandlerFor | src/station/handlers/data_handler.py:44-56 | The dispatch table maps each of the three port names to its handler and every other hashable value to None. An unhashable port raises TypeError. |
| DataHandler.TelemetryKind | src/station/handlers/data_handler.py:87-96 | `deviceMetrics` takes precedence over `localStats`, which takes precedence over `environmentMetrics`. A telemetry packet with none of them is ignored. |
| DataHandler.TelemetryOf | src/station/handlers/data_handler.py:87-88 | The telemetry dict is found exactly when the packet and its `decoded` are dicts and `decoded` has `telemetry`, and it is that entry. |
| DataHandler.Route | src/station/handlers/data_handler.py:50-62 | The chosen record kind is always one the port allows. Node info and text ports route directly. A telemetry packet routes by its `decoded.telemetry` sub-key with the handler's precedence, and to nothing when that is missing. |
| DataHandler.Handle | src/station/handlers/data_handler.py:67-135 | A handler stores a record exactly when normalisation succeeds and the server is up. What it stores is `json.dumps` of the normalised record under its kind's key. |
| DataHandler.ProcessPacket | src/station/handlers/data_handler.py:50-65 | Processing never raises. An unroutable packet, a failed normalisation or a down server leaves the store unchanged. Otherwise the normalised record is stored. |
| DataHandler.ProcessPacketGrowsOneCategory | src/station/handlers/data_handler.py:52-65 | One packet adds at most one entry, at the head of one kind's list, and no other list changes. |
| DataHandler.Fixed | src/station/handlers/data_handler.py:397-399 | A `:.2f` field formats exactly the numbers (int, bool, float), and raises for anything else. |
| DataHandler.Shown | src/station/handlers/data_handler.py:426-430 | A `str(...)` field succeeds exactly when the key is present, and shows `str` of its value. |
| DataHandler.Format | src/station/handlers/data_handler.py:303-314 | Undecodable JSON formats to None. A decoded entry yields its row, and a missing key raises past the JSONDecodeError handler. |
| DataHandler.FormatAll | src/station/handlers/data_handler.py:322-328 | Formatting a list succeeds exactly when no entry raises, and yields at most one row per entry. |
| DataHandler.GetFormatted | src/station/handlers/data_handler.py:316-328 | The formatted view of a kind has no more rows than the loaded entries. A down server gives an empty list. |
| DataHandler.FormatAllKeepsOrder | src/station/handlers/data_handler.py:344-356 | When every entry formats, the rows are the entries' rows one for one, in stored order. |
| DataHandler.UndecodableDropped | src/station/handlers/data_handler.py:340-355 | An undecodable entry is skipped without affecting the other rows. |
| DataHandler.StoredRecordFormats | src/station/handlers/data_handler.py:303-434 | Every record the normaliser could have stored formats to a row, with one exception: device telemetry whose `channel_utilization` is None. |
| DataHandler.NormalisedRecordFormats | src/station/handlers/data_handler.py:155-434 | Every record the normaliser produces formats to a row. A None `channelUtilization` never reaches the store, because `float(None)` fails normalisation. |
| DataHandler.NodeRecordFormats | src/station/handlers/data_handler.py:307-311 | A stored node record shows its timestamp, its `from_id`, and the user's `long_name`. |
| DataHandler.DeviceRecordFormats | src/station/handlers/data_handler.py:393-400 | A stored device record formats exactly when its `channel_utilization` is not None. The `.get` default applies only to a missing key. |
| DataHandler.NetworkRecordFormats | src/station/handlers/data_handler.py:423-431 | Every stored network record formats. |
| DataHandler.EnvironmentRecordFormats | src/station/handlers/data_handler.py:363-369 | Every stored environment record formats. |
| MvcApp.GetTelemetryType | src/station/ui/mvc_app.py:126-135 | It reads `decoded` and then `telemetry`, with the data handler's precedence, and None when no metrics key is present. On a telemetry port it agrees with the handler's routing. |
| MvcApp.UpdateUi | src/station/ui/mvc_app.py:104-124 | Every text update goes to the messages view and every node update to the nodes view. A telemetry update goes to the view of its telemetry kind, and to none when that cannot be determined. Routing errors are swallowed. |
| MvcApp.DispatchStep | src/station/ui/mvc_app.py:83-99 | One step takes the head update and processes its packet with the data handler. It schedules the update for the UI and marks the item done. An empty queue changes nothing. |
| MvcApp.DrainProcessesInOrder | src/station/ui/mvc_app.py:83-99 | Draining a queue of callback items empties it and marks every item done. The store ends as if each packet had been processed in arrival order, and every update is scheduled in that order. |
| MvcApp.ViewMatchesStoredKind | src/station/ui/mvc_app.py:114-121 | A routable telemetry update refreshes the view of the kind its packet is stored under. |
| HexId.NodeId | redis_handler.py:158 | A node id is `!` then `format(n, '08x')`, nine or more characters. For n ≥ 0 the rest is hex digits, and for a negative n it is a '-' then hex digits. Either way, what follows `!` reads back as n. |
| HexId.FormatNum | mesh_console.py:241 | `f"!{num:08x}"` succeeds exactly for ints and bools, and for an int it is the node id of that number. |
| HexId.Format08xRoundTrip | redis_handler.py:158 | Reading back the digits of `format(n, '08x')` gives `n` for every Python int, negative ones included. |
| HexId.NodeIdOf32Bit | mesh_console.py:241 | A 32-bit node number gives a nine-character id: `!` and eight hex digits that read back as the number. |
| HexId.NodeIdInjective | redis_handler.py:158 | Two node numbers with the same id are equal. |
| LegacyStore.SaveMessage | redis_handler.py:87-96 | An up server prepends the message to its list, and nothing else changes. A failure is logged and changes nothing. |
| LegacyStore.UpdateNode | redis_handler.py:127-144 | The pipeline succeeds exactly when the server is up and every queued value can be sent. It then writes the name and the timestamp, the battery only when it is not None, and the position only when it is truthy. A failure raises NameError, because `logger` is undefined in the except clause. |
| LegacyStore.SetPosition | redis_handler.py:137-140 | The position hash gets the node's latitude, longitude and altitude, and every other hash and list is unchanged. |
| LegacyStore.LSet | redis_handler.py:216-221 | LSET succeeds exactly for an int index within the list, with negative indices counting from the end. It replaces that one entry only. |
| LegacyStore.MessageRecord | redis_handler.py:196-201 | A saved message has exactly the keys timestamp, station_id, to_id and message, copied from the update. |
| LegacyStore.ProcessUpdate | redis_handler.py:189-224 | Only the three update types change anything. A message update with all its keys prepends its record. A node update touches only the hashes. An update_message update with an in-range int index replaces that message, counting a negative index from the end, and leaves everything else alone; otherwise it changes nothing. A down server changes nothing. |
| LegacyStore.ReplaceMessageUpdate | redis_handler.py:216-221 | LSET replaces exactly the indexed message with the encoded update when the index is an int in range and the value encodes. Otherwise the store is unchanged. |
| LegacyStore.NodeUpdateWrites | redis_handler.py:205-213 | A node update with its three keys writes the node's name and timestamp under its id, when the server is up and the values can be sent. |
| LegacyStore.InitializeBroadcastNode | redis_handler.py:65-78 | `^all` is written as its own name with the current timestamp, and nothing else changes. A failure is logged and writes nothing. |
| LegacyStore.ConnectedNode | redis_handler.py:146-160 | Info without `num`, or with a None one, gives nothing to write. A derived id requires a dict with a `num`. |
| LegacyStore.ConnectedNodeName | redis_handler.py:152-160 | The id is `!` plus `%08x` of the number. The name is `longName` when that key is present, then `shortName`, then the id. Presence decides, not truthiness. |
| LegacyStore.InitializeConnectedNode | redis_handler.py:146-168 | The derived name and the timestamp are written under the node's id, and lists are never touched. Missing info or a failure writes nothing. |
| LegacyStore.LoadMessages | redis_handler.py:98-109 | Loading succeeds exactly when called without arguments, and returns the whole message list, or [] when the server is down. |
| LegacyStore.RewriteStep | redis_handler.py:177-184 | An entry is replaced exactly when it decodes to a dict whose `station_id` is `==` to the node id, under Python's equality. The replacement differs only in `station_id`. |
| LegacyStore.NumericallyEqualIdRenamed | redis_handler.py:179 | A sender stored as 1.0 is renamed when node 1 is renamed, because the comparison is Python's `==`. |
| PyValue.PyEqReflexive | redis_handler.py:179 | Every value is `==` to itself, so the comparison holds at least where the values are identical. |
| PyValue.PyEqAcrossNumbers | redis_handler.py:179 | 1, 1.0 and True are `==`, as are 0 and False, and lists of them element by element. A string or None never equals a number. |
| LegacyStore.RewriteAt | redis_handler.py:176-184 | Every entry the loop reaches is replaced by its rewrite, and every other entry is kept. |
| LegacyStore.UpdateStored | redis_handler.py:174-186 | The loop changes only the message list, and never the hashes. |
| LegacyStore.UpdateStoredMessagesAsWritten | redis_handler.py:175 | As written, the store is never changed. |
| LegacyStore.UpdateStoredMessages | redis_handler.py:170-186 | Corrected: with the server up, the message list becomes its rewrite. Nothing changes otherwise, and the hashes never change. |
| LegacyStore.RewriteIdempotent | redis_handler.py:176-182 | Rewriting twice gives the same list as rewriting once. |
| LegacyStore.AsWrittenNeverRenames | redis_handler.py:175 | On a one-message list from the renamed node, the code as written leaves the store unchanged, while the corrected loop renames the message. |
| LegacyDisplay.ProcessPacket | meshtastic_data_handler.py:32-50 | A text packet prepends its JSON to the message list, and a node packet to the node list, leaving the other kinds alone. Any other type, a conversion error or a down server changes nothing. |
| LegacyDisplay.FormatEntry | meshtastic_data_handler.py:52-87 | An entry that does not decode gives None. A decoded one gives exactly its message or node row, and fails exactly when that row does. |
| LegacyDisplay.MessageRow | meshtastic_data_handler.py:59-66 | A message row is built exactly when the data and its `decoded` are dicts, and otherwise raises AttributeError. Each field is the stored one when present: timestamp (default now), from and to (default 'Unknown'), and the text (default ''). |
| LegacyDisplay.NodeRow | meshtastic_data_handler.py:78-84 | A node row is built exactly when the data, `decoded` and `user` are dicts, and otherwise raises AttributeError. The timestamp and id are the stored ones when present. |
| LegacyDisplay.FormatAll | meshtastic_data_handler.py:96-102 | The loop succeeds exactly when every entry formats, and keeps at most one row per entry. |
| LegacyDisplay.FormatAllIsKept | meshtastic_data_handler.py:96-117 | When every entry formats, the result is exactly the non-None rows, in load order. |
| LegacyDisplay.GetFormatted | meshtastic_data_handler.py:89-117 | A down server gives no rows, and there are never more rows than loaded entries. |
| LegacyDisplay.MessageDefaults | meshtastic_data_handler.py:59-66 | Each missing field of a message falls back on its own: the current time, 'Unknown' sender or recipient, empty text. A present sender and recipient are shown as stored. |
| LegacyDisplay.NodeNameAndId | meshtastic_data_handler.py:78-84 | A node row's name is `decoded.user.longName` when present and 'Unknown' otherwise. Its id is `fromId` when present and 'Unknown' otherwise. |
| LegacyDisplay.UndecodableDropped | meshtastic_data_handler.py:67-69 | An entry that does not decode is dropped, and the other rows are unaffected. |
| Console.TextUpdate | mesh_console.py:176-191 | The update has exactly five keys: type "message", sender `fromId` (default "[Unknown ID]"), recipient `toId` (default "^all"), the text and the timestamp. It is built exactly when `decoded` is a dict or absent, and otherwise raises AttributeError. |
| Console.CallbackName | mesh_console.py:205-212 | The name is `longName` when truthy, otherwise `shortName` when truthy, otherwise the node id. |
| Console.NodeUpdate | mesh_console.py:205-220 | The update has exactly the keys type "node", node_id (`fromId` or "[Unknown ID]"), node_name and timestamp. The name follows the callback's naming rule. It is built exactly when `decoded` and `user` are dicts or absent, and otherwise raises AttributeError. |
| Console.Enqueue | mesh_console.py:185-193 | A built update is appended and counted unless the queue is full. An error or a full queue leaves the queue unchanged. |
| Console.OnTextMessage | mesh_console.py:169-193 | Corrected, with the timestamp supplied: on an unbounded queue the text callback appends its update. When the update cannot be built, nothing is queued. |
| Console.OnNodeMessage | mesh_console.py:196-225 | Corrected, with the timestamp supplied: on an unbounded queue the node callback appends its update. When the update cannot be built, nothing is queued. |
| Console.TextUpdateAsWritten | mesh_console.py:176-193 | As written the text update is never built: a well-formed packet raises NameError at `format_timestamp`, and a malformed one raises the same error as the corrected update. |
| Console.NodeUpdateAsWritten | mesh_console.py:205-225 | Likewise for the node update. |
| Console.OnTextMessageAsWritten | mesh_console.py:169-193 | As written the text callback never changes the queue. |
| Console.OnNodeMessageAsWritten | mesh_console.py:196-225 | As written the node callback never changes the queue. |
| Console.TextCallbackDropsMessage | mesh_console.py:176-187 | A well-formed text message on an unbounded queue is dropped as written and queued by the corrected callback. |
| Console.NodeCallbackDropsAnnouncement | mesh_console.py:205-217 | Likewise for a node announcement. |
| Console.NamingRulesDiffer | mesh_console.py:205-243 | With an empty `longName` and a `shortName` "AB", the callback names the node "AB", but the connected-node path names it "". |
| Console.RedisWriter | mesh_console.py:83-95 | The writer empties the queue, marks every item done, and applies the updates to the store in queue order. |
| Console.Resolve | mesh_console.py:133-134 | A known string id resolves to its stored name, and any other hashable value resolves to itself. A list or dict raises. |
| Console.ListOne | mesh_console.py:127-141 | An undecodable entry is skipped. A listed message keeps its timestamp and text, and resolves its sender and recipient (recipient default "^all"). |
| Console.ListAll | mesh_console.py:125-143 | Listing succeeds exactly when every entry does, and gives at most one line per entry. |
| Console.ListAllIsKept | mesh_console.py:125-143 | When every entry lists, the result is exactly the listed entries, undecodable ones dropped, in stored order. |
| Console.SortByTime | mesh_console.py:146 | The sorted list is a permutation of its input. |
| Console.SortByTimeSorted | mesh_console.py:146 | The sorted list is ordered by timestamp. |
| Console.ListMessages | mesh_console.py:118-149 | The listing is a permutation of the parsed messages, ordered by timestamp. It succeeds whenever parsing does and every timestamp is a string. |
| LogFilter.LevelSet | src/station/utils/log_filter.py:33 | A single int becomes the singleton set, and a list the set of its elements. |
| LogFilter.NewFilter | src/station/utils/log_filter.py:25-35 | Construction fails with ValueError exactly in threshold mode with no levels (from `min`). Otherwise it keeps the level set, the mode and the minimum. |
| LogFilter.Admits | src/station/utils/log_filter.py:37-46 | Set mode admits exactly the listed levels. Threshold mode admits a level exactly when some listed level is at or below it. |
| LogFilter.SingleIsOneElementList | src/station/utils/log_filter.py:33 | A single level and the one-element list of it make the same filter. |
| LogFilter.DuplicatesCollapse | src/station/utils/log_filter.py:33 | Lists with the same elements make the same filter, whatever their order and repetitions. |
| LogFilter.ThresholdUpwardClosed | src/station/utils/log_filter.py:44-45 | In threshold mode, every level above an admitted level is admitted. |
| LogFilter.ThresholdCoversSet | src/station/utils/log_filter.py:35-46 | Threshold mode admits at least what set mode admits for the same levels. |
| LogFilter.AdmitsExact | log_level_filter.py:33-40 | The older filter admits its own level, and rejects every level above or below it. |
| LogFilter.ExactIsSingleSetMode | log_level_filter.py:24-40 | The older filter is the newer one in set mode over a single level. |
| LogLevels.AvailableLevels | src/station/utils/logger.py:53-56 | The list is the five standard names followed by PACKET, DATA and REDIS, in increasing level order. Every custom name is listed. |
| LogLevels.AsList | src/station/utils/logger.py:65-66 | A single name becomes a one-element list, and a list is kept. |
| LogLevels.ResolveOne | src/station/utils/logger.py:69-77 | The upper-cased name is looked up among the custom levels first, then among the level constants of `logging`. Any other name raises ValueError. |
| LogLevels.ResolveAll | src/station/utils/logger.py:68-79 | Resolution succeeds exactly when every name resolves, and gives their levels in order. Otherwise it raises ValueError. |
| LogLevels.ResolveLogLevels | src/station/utils/logger.py:58-79 | A name or a list of names resolves as the list of its names. |
| LogLevels.AvailableLevelsResolve | src/station/utils/logger.py:53-79 | Every listed level name resolves. |
| LogLevels.CustomNamesAnyCase | src/station/utils/logger.py:23-27 | "packet", "Data" and "REDIS" resolve to 15, 16 and 17. |
| LogLevels.Configure | src/station/utils/logger.py:103-139 | Corrected: a logger with handlers is returned unchanged. Otherwise it succeeds exactly when the names resolve and the list is non-empty. Other loggers are untouched, and a failure is a ValueError. |
| LogLevels.ConfigureFresh | src/station/utils/logger.py:110-137 | A fresh logger's level is the least resolved level, and it stops propagating. It gets a console handler, plus a file handler for a truthy `log_file`, each at that level with the shared filter. |
| LogLevels.ConfigureAsWritten | src/station/utils/logger.py:98-100 | Without debugging, the code as written is the corrected configuration. |
| LogLevels.DebuggingAlwaysFails | src/station/utils/logger.py:98-112 | With debugging on, the code as written raises before configuring a new logger, where the corrected version succeeds. |
| LogLevels.ConfigureIdempotent | src/station/utils/logger.py:103-108 | Configuring a second time changes nothing. |
| LogLevels.ConfiguredHasHandlers | src/station/utils/logger.py:122-137 | After a successful call the logger has handlers. |
| LogLevels.ResolveLogLevel | logger.py:44-53 | The older resolver tries PACKET and REDIS first, then the level constants of `logging`, and falls back to INFO (20). |
| LogLevels.ResolversAgree | logger.py:44-53 | Wherever the newer resolver succeeds, the two agree, except on DATA. |
| LogLevels.DataDiffers | logger.py:52-53 | "data" resolves to 16 in the newer resolver and to INFO in the older one. |
| LogLevels.ConfigureLegacy | logger.py:55-93 | A logger with handlers is returned unchanged. Otherwise the level is set, propagation is switched off, and a console and a file handler are added at that level. Other loggers are untouched. |
| LogLevels.ConfigureLegacyIdempotent | logger.py:60-65 | A second call on the same name adds no handlers. |
| Config.DefaultPort | src/station/config/base_config.py:46-54 | The Windows port is chosen exactly for "windows" and the macOS port exactly for "darwin", in any case. Every other system gets the Linux port. |
| Config.Kwargs | src/station/config/base_config.py:89-92 | `Cls(**section)` succeeds exactly for a mapping whose keys are all fields, and raises TypeError otherwise. |
| Config.Default | src/station/config/base_config.py:29-79 | The defaults are localhost:6379 with no password, the platform's port at 115200 baud, INFO level, meshtastic.log, 30 retention days and "development". |
| Config.FromDict | src/station/config/base_config.py:88-100 | Only a dict loads, and it loads exactly when each present section is a mapping of that section's fields. A present section is built from its own entries, `logging` going to `log_cfg`. An absent section keeps its defaults. `data_retention_days` and `environment` default to 30 and "development". |
| Config.EmptyDictIsDefault | src/station/config/base_config.py:88-100 | The empty mapping gives the default configuration. |
| Config.LoggingSectionRead | src/station/config/base_config.py:91-96 | Whenever the mapping has a `logging` section, it lands in `log_cfg`: each of its five settings is read from that section, with its default when absent. |
| Config.UnknownKeyRejected | src/station/config/base_config.py:89-92 | In any of the four sections, a key that is not one of that section's fields makes the whole call raise TypeError, whatever the other sections hold. |
| Config.FromYaml | src/station/config/base_config.py:82-85 | A file whose YAML does not parse fails. Otherwise it is `from_dict` of what was parsed. |
| Config.LoadFromPath | src/station/config/base_config.py:124-135 | A file that exists and loads gives its configuration. Any other file gives the defaults. |
| Config.SearchOutcome | src/station/config/base_config.py:138-148 | The search gives the configuration of the first path that loads, or the defaults when none does. |
| Config.LoadFromDefaultPaths | src/station/config/base_config.py:138-148 | Over the configured search paths, the first that loads decides, and otherwise the defaults apply. |
| Config.NoneLoadable | src/station/config/base_config.py:147-148 | When no path loads, the search gives the defaults. |
| Config.FirstLoadableWins | src/station/config/base_config.py:139-146 | The first path that loads decides, whatever follows it. |
| Config.ApplyEnvOverrides | src/station/config/base_config.py:151-161 | Each set, non-empty variable replaces its field. It fails exactly when the port variable is set and is not an integer. Fields without a variable are unchanged. |
| Config.NoOverridesNoChange | src/station/config/base_config.py:151-161 | With no variables set, or only empty ones, nothing changes. |
| Config.PortOverrideRoundTrip | src/station/config/base_config.py:154-155 | A port written as decimal text is read back as that integer. |
| Config.Load | src/station/config/base_config.py:103-115 | A non-empty path loads that file and anything else searches the default paths. The environment overrides are applied last. |
| Config.EnvWinsOverFile | src/station/config/base_config.py:112-115 | A set host variable is the loaded host, whatever the file says. |
| Platform.DetectPlatform | src/station/utils/platform_utils.py:22-40 | The platform is decided by the lower-cased system name, and a Linux host whose cpuinfo names a Raspberry Pi is a Pi. Both directions are stated for each platform. |
| Platform.AvailableUis | src/station/utils/platform_utils.py:42-57 | Console and curses are always available. DearPyGui is available exactly when it imports and the host is not a Pi. |
| Platform.DefaultUi | src/station/utils/platform_utils.py:59-70 | A Pi defaults to curses. Other hosts default to DearPyGui exactly when it is available, and to curses otherwise. |
| Platform.DefaultIsAvailable | src/station/utils/platform_utils.py:59-70 | The default interface is always available, and is never the bare console. |
| Platform.CheckUiAvailability | src/station/utils/platform_utils.py:72-84 | Only DearPyGui can be unavailable, and only its importability is checked. |
| Platform.UiTypeNamed | src/station/ui/factory.py:74-78 | The three upper-case member names resolve to their interface, and any other name fails. |
| Platform.CreateUi | src/station/ui/factory.py:74-95 | Corrected, with the GUI module importable by name: an unknown name gives the console. DearPyGui is built when it is importable and its module loads. Curses stands in when the import raises ImportError, and the console when DearPyGui is not importable. |
| Platform.CreateUiAsWritten | src/station/ui/factory.py:81-88 | As written DearPyGui is never built: a request for it on a host that can import it gets curses, and other requests are as corrected. |
| Platform.GuiRequestFallsBackAsWritten | src/station/ui/factory.py:81-88 | A desktop host that lists DearPyGui and asks for it gets curses as written, and DearPyGui once the module imports. |
| Platform.CreateUiGuiOnlyWhenPossible | src/station/ui/factory.py:81-85 | DearPyGui is built only when it was requested, is importable, and its module loaded. |
| Platform.PiCanCreateUnlistedGui | src/station/ui/factory.py:81-85 | When the GUI module imports, a Pi that asks for DearPyGui by name gets it, although the available list omits it. |
| TerminalUi.ViewFor | src/station/ui/terminal_ui.py:75-84 | Each of the keys n, m, d, t and e selects its view, and no other key selects one. |
| TerminalUi.HandleInput | src/station/ui/terminal_ui.py:68-88 | 'q' or a read error stops the interface. A view key switches to its view. No key changes nothing. A failed clear after a key stops the interface. |
| TerminalUi.HandleInputStops | src/station/ui/terminal_ui.py:68-88 | Only 'q', an error or a failed clear stops the interface. Only a view key changes the view. |
| TerminalUi.Update | src/station/ui/terminal_ui.py:90-126 | A refresh happens exactly when drawing succeeds and either five seconds have passed or the view changed. The refresh records the view and the time. |
| TerminalUi.FirstUpdateRefreshes | src/station/ui/terminal_ui.py:20-25 | The first update after start always refreshes the nodes view. |
| TerminalUi.RateLimited | src/station/ui/terminal_ui.py:106-109 | Within five seconds of a refresh the same view is not refetched, but a view change is refetched at once. |
| PlotBuffers.InitialBuffers | src/station/ui/dearpygui-ui.py:27-34 | The six named series start empty. |
| PlotBuffers.Push | src/station/ui/dearpygui-ui.py:229-236 | Appending a point keeps the last 100 times and the last 100 values, paired. |
| PlotBuffers.UpdateDataBuffer | src/station/ui/dearpygui-ui.py:227-236 | An unknown series raises KeyError. Otherwise only the named series changes, and it keeps its last 100 points. |
| PlotBuffers.PushAllKeepsTimes | src/station/ui/dearpygui-ui.py:227-236 | Whatever the history, a series holds exactly the latest 100 times it was given, oldest first. |
| PlotBuffers.PushAllKeepsValues | src/station/ui/dearpygui-ui.py:227-236 | Likewise for the values, so times and values stay paired. |
| PlotBuffers.Stop | src/station/ui/dearpygui-ui.py:171-187 | Stopping empties every series and clears `running`, even when the viewport teardown fails. |
| PlotBuffers.StopResets | src/station/ui/dearpygui-ui.py:175-177 | After a stop, the buffers are as constructed. |

## Left out

- Redis and the network. The server is a map of lists with LPUSH, LRANGE, LSET and HSET. Connection errors are a boolean input, and `ping`, `llen` and `close` are not modelled.
- JSON and protobuf encoding. `json.dumps` followed by `json.loads` is taken to round-trip. Text that is not a dump is decoded by a parse function given as input.
- asyncio scheduling. The callback, the consumer loop and the writer loop are modelled as sequential steps over a queue. Shutdown does not drain the queue in the code, and the model does not either.
- Rendering and logging side effects: curses drawing, DearPyGui widgets and plots, and the console printing.
- Float formatting. `DataHandler.Fixed` keeps the numeric value where the code formats it with `:.1f`, `:.2f` or a unit suffix. The model only states when formatting succeeds.
- `datetime.now().isoformat()` is a timestamp parameter.
- The command-line parser, the display helpers, and the standalone GUI Redis handler. They are not part of this model.
- The node listing in `load_previous_data` and the mesh connection set-up in mesh_console.py, both of which are library calls.
- Console.ListMessages: sorting needs string timestamps and gives an error otherwise, where Python would compare other values of one type.
- Text.Upper and Text.Lower: ASCII letters only, with no Unicode case mapping.
- PyValue.ToStr: `str()` of a float, list or dict is a placeholder string, not Python's repr.
- LegacyStore.LSet: only int indices are accepted. Python would also accept other integer-like values.
- MvcApp.DispatchStep: the queue is given as part of the state. The `src/station` Redis handler does not itself define the `redis_queue` the application reads.
- Exception types are approximate where the code catches every exception. UnboundLocalError is modelled as NameError.
- The cleanup-by-age and corrupted-entry cleanup described for the command line have no implementation in the code, so nothing models them.
- mesh_console.py line 24 imports `configure_logging` and `get_logger`, which the top-level logger.py does not define. The model describes the callbacks' bodies as if the module imported.
- mesh_console.py never binds `redis_client`, `REDIS_NODES_KEY` or `REDIS_MESSAGES_KEY`. Its own `initialize_connected_node` (lines 228-252) therefore stores nothing; only the `RedisHandler` method of the same name is modelled, as `LegacyStore.InitializeConnectedNode`.
- Console.ListMessages: `load_previous_data` as written raises NameError at line 105, before listing anything. The model lists the messages as if the names were bound to the handler's client and keys.
- src/station/ui/dearpygui-ui.py does not parse: line 42 is indented at the same level as the `try:` on line 41, which is an IndentationError. That is a SyntaxError, and `except ImportError` at factory.py:86 does not catch it. So once the import name is corrected, `create_ui("dearpygui", ...)` raises instead of building DearPyGui or falling back to curses. Platform.CreateUi models the import as either loading or raising ImportError, and the PlotBuffers members model the buffer code as if the module parsed.
- LogLevels.ResolveOne: only the level constants of `logging` are modelled. `getattr(logging, name)` also returns any other upper-case attribute of the module, such as `BASIC_FORMAT` (a string) or `_STYLES` (a dict). For such a name Python resolves to that non-int value, where the model raises ValueError. A configuration listing one then fails in `min()` with TypeError, not ValueError.
- LogLevels.ResolveLogLevel: likewise, `getattr(logging, name, logging.INFO)` returns a non-level attribute such as `BASIC_FORMAT` as it is, where the model gives INFO (20).
- Text.ParseInt: `int()` of a string with `_` digit separators is rejected, though Python accepts it.
- Text.ParseFloat: exponents, `inf`, `nan` and `_` separators are rejected, though Python accepts them.
- Normaliser.UserBody: only a dict is accepted as `user`. Python's `dict(...)` would also accept a sequence of key–value pairs.
- The code stores `from_id` as `str(fromId)` (the string "None" for a null id), not derived from `from_num`. `rx_snr` and `rx_rssi` default to 0, not None. The model follows the code.

## Findings

| source | as written | input that shows it | evidently intended | confidence | as-written member | corrected member |
|---|---|---|---|---|---|---|
| redis_handler.py:175 | `update_stored_messages` calls `load_messages(REDIS_MESSAGES_KEY)`, but `load_messages` takes no argument. The TypeError is caught at line 185, so no stored message is ever renamed. | One stored message with `station_id` "!0000abcd", and a node update renaming "!0000abcd" to "Base". | Load the stored messages and rewrite the `station_id` of those from the renamed node. | high (not executed) | LegacyStore.UpdateStoredMessagesAsWritten | LegacyStore.UpdateStoredMessages |
| src/station/utils/logger.py:98-100 | With `debugging=True`, `configure_logger` reads `base_level` before assigning it, which raises UnboundLocalError. | `configure_logger("station", "INFO", debugging=True)` | Debug mode prints the configuration and configures the handlers as usual. | high (not executed) | LogLevels.ConfigureAsWritten | LogLevels.Configure |
| mesh_console.py:179 | `on_text_message` calls `format_timestamp()`, a name the module never binds; it exists only as `RedisHandler.format_timestamp` (redis_handler.py:80-85). The NameError is caught at line 192, so no text message is ever queued. | A packet with `fromId` "!0000abcd" and `decoded` `{"text": "hi"}`. | Stamp the update with the current time and queue it. | high (not executed) | Console.OnTextMessageAsWritten | Console.OnTextMessage |
| mesh_console.py:209 | `on_node_message` makes the same call, caught at line 224, so no node announcement is ever queued. | A packet with `fromId` "!0000abcd" and `decoded` `{"user": {"longName": "Base"}}`. | Stamp the update with the current time and queue it. | high (not executed) | Console.OnNodeMessageAsWritten | Console.OnNodeMessage |
| src/station/ui/factory.py:83 | `create_ui` imports `src.station.ui.dearpygui_ui`, but the module's file is `dearpygui-ui.py`. The ImportError is caught at line 86, so DearPyGui is never built. | `create_ui("dearpygui", ...)` on a desktop host with DearPyGui installed. | Build the DearPyGui interface. That also needs dearpygui-ui.py fixed so it parses (see Left out). | high (not executed) | Platform.CreateUiAsWritten | Platform.CreateUi |

=== FILE: config.dfy ===
/** `BaseStationConfig` in src/station/config/base_config.py: the dataclass
    defaults, building a configuration from a parsed YAML mapping, the
    config-file search, and environment overrides. The platform name, the
    files that exist and what their YAML parses to, and the environment are
    inputs. Dataclass fields are not type-checked in Python, so each field
    holds whatever `Value` it was given. */
module Config {
  import opened Wrappers
  import opened PyValue
  import Text

  const PortLinux := "/dev/ttyACM0"
  const PortWindows := "COM1"
  const PortMac := "/dev/tty.usbmodem1"

  /** `DeviceConfig.default_port()` for the name `platform.system()` returned. */
  function DefaultPort(system: string): (r: string)
    ensures r == PortWindows <==> Text.Lower(system) == "windows"
    ensures r == PortMac <==> Text.Lower(system) == "darwin"
    ensures r == PortLinux <==> Text.Lower(system) != "windows" && Text.Lower(system) != "darwin"
  {
    var s := Text.Lower(system);
    if s == "linux" then PortLinux
    else if s == "windows" then PortWindows
    else if s == "darwin" then PortMac
    else PortLinux
  }

  datatype RedisConfig = RedisConfig(host: Value, port: Value, password: Value, db: Value, decodeResponses: Value)
  datatype DeviceConfig = DeviceConfig(port: Value, baudRate: Value, timeout: Value)
  datatype LoggingConfig = LoggingConfig(level: Value, file: Value, useThreshold: Value, format: Value, debugging: Value)
  datatype UiConfig = UiConfig(monospaceFont: Value, monospaceBold: Value)

  datatype StationConfig = StationConfig(redis: RedisConfig, device: DeviceConfig, logCfg: LoggingConfig,
                                         uiCfg: UiConfig, dataRetentionDays: Value, environment: Value)

  const RedisFields: set<string> := {"host", "port", "password", "db", "decode_responses"}
  const DeviceFields: set<string> := {"port", "baud_rate", "timeout"}
  const LoggingFields: set<string> := {"level", "file", "use_threshold", "format", "debugging"}
  const UiFields: set<string> := {"monospace_font", "monospace_bold"}

  const FileFormat := "%(asctime)s %(levelname)s:%(name)s:%(message)s"
  const FontRegular := "/usr/share/fonts/truetype/dejavu/DejaVuSansMono.ttf"
  const FontBold := "/usr/share/fonts/truetype/dejavu/DejaVuSansMono-Bold.ttf"

  /** The search order of `CONFIG_PATHS`. */
  const ConfigPaths: seq<string> := ["config.yaml", ".config/meshtastic/config.yaml", "/etc/meshtastic/config.yaml"]

  /** `Cls(**section)`: the section must be a mapping whose keys are all
      field names, or the call raises TypeError. */
  function Kwargs(section: Value, fields: set<string>): (r: Outcome<map<string, Value>>)
    ensures r.Ok? <==> section.VDict? && section.entries.Keys <= fields
    ensures r.Ok? ==> r.value == section.entries
    ensures r.Err? ==> r.error == TypeError
  {
    match section
    case VDict(e) => if e.Keys <= fields then Ok(e) else Err(TypeError)
    case _ => Err(TypeError)
  }

  function MakeRedis(e: map<string, Value>): RedisConfig {
    RedisConfig(Get(e, "host", VStr("localhost")), Get(e, "port", VInt(6379)), Get(e, "password", VNone),
                Get(e, "db", VInt(0)), Get(e, "decode_responses", VBool(true)))
  }

  function MakeDevice(e: map<string, Value>, system: string): DeviceConfig {
    DeviceConfig(Get(e, "port", VStr(DefaultPort(system))), Get(e, "baud_rate", VInt(115200)), Get(e, "timeout", VFloat(1.0)))
  }

  function MakeLogging(e: map<string, Value>): LoggingConfig {
    LoggingConfig(Get(e, "level", VStr("INFO")), Get(e, "file", VStr("meshtastic.log")), Get(e, "use_threshold", VBool(false)),
                  Get(e, "format", VStr(FileFormat)), Get(e, "debugging", VBool(false)))
  }

  function MakeUi(e: map<string, Value>): UiConfig {
    UiConfig(Get(e, "monospace_font", VStr(FontRegular)), Get(e, "monospace_bold", VStr(FontBold)))
  }

  /** `BaseStationConfig()`: every field at its default. */
  function Default(system: string): (c: StationConfig)
    ensures c.redis.host == VStr("localhost") && c.redis.port == VInt(6379) && c.redis.password == VNone
    ensures c.device.port == VStr(DefaultPort(system)) && c.device.baudRate == VInt(115200)
    ensures c.logCfg.level == VStr("INFO") && c.logCfg.file == VStr("meshtastic.log")
    ensures c.dataRetentionDays == VInt(30) && c.environment == VStr("development")
  {
    var none: map<string, Value> := map[];
    StationConfig(MakeRedis(none), MakeDevice(none, system), MakeLogging(none), MakeUi(none), VInt(30), VStr("development"))
  }

  /** `from_dict(config_dict)`: each section defaults to `{}`, the logging
      settings are read from the key 'logging' into `log_cfg`, and the two
      plain fields default to 30 days and "development". A non-dict
      argument has no `.get` and raises AttributeError. */
  function FromDict(d: Value, system: string): (r: Outcome<StationConfig>)
    ensures r.Ok? ==> d.VDict?
    ensures d.VDict? ==>
              (r.Ok? <==> Kwargs(Get(d.entries, "redis", VDict(map[])), RedisFields).Ok?
                          && Kwargs(Get(d.entries, "device", VDict(map[])), DeviceFields).Ok?
                          && Kwargs(Get(d.entries, "logging", VDict(map[])), LoggingFields).Ok?
                          && Kwargs(Get(d.entries, "ui_cfg", VDict(map[])), UiFields).Ok?)
    ensures r.Ok? ==> r.value.dataRetentionDays == Get(d.entries, "data_retention_days", VInt(30))
                      && r.value.environment == Get(d.entries, "environment", VStr("development"))
    ensures r.Ok? && "redis" !in d.entries ==> r.value.redis == Default(system).redis
    ensures r.Ok? && "device" !in d.entries ==> r.value.device == Default(system).device
    ensures r.Ok? && "logging" !in d.entries ==> r.value.logCfg == Default(system).logCfg
    ensures r.Ok? && "ui_cfg" !in d.entries ==> r.value.uiCfg == Default(system).uiCfg
    ensures r.Ok? && "redis" in d.entries ==> d.entries["redis"].VDict? && r.value.redis == MakeRedis(d.entries["redis"].entries)
    ensures r.Ok? && "device" in d.entries ==>
              d.entries["device"].VDict? && r.value.device == MakeDevice(d.entries["device"].entries, system)
    ensures r.Ok? && "logging" in d.entries ==>
              d.entries["logging"].VDict? && r.value.logCfg == MakeLogging(d.entries["logging"].entries)
    ensures r.Ok? && "ui_cfg" in d.entries ==> d.entries["ui_cfg"].VDict? && r.value.uiCfg == MakeUi(d.entries["ui_cfg"].entries)
  {
    match d
    case VDict(e) =>
      var redis :- Kwargs(Get(e, "redis", VDict(map[])), RedisFields);
      var device :- Kwargs(Get(e, "device", VDict(map[])), DeviceFields);
      var logging :- Kwargs(Get(e, "logging", VDict(map[])), LoggingFields);
      var ui :- Kwargs(Get(e, "ui_cfg", VDict(map[])), UiFields);
      Ok(StationConfig(MakeRedis(redis), MakeDevice(device, system), MakeLogging(logging), MakeUi(ui),
                       Get(e, "data_retention_days", VInt(30)), Get(e, "environment", VStr("development"))))
    case _ => Err(AttributeError)
  }

  /** The empty mapping gives the default configuration. */
  lemma EmptyDictIsDefault(system: string)
    ensures FromDict(VDict(map[]), system) == Ok(Default(system))
  {
  }

  /** The fields each section of the mapping accepts. */
  const SectionFields: map<string, set<string>> :=
    map["redis" := RedisFields, "device" := DeviceFields, "logging" := LoggingFields, "ui_cfg" := UiFields]

  /** The section under 'logging' lands in `log_cfg`, each setting read from
      it with its default when absent. */
  lemma LoggingSectionRead(d: Value, system: string)
    requires d.VDict? && "logging" in d.entries && FromDict(d, system).Ok?
    ensures d.entries["logging"].VDict?
    ensures var s := d.entries["logging"].entries;
            var c := FromDict(d, system).value.logCfg;
            c.level == Get(s, "level", VStr("INFO")) && c.file == Get(s, "file", VStr("meshtastic.log"))
            && c.useThreshold == Get(s, "use_threshold", VBool(false)) && c.format == Get(s, "format", VStr(FileFormat))
            && c.debugging == Get(s, "debugging", VBool(false))
  {
  }

  /** A key that is not a field of its section is rejected, whatever the
      other sections hold. */
  lemma UnknownKeyRejected(d: Value, system: string, section: string, k: string)
    requires section in SectionFields && k !in SectionFields[section]
    requires d.VDict? && section in d.entries && d.entries[section].VDict? && k in d.entries[section].entries
    ensures FromDict(d, system) == Err(TypeError)
  {
  }

  /** The files that exist, each with what YAML parsing made of it: `None`
      when reading or parsing raises. */
  type Files = map<string, Option<Value>>

  /** `from_yaml(path)` for a file that exists. */
  function FromYaml(files: Files, path: string, system: string): (r: Outcome<StationConfig>)
    requires path in files
    ensures files[path].None? ==> r.Err?
    ensures files[path].Some? ==> r == FromDict(files[path].value, system)
  {
    match files[path]
    case None => Err(ValueError)
    case Some(v) => FromDict(v, system)
  }

  /** A file that exists and yields a configuration. */
  predicate Loadable(files: Files, path: string, system: string) {
    path in files && FromYaml(files, path, system).Ok?
  }

  /** `_load_from_path`: the file's configuration, or the defaults when the
      file is missing or fails to load. */
  function LoadFromPath(path: string, files: Files, system: string): (c: StationConfig)
    ensures Loadable(files, path, system) ==> c == FromYaml(files, path, system).value
    ensures !Loadable(files, path, system) ==> c == Default(system)
  {
    if path in files then
      match FromYaml(files, path, system)
      case Ok(c) => c
      case Err(_) => Default(system)
    else Default(system)
  }

  /** The first loadable path of `paths`, or the defaults. */
  function FirstLoadable(paths: seq<string>, files: Files, system: string): (c: StationConfig)
    decreases |paths|
  {
    if |paths| == 0 then Default(system)
    else if Loadable(files, paths[0], system) then FromYaml(files, paths[0], system).value
    else FirstLoadable(paths[1..], files, system)
  }

  /** When no path loads, the search gives the defaults. */
  lemma {:induction false} NoneLoadable(paths: seq<string>, files: Files, system: string)
    requires forall i :: 0 <= i < |paths| ==> !Loadable(files, paths[i], system)
    ensures FirstLoadable(paths, files, system) == Default(system)
    decreases |paths|
  {
    if |paths| > 0 {
      assert forall i :: 0 <= i < |paths| - 1 ==> paths[1..][i] == paths[i + 1];
      NoneLoadable(paths[1..], files, system);
    }
  }

  /** The first path that loads decides: every earlier path failed, so its
      configuration is the result. */
  lemma {:induction false} FirstLoadableWins(paths: seq<string>, files: Files, system: string, k: nat)
    requires k < |paths| && Loadable(files, paths[k], system)
    requires forall i :: 0 <= i < k ==> !Loadable(files, paths[i], system)
    ensures FirstLoadable(paths, files, system) == FromYaml(files, paths[k], system).value
    decreases k
  {
    if k > 0 {
      assert !Loadable(files, paths[0], system);
      assert paths[1..][k - 1] == paths[k];
      assert forall i :: 0 <= i < k - 1 ==> paths[1..][i] == paths[i + 1];
      FirstLoadableWins(paths[1..], files, system, k - 1);
    }
  }

  /** The search characterised for every outcome: the first path that
      loads decides, and with none the defaults are used. */
  lemma SearchOutcome(paths: seq<string>, files: Files, system: string)
    ensures forall k :: 0 <= k < |paths| && Loadable(files, paths[k], system)
                        && (forall i :: 0 <= i < k ==> !Loadable(files, paths[i], system)) ==>
              FirstLoadable(paths, files, system) == FromYaml(files, paths[k], system).value
    ensures (forall i :: 0 <= i < |paths| ==> !Loadable(files, paths[i], system)) ==>
              FirstLoadable(paths, files, system) == Default(system)
  {
    if forall i :: 0 <= i < |paths| ==> !Loadable(files, paths[i], system) {
      NoneLoadable(paths, files, system);
    }
    forall k | 0 <= k < |paths| && Loadable(files, paths[k], system)
               && (forall i :: 0 <= i < k ==> !Loadable(files, paths[i], system))
      ensures FirstLoadable(paths, files, system) == FromYaml(files, paths[k], system).value
    {
      FirstLoadableWins(paths, files, system, k);
    }
  }

  /** `_load_from_default_paths`. */
  function LoadFromDefaultPaths(files: Files, system: string): (c: StationConfig)
    ensures forall k :: 0 <= k < |ConfigPaths| && Loadable(files, ConfigPaths[k], system)
                        && (forall i :: 0 <= i < k ==> !Loadable(files, ConfigPaths[i], system)) ==>
              c == FromYaml(files, ConfigPaths[k], system).value
    ensures (forall i :: 0 <= i < |ConfigPaths| ==> !Loadable(files, ConfigPaths[i], system)) ==> c == Default(system)
  {
    SearchOutcome(ConfigPaths, files, system);
    FirstLoadable(ConfigPaths, files, system)
  }

  /** The environment: the variables that are set, with their values. */
  type Env = map<string, string>

  /** `if os.getenv(name)`: set and non-empty. */
  predicate EnvSet(env: Env, name: string) {
    name in env && |env[name]| > 0
  }

  /** `_apply_env_overrides`: each of the five variables replaces its field
      when set and non-empty; the Redis port goes through `int()`, which
      raises ValueError on text that is not an integer. */
  function ApplyEnvOverrides(c: StationConfig, env: Env): (r: Outcome<StationConfig>)
    ensures r.Err? <==> EnvSet(env, "MESHTASTIC_REDIS_PORT") && Text.ParseInt(env["MESHTASTIC_REDIS_PORT"]).None?
    ensures r.Ok? ==>
              r.value.redis.host == (if EnvSet(env, "MESHTASTIC_REDIS_HOST") then VStr(env["MESHTASTIC_REDIS_HOST"]) else c.redis.host)
              && r.value.redis.port == (if EnvSet(env, "MESHTASTIC_REDIS_PORT") then VInt(Text.ParseInt(env["MESHTASTIC_REDIS_PORT"]).value) else c.redis.port)
              && r.value.redis.password == (if EnvSet(env, "MESHTASTIC_REDIS_PASSWORD") then VStr(env["MESHTASTIC_REDIS_PASSWORD"]) else c.redis.password)
              && r.value.device.port == (if EnvSet(env, "MESHTASTIC_DEVICE_PORT") then VStr(env["MESHTASTIC_DEVICE_PORT"]) else c.device.port)
              && r.value.logCfg.level == (if EnvSet(env, "MESHTASTIC_LOG_LEVEL") then VStr(env["MESHTASTIC_LOG_LEVEL"]) else c.logCfg.level)
    ensures r.Ok? ==> r.value.redis.db == c.redis.db && r.value.redis.decodeResponses == c.redis.decodeResponses
                      && r.value.device.baudRate == c.device.baudRate && r.value.device.timeout == c.device.timeout
                      && r.value.logCfg.file == c.logCfg.file && r.value.logCfg.useThreshold == c.logCfg.useThreshold
                      && r.value.logCfg.format == c.logCfg.format && r.value.logCfg.debugging == c.logCfg.debugging
                      && r.value.uiCfg == c.uiCfg && r.value.dataRetentionDays == c.dataRetentionDays
                      && r.value.environment == c.environment
  {
    var c1 := if EnvSet(env, "MESHTASTIC_REDIS_HOST") then c.(redis := c.redis.(host := VStr(env["MESHTASTIC_REDIS_HOST"]))) else c;
    var port :- if EnvSet(env, "MESHTASTIC_REDIS_PORT") then
                  (match Text.ParseInt(env["MESHTASTIC_REDIS_PORT"])
                   case Some(p) => Ok(VInt(p))
                   case None => Err(ValueError))
                else Ok(c1.redis.port);
    var c2 := c1.(redis := c1.redis.(port := port));
    var c3 := if EnvSet(env, "MESHTASTIC_REDIS_PASSWORD") then c2.(redis := c2.redis.(password := VStr(env["MESHTASTIC_REDIS_PASSWORD"]))) else c2;
    var c4 := if EnvSet(env, "MESHTASTIC_DEVICE_PORT") then c3.(device := c3.device.(port := VStr(env["MESHTASTIC_DEVICE_PORT"]))) else c3;
    var c5 := if EnvSet(env, "MESHTASTIC_LOG_LEVEL") then c4.(logCfg := c4.logCfg.(level := VStr(env["MESHTASTIC_LOG_LEVEL"]))) else c4;
    Ok(c5)
  }

  /** With none of the variables set, or all of them empty, nothing changes. */
  lemma NoOverridesNoChange(c: StationConfig, env: Env)
    requires forall name :: name in env ==> |env[name]| == 0
    ensures ApplyEnvOverrides(c, env) == Ok(c)
  {
  }

  /** A port written as decimal text is read back as that integer. */
  lemma PortOverrideRoundTrip(c: StationConfig, port: int)
    ensures ApplyEnvOverrides(c, map["MESHTASTIC_REDIS_PORT" := Text.IntToDecimal(port)]).Ok?
    ensures ApplyEnvOverrides(c, map["MESHTASTIC_REDIS_PORT" := Text.IntToDecimal(port)]).value.redis.port == VInt(port)
  {
    Text.IntDecimalRoundTrip(port);
    assert |Text.IntToDecimal(port)| > 0;
  }

  /** `BaseStationConfig.load(path)`: the given file when `path` is truthy,
      otherwise the search; then the environment overrides. */
  function Load(path: Option<string>, files: Files, env: Env, system: string): (r: Outcome<StationConfig>)
    ensures path.Some? && |path.value| > 0 ==> r == ApplyEnvOverrides(LoadFromPath(path.value, files, system), env)
    ensures path.None? || |path.value| == 0 ==> r == ApplyEnvOverrides(LoadFromDefaultPaths(files, system), env)
  {
    var c := if path.Some? && |path.value| > 0 then LoadFromPath(path.value, files, system) else LoadFromDefaultPaths(files, system);
    ApplyEnvOverrides(c, env)
  }

  /** The environment wins over any file: a set host is the host loaded. */
  lemma EnvWinsOverFile(path: Option<string>, files: Files, env: Env, system: string)
    requires EnvSet(env, "MESHTASTIC_REDIS_HOST") && Load(path, files, env, system).Ok?
    ensures Load(path, files, env, system).value.redis.host == VStr(env["MESHTASTIC_REDIS_HOST"])
  {
  }
}

=== FILE: console.dfy ===
/** The older console program, mesh_console.py: radio callbacks build update
    dicts for an unbounded asyncio queue, `redis_writer` drains that queue into
    the legacy store, and `load_previous_data` lists stored messages with
    node names resolved. The timestamp each callback stamps is a parameter;
    the callbacks as written call an unbound `format_timestamp` and are
    modelled separately by the `AsWritten` members. */
module Console {
  import opened Wrappers
  import opened PyValue
  import opened Json
  import Text
  import Ingress
  import LegacyStore

  /** Python's `a or b`: `a` when it is truthy, otherwise `b`. */
  function Or(a: Value, b: Value): (r: Value)
    ensures Truthy(a) ==> r == a
    ensures !Truthy(a) ==> r == b
  {
    if Truthy(a) then a else b
  }

  /** `packet.get("decoded", {})`, which must itself be a dict for the next `.get`. */
  function Decoded(e: map<string, Value>): Outcome<map<string, Value>> {
    match Get(e, "decoded", VDict(map[]))
    case VDict(d) => Ok(d)
    case _ => Err(AttributeError)
  }

  /** The update `on_text_message` enqueues: sender "[Unknown ID]", recipient
      "^all" and text "[No text]" when the packet lacks them. A packet that is
      not a dict, or whose `decoded` is not one, raises AttributeError. */
  function TextUpdate(packet: Value, timestamp: string): (r: Outcome<Value>)
    ensures r.Ok? <==> packet.VDict? && Get(packet.entries, "decoded", VDict(map[])).VDict?
    ensures r.Err? ==> r.error == AttributeError
    ensures r.Ok? ==> r.value.VDict?
                      && r.value.entries.Keys == {"type", "station_id", "to_id", "text_message", "timestamp"}
                      && r.value.entries["type"] == VStr("message")
                      && r.value.entries["station_id"] == Get(packet.entries, "fromId", VStr("[Unknown ID]"))
                      && r.value.entries["to_id"] == Get(packet.entries, "toId", VStr("^all"))
                      && r.value.entries["text_message"] ==
                           Get(Get(packet.entries, "decoded", VDict(map[])).entries, "text", VStr("[No text]"))
                      && r.value.entries["timestamp"] == VStr(timestamp)
  {
    match packet
    case VDict(e) =>
      var d :- Decoded(e);
      Ok(VDict(map["type" := VStr("message"),
                   "station_id" := Get(e, "fromId", VStr("[Unknown ID]")),
                   "to_id" := Get(e, "toId", VStr("^all")),
                   "text_message" := Get(d, "text", VStr("[No text]")),
                   "timestamp" := VStr(timestamp)]))
    case _ => Err(AttributeError)
  }

  /** The name `on_node_message` picks: `longName or shortName or node_id`,
      each name defaulting to "" — so an empty name falls through. */
  function CallbackName(user: map<string, Value>, nodeId: Value): (r: Value)
    ensures Truthy(Get(user, "longName", VStr(""))) ==> r == user["longName"]
    ensures !Truthy(Get(user, "longName", VStr(""))) && Truthy(Get(user, "shortName", VStr(""))) ==> r == user["shortName"]
    ensures !Truthy(Get(user, "longName", VStr(""))) && !Truthy(Get(user, "shortName", VStr(""))) ==> r == nodeId
  {
    Or(Get(user, "longName", VStr("")), Or(Get(user, "shortName", VStr("")), nodeId))
  }

  /** The update `on_node_message` enqueues. The packet, its `decoded` and the
      `user` inside it must each be a dict (or, for the last two, absent);
      otherwise AttributeError is raised. */
  function NodeUpdate(packet: Value, timestamp: string): (r: Outcome<Value>)
    ensures r.Ok? <==> packet.VDict? && Get(packet.entries, "decoded", VDict(map[])).VDict?
                       && Get(Get(packet.entries, "decoded", VDict(map[])).entries, "user", VDict(map[])).VDict?
    ensures r.Err? ==> r.error == AttributeError
    ensures r.Ok? ==> r.value.VDict? && r.value.entries.Keys == {"type", "node_id", "node_name", "timestamp"}
                      && r.value.entries["type"] == VStr("node")
                      && r.value.entries["node_id"] == Get(packet.entries, "fromId", VStr("[Unknown ID]"))
                      && r.value.entries["node_name"] ==
                           CallbackName(Get(Get(packet.entries, "decoded", VDict(map[])).entries, "user", VDict(map[])).entries,
                                        Get(packet.entries, "fromId", VStr("[Unknown ID]")))
                      && r.value.entries["timestamp"] == VStr(timestamp)
  {
    match packet
    case VDict(e) =>
      var d :- Decoded(e);
      (match Get(d, "user", VDict(map[]))
       case VDict(u) =>
         var nodeId := Get(e, "fromId", VStr("[Unknown ID]"));
         Ok(VDict(map["type" := VStr("node"), "node_id" := nodeId,
                      "node_name" := CallbackName(u, nodeId), "timestamp" := VStr(timestamp)]))
       case _ => Err(AttributeError))
    case _ => Err(AttributeError)
  }

  /** A callback: build the update and put it on the queue; any error is logged
      and swallowed, so the queue is then unchanged. */
  function Enqueue(q: Ingress.Queue, update: Outcome<Value>): (r: Ingress.Queue)
    ensures update.Ok? && !Ingress.Full(q) ==> r.items == q.items + [update.value] && r.unfinished == q.unfinished + 1
    ensures update.Err? || Ingress.Full(q) ==> r == q
    ensures Ingress.Valid(q) ==> Ingress.Valid(r)
  {
    match update
    case Err(_) => q
    case Ok(u) =>
      (match Ingress.PutNowait(q, u)
       case Some(q2) => q2
       case None => q)
  }

  /** `on_text_message`. */
  function OnTextMessage(q: Ingress.Queue, packet: Value, timestamp: string): (r: Ingress.Queue)
    ensures q.maxsize == 0 && TextUpdate(packet, timestamp).Ok? ==> r.items == q.items + [TextUpdate(packet, timestamp).value]
    ensures TextUpdate(packet, timestamp).Err? ==> r == q
  {
    Enqueue(q, TextUpdate(packet, timestamp))
  }

  /** `on_node_message`. */
  function OnNodeMessage(q: Ingress.Queue, packet: Value, timestamp: string): (r: Ingress.Queue)
    ensures q.maxsize == 0 && NodeUpdate(packet, timestamp).Ok? ==> r.items == q.items + [NodeUpdate(packet, timestamp).value]
    ensures NodeUpdate(packet, timestamp).Err? ==> r == q
  {
    Enqueue(q, NodeUpdate(packet, timestamp))
  }

  /** `on_text_message` as written: the fields are read as in `TextUpdate`,
      then the call of `format_timestamp` — a name the module never binds; it
      is a static method of the console's `RedisHandler` — raises NameError,
      which the callback catches. */
  function TextUpdateAsWritten(packet: Value): (r: Outcome<Value>)
    ensures r.Err?
    ensures forall ts :: TextUpdate(packet, ts).Ok? ==> r.error == NameError
    ensures forall ts :: TextUpdate(packet, ts).Err? ==> r == TextUpdate(packet, ts)
  {
    match packet
    case VDict(e) =>
      var d :- Decoded(e);
      Err(NameError)
    case _ => Err(AttributeError)
  }

  /** `on_node_message` as written: the same NameError, after the node id and
      the two names have been read. */
  function NodeUpdateAsWritten(packet: Value): (r: Outcome<Value>)
    ensures r.Err?
    ensures forall ts :: NodeUpdate(packet, ts).Ok? ==> r.error == NameError
    ensures forall ts :: NodeUpdate(packet, ts).Err? ==> r == NodeUpdate(packet, ts)
  {
    match packet
    case VDict(e) =>
      var d :- Decoded(e);
      (match Get(d, "user", VDict(map[]))
       case VDict(u) => Err(NameError)
       case _ => Err(AttributeError))
    case _ => Err(AttributeError)
  }

  /** `on_text_message` as written never queues anything. */
  function OnTextMessageAsWritten(q: Ingress.Queue, packet: Value): (r: Ingress.Queue)
    ensures r == q
  {
    Enqueue(q, TextUpdateAsWritten(packet))
  }

  /** `on_node_message` as written never queues anything. */
  function OnNodeMessageAsWritten(q: Ingress.Queue, packet: Value): (r: Ingress.Queue)
    ensures r == q
  {
    Enqueue(q, NodeUpdateAsWritten(packet))
  }

  /** The gap: a well-formed text message on an unbounded queue is dropped by
      the callback as written and queued by the corrected one. */
  lemma TextCallbackDropsMessage(q: Ingress.Queue, ts: string)
    requires q.maxsize == 0
    ensures var packet := VDict(map["fromId" := VStr("!0000abcd"), "decoded" := VDict(map["text" := VStr("hi")])]);
            OnTextMessageAsWritten(q, packet) == q
            && OnTextMessage(q, packet, ts).items == q.items + [TextUpdate(packet, ts).value]
            && TextUpdate(packet, ts).value.entries["text_message"] == VStr("hi")
  {
  }

  /** Likewise for a node announcement. */
  lemma NodeCallbackDropsAnnouncement(q: Ingress.Queue, ts: string)
    requires q.maxsize == 0
    ensures var packet := VDict(map["fromId" := VStr("!0000abcd"), "decoded" := VDict(map["user" := VDict(map["longName" := VStr("Base")])])]);
            OnNodeMessageAsWritten(q, packet) == q
            && OnNodeMessage(q, packet, ts).items == q.items + [NodeUpdate(packet, ts).value]
            && NodeUpdate(packet, ts).value.entries["node_name"] == VStr("Base")
  {
  }

  /** The two naming rules differ: with `longName` present but empty, the
      connected node is named "" (key presence), while a node announcement
      falls through to `shortName` (truthiness). */
  lemma NamingRulesDiffer()
    ensures var user := map["longName" := VStr(""), "shortName" := VStr("AB")];
            var info := VDict(map["num" := VInt(0xabcd), "user" := VDict(user)]);
            LegacyStore.ConnectedNode(info).Ok? && LegacyStore.ConnectedNode(info).value.Some?
            && LegacyStore.ConnectedNode(info).value.value.1 == VStr("")
            && CallbackName(user, VStr("!0000abcd")) == VStr("AB")
  {
    var user := map["longName" := VStr(""), "shortName" := VStr("AB")];
    var info := VDict(map["num" := VInt(0xabcd), "user" := VDict(user)]);
    LegacyStore.ConnectedNodeName(info);
  }

  /** The updates `redis_writer` applies, one after another, each with the
      store's availability at that moment. */
  function ApplyAll(s: LegacyStore.Store, updates: seq<Value>, ups: seq<bool>): LegacyStore.Store
    requires |ups| == |updates|
    decreases |updates|
  {
    if |updates| == 0 then s
    else ApplyAll(LegacyStore.ProcessUpdate(s, updates[0], ups[0]), updates[1..], ups[1..])
  }

  /** `redis_writer` until the queue is empty: each update is taken from the
      head, handed to `process_update`, and marked done in the `finally`
      clause, so a failing update is marked done too. */
  method RedisWriter(q: Ingress.Queue, s: LegacyStore.Store, ups: seq<bool>) returns (q': Ingress.Queue, s': LegacyStore.Store)
    requires Ingress.Valid(q) && |ups| == |q.items|
    ensures q'.items == [] && q'.maxsize == q.maxsize
    ensures q'.unfinished == q.unfinished - |q.items|
    ensures s' == ApplyAll(s, q.items, ups)
  {
    q', s' := q, s;
    var i := 0;
    while i < |q.items|
      invariant 0 <= i <= |q.items|
      invariant q'.items == q.items[i..] && q'.maxsize == q.maxsize
      invariant q'.unfinished == q.unfinished - i
      invariant ApplyAll(s', q.items[i..], ups[i..]) == ApplyAll(s, q.items, ups)
    {
      var update := q'.items[0];
      q' := Ingress.Queue(q'.items[1..], q'.maxsize, q'.unfinished - 1);
      assert q.items[i..][1..] == q.items[i + 1..] && ups[i..][1..] == ups[i + 1..];
      s' := LegacyStore.ProcessUpdate(s', update, ups[i]);
      i := i + 1;
    }
  }

  /** A listed message: its timestamp, resolved sender and recipient, and text. */
  datatype Listed = Listed(timestamp: Value, sender: Value, recipient: Value, message: Value)

  /** `nodes.get(id, id)`: a known id resolves to its name, any other value is
      shown as itself; a list or dict cannot be a dict key and raises. */
  function Resolve(nodes: LegacyStore.Hash, id: Value): (r: Outcome<Value>)
    ensures id.VStr? && id.s in nodes ==> r == Ok(VStr(nodes[id.s]))
    ensures id.VStr? && id.s !in nodes ==> r == Ok(id)
    ensures r.Err? <==> id.VList? || id.VDict?
  {
    match id
    case VStr(k) => Ok(if k in nodes then VStr(nodes[k]) else id)
    case VList(_) => Err(TypeError)
    case VDict(_) => Err(TypeError)
    case _ => Ok(id)
  }

  /** One stored message as `load_previous_data` lists it: None when it does
      not decode; a missing `station_id`, `timestamp` or `message` raises,
      since only the decode error is caught. */
  function ListOne(nodes: LegacyStore.Hash, m: Blob, parse: string -> Option<Value>): (r: Outcome<Option<Listed>>)
    ensures Loads(m, parse).None? ==> r == Ok(None)
    ensures r.Ok? && r.value.Some? ==>
              Loads(m, parse).Some? && Loads(m, parse).value.VDict? &&
              var e := Loads(m, parse).value.entries;
              "station_id" in e && "timestamp" in e && "message" in e
              && r.value.value.timestamp == e["timestamp"] && r.value.value.message == e["message"]
              && Resolve(nodes, e["station_id"]) == Ok(r.value.value.sender)
              && Resolve(nodes, Get(e, "to_id", VStr("^all"))) == Ok(r.value.value.recipient)
  {
    match Loads(m, parse)
    case None => Ok(None)
    case Some(VDict(e)) =>
      if "station_id" !in e then Err(KeyError("station_id"))
      else
        var sender :- Resolve(nodes, e["station_id"]);
        var recipient :- Resolve(nodes, Get(e, "to_id", VStr("^all")));
        if "timestamp" !in e then Err(KeyError("timestamp"))
        else if "message" !in e then Err(KeyError("message"))
        else Ok(Some(Listed(e["timestamp"], sender, recipient, e["message"])))
    case Some(_) => Err(TypeError)
  }

  /** The parsed messages in stored order, undecodable ones skipped. */
  function ListAll(nodes: LegacyStore.Hash, msgs: seq<Blob>, parse: string -> Option<Value>): (r: Outcome<seq<Listed>>)
    ensures r.Ok? ==> |r.value| <= |msgs|
    ensures r.Ok? <==> forall i :: 0 <= i < |msgs| ==> ListOne(nodes, msgs[i], parse).Ok?
    decreases |msgs|
  {
    if |msgs| == 0 then Ok([])
    else
      var first :- ListOne(nodes, msgs[0], parse);
      var rest :- ListAll(nodes, msgs[1..], parse);
      assert forall i :: 1 <= i < |msgs| ==> msgs[i] == msgs[1..][i - 1];
      Ok((if first.Some? then [first.value] else []) + rest)
  }

  /** When every entry lists, the result is exactly the listed (non-None)
      entries, in stored order. */
  lemma {:induction false} ListAllIsKept(nodes: LegacyStore.Hash, msgs: seq<Blob>, parse: string -> Option<Value>)
    requires forall i :: 0 <= i < |msgs| ==> ListOne(nodes, msgs[i], parse).Ok?
    ensures ListAll(nodes, msgs, parse) ==
              Ok(Somes(seq(|msgs|, i requires 0 <= i < |msgs| => ListOne(nodes, msgs[i], parse).value)))
    decreases |msgs|
  {
    if |msgs| > 0 {
      var results := seq(|msgs|, i requires 0 <= i < |msgs| => ListOne(nodes, msgs[i], parse).value);
      var tail := msgs[1..];
      assert forall i :: 0 <= i < |tail| ==> tail[i] == msgs[i + 1];
      ListAllIsKept(nodes, tail, parse);
      assert results[1..] == seq(|tail|, i requires 0 <= i < |tail| => ListOne(nodes, tail[i], parse).value);
    }
  }

  predicate StrStamped(e: Listed) {
    e.timestamp.VStr?
  }

  predicate AllStrStamped(s: seq<Listed>) {
    forall i :: 0 <= i < |s| ==> StrStamped(s[i])
  }

  /** The sort key: the timestamp text. */
  function Key(e: Listed): string {
    if e.timestamp.VStr? then e.timestamp.s else ""
  }

  predicate SortedByTime(s: seq<Listed>) {
    forall i :: 0 < i < |s| ==> Text.StrLe(Key(s[i - 1]), Key(s[i]))
  }

  /** Insert before the first entry that is not earlier, so an entry stays
      ahead of equal-timestamp entries that came after it. */
  function Insert(x: Listed, s: seq<Listed>): (r: seq<Listed>)
    ensures |r| == |s| + 1
    ensures multiset(r) == multiset(s) + multiset{x}
    ensures r[0] == x || (|s| > 0 && r[0] == s[0])
    decreases |s|
  {
    if |s| == 0 || Text.StrLe(Key(x), Key(s[0])) then [x] + s
    else
      assert s == [s[0]] + s[1..];
      [s[0]] + Insert(x, s[1..])
  }

  lemma {:induction false} InsertSorted(x: Listed, s: seq<Listed>)
    requires SortedByTime(s)
    ensures SortedByTime(Insert(x, s))
    decreases |s|
  {
    if |s| > 0 && !Text.StrLe(Key(x), Key(s[0])) {
      Text.StrLeTotal(Key(x), Key(s[0]));
      InsertSorted(x, s[1..]);
      var rest := Insert(x, s[1..]);
      assert Insert(x, s) == [s[0]] + rest;
      assert |s| > 1 ==> Text.StrLe(Key(s[0]), Key(s[1]));
    }
  }

  /** `sorted(parsed, key=timestamp)`, built by repeated insertion. */
  function SortByTime(s: seq<Listed>): (r: seq<Listed>)
    ensures |r| == |s|
    ensures multiset(r) == multiset(s)
    decreases |s|
  {
    if |s| == 0 then []
    else
      assert s == [s[0]] + s[1..];
      Insert(s[0], SortByTime(s[1..]))
  }

  lemma {:induction false} SortByTimeSorted(s: seq<Listed>)
    ensures SortedByTime(SortByTime(s))
    decreases |s|
  {
    if |s| > 0 {
      SortByTimeSorted(s[1..]);
      InsertSorted(s[0], SortByTime(s[1..]));
    }
  }

  /** The message listing of `load_previous_data`: parse every stored message,
      then order by timestamp. Comparing a string timestamp with a non-string
      raises TypeError; a listing of at most one entry compares nothing. */
  function ListMessages(nodes: LegacyStore.Hash, msgs: seq<Blob>, parse: string -> Option<Value>): (r: Outcome<seq<Listed>>)
    ensures r.Ok? ==> ListAll(nodes, msgs, parse).Ok? && multiset(r.value) == multiset(ListAll(nodes, msgs, parse).value)
    ensures r.Ok? ==> SortedByTime(r.value)
    ensures ListAll(nodes, msgs, parse).Ok? && AllStrStamped(ListAll(nodes, msgs, parse).value) ==> r.Ok?
  {
    var parsed :- ListAll(nodes, msgs, parse);
    if |parsed| <= 1 then Ok(parsed)
    else if AllStrStamped(parsed) then
      SortByTimeSorted(parsed);
      Ok(SortByTime(parsed))
    else Err(TypeError)
  }
}

=== FILE: data_handler.dfy ===
/** `MeshtasticDataHandler` in src/station/handlers/data_handler.py: routes a
    decoded packet by its portnum to a normaliser, stores the normalised record
    as JSON under its category's key, and formats stored records for display. */
module DataHandler {
  import opened Wrappers
  import opened PyValue
  import opened Schema
  import opened Validation
  import opened Normaliser
  import opened Gateway
  import opened Json

  /** The Redis lists this handler writes: JSON strings. */
  type Store = Db<Blob>

  /** The three handlers of the dispatch table. */
  datatype Handler = HandleNodeInfo | HandleText | HandleTelemetry

  /** `self.packet_handlers.get(portnum)`: a string key of the table selects its
      handler, any other hashable value selects none, and a list or dict raises
      TypeError because it cannot be hashed. */
  function HandlerFor(portnum: Value): (r: Outcome<Option<Handler>>)
    ensures r.Err? <==> portnum.VList? || portnum.VDict?
    ensures r == Ok(Some(HandleNodeInfo)) <==> portnum == VStr("NODEINFO_APP")
    ensures r == Ok(Some(HandleText)) <==> portnum == VStr("TEXT_MESSAGE_APP")
    ensures r == Ok(Some(HandleTelemetry)) <==> portnum == VStr("TELEMETRY_APP")
  {
    match portnum
    case VList(_) => Err(TypeError)
    case VDict(_) => Err(TypeError)
    case VStr(s) =>
      if s == "NODEINFO_APP" then Ok(Some(HandleNodeInfo))
      else if s == "TEXT_MESSAGE_APP" then Ok(Some(HandleText))
      else if s == "TELEMETRY_APP" then Ok(Some(HandleTelemetry))
      else Ok(None)
    case _ => Ok(None)
  }

  /** The telemetry handler's choice: `deviceMetrics` wins over `localStats`,
      which wins over `environmentMetrics`; the `in` tests raise TypeError on a
      value that is not a container. */
  function TelemetryKind(telemetry: Value): (r: Outcome<Option<RecordKind>>)
    ensures telemetry.VDict? ==> r.Ok?
    ensures r.Ok? && r.value.Some? ==> r.value.value in PacketTypes("TELEMETRY_APP")
    ensures telemetry.VDict? ==>
              (r.value == Some(DeviceTelemetry) <==> "deviceMetrics" in telemetry.entries)
    ensures telemetry.VDict? ==>
              (r.value == Some(NetworkTelemetry) <==>
                 "deviceMetrics" !in telemetry.entries && "localStats" in telemetry.entries)
    ensures telemetry.VDict? ==>
              (r.value == Some(EnvironmentTelemetry) <==>
                 "deviceMetrics" !in telemetry.entries && "localStats" !in telemetry.entries
                 && "environmentMetrics" in telemetry.entries)
    ensures telemetry.VDict? ==>
              (r.value == None <==>
                 "deviceMetrics" !in telemetry.entries && "localStats" !in telemetry.entries
                 && "environmentMetrics" !in telemetry.entries)
  {
    if !(telemetry.VDict? || telemetry.VStr? || telemetry.VList?) then Err(TypeError)
    else if In("deviceMetrics", telemetry).value then Ok(Some(DeviceTelemetry))
    else if In("localStats", telemetry).value then Ok(Some(NetworkTelemetry))
    else if In("environmentMetrics", telemetry).value then Ok(Some(EnvironmentTelemetry))
    else Ok(None)
  }

  /** The `portnum` of a packet, a string when it is one. */
  function PortName(packet: Value): string {
    if packet.VDict? && "decoded" in packet.entries && packet.entries["decoded"].VDict?
       && "portnum" in packet.entries["decoded"].entries
       && packet.entries["decoded"].entries["portnum"].VStr?
    then packet.entries["decoded"].entries["portnum"].s
    else ""
  }

  /** `packet['decoded']['telemetry']`. */
  function TelemetryOf(packet: Value): (r: Outcome<Value>)
    ensures r.Ok? <==> packet.VDict? && "decoded" in packet.entries && packet.entries["decoded"].VDict?
                       && "telemetry" in packet.entries["decoded"].entries
    ensures r.Ok? ==> r.value == packet.entries["decoded"].entries["telemetry"]
  {
    var decoded :- Subscript(packet, "decoded");
    Subscript(decoded, "telemetry")
  }

  /** The record kind a packet is routed to, or None when it is routed nowhere
      or routing raises. A telemetry packet goes where its `decoded.telemetry`
      sub-structure sends it. */
  function Route(packet: Value): (r: Option<RecordKind>)
    ensures r.Some? ==> r.value in PacketTypes(PortName(packet))
    ensures PortName(packet) == "NODEINFO_APP" ==> r == Some(NodeInfo)
    ensures PortName(packet) == "TEXT_MESSAGE_APP" ==> r == Some(TextMessage)
    ensures PortName(packet) == "TELEMETRY_APP" ==>
              r == (if TelemetryOf(packet).Ok? && TelemetryKind(TelemetryOf(packet).value).Ok?
                    then TelemetryKind(TelemetryOf(packet).value).value else None)
  {
    var found := (
      var decoded :- Subscript(packet, "decoded");
      var portnum :- Subscript(decoded, "portnum");
      var handler :- HandlerFor(portnum);
      match handler
      case None => Ok(None)
      case Some(HandleNodeInfo) => Ok(Some(NodeInfo))
      case Some(HandleText) => Ok(Some(TextMessage))
      case Some(HandleTelemetry) =>
        var telemetry :- Subscript(decoded, "telemetry");
        TelemetryKind(telemetry));
    if found.Ok? then found.value else None
  }

  /** `_handle_*` for one kind: normalise, then store the JSON under the
      kind's key. A raised error leaves the store as it was. */
  function Handle(db: Store, k: RecordKind, packet: Value, now: string, up: bool): (r: Outcome<Store>)
    ensures r.Ok? <==> Normalise(k, packet, now).Ok? && up
    ensures r.Ok? ==> StoreKind(db, k, Dumps(VDict(Normalise(k, packet, now).value)), up) == r
  {
    var rec :- Normalise(k, packet, now);
    StoreKind(db, k, Dumps(VDict(rec)), up)
  }

  /** `process_packet`: never raises; either the store is unchanged or exactly
      one category gains the packet's normalised record at its head. The
      `packet_type` argument only appears in log lines and is not modelled. */
  function ProcessPacket(db: Store, packet: Value, now: string, up: bool): (r: Store)
    ensures Route(packet).None? ==> r == db
    ensures !up ==> r == db
    ensures r != db ==> Route(packet).Some? && Normalise(Route(packet).value, packet, now).Ok?
    ensures Route(packet).Some? && up && Normalise(Route(packet).value, packet, now).Ok? ==>
              var k := Route(packet).value;
              && ListAt(r, KeyOf(k)) == [Json(VDict(Normalise(k, packet, now).value))] + ListAt(db, KeyOf(k))
              && forall other :: other != k ==> ListAt(r, KeyOf(other)) == ListAt(db, KeyOf(other))
  {
    match Route(packet)
    case None => db
    case Some(k) =>
      match Handle(db, k, packet, now, up)
      case Ok(db2) => db2
      case Err(_) => db
  }

  /** Whatever a packet does to the store, every category list either stays as
      it was or grows by exactly one record at its head, of that category's
      kind and conforming to its TypedDict; at most one category changes. */
  lemma ProcessPacketGrowsOneCategory(db: Store, packet: Value, now: string, up: bool, k: RecordKind)
    ensures var r := ProcessPacket(db, packet, now, up);
            || ListAt(r, KeyOf(k)) == ListAt(db, KeyOf(k))
            || (&& Route(packet) == Some(k)
                && |ListAt(r, KeyOf(k))| == |ListAt(db, KeyOf(k))| + 1
                && ListAt(r, KeyOf(k))[1..] == ListAt(db, KeyOf(k))
                && ListAt(r, KeyOf(k))[0].Json?
                && ListAt(r, KeyOf(k))[0].v.VDict?
                && Conforms(SchemaOf(k), ListAt(r, KeyOf(k))[0].v)
                && ListAt(r, KeyOf(k))[0].v.entries["type"] == VStr(TypeTag(k)))
    ensures var r := ProcessPacket(db, packet, now, up);
            forall other :: other != k && ListAt(r, KeyOf(k)) != ListAt(db, KeyOf(k)) ==>
              ListAt(r, KeyOf(other)) == ListAt(db, KeyOf(other))
  {
    var r := ProcessPacket(db, packet, now, up);
    if Route(packet).Some? && up && Normalise(Route(packet).value, packet, now).Ok? {
      var j := Route(packet).value;
      if j != k {
        KeysDistinct(j, k);
      }
    }
  }

  // ------------------------------------------------------------------ display

  /** A display row: field name to the value shown. */
  type Row = map<string, Value>

  /** A number rendered with a fixed-point format such as `:.1f`; a value that
      is not a number makes the format raise. The rendering itself is not
      modelled: the row keeps the number. */
  function Fixed(v: Value): (r: Outcome<Value>)
    ensures r.Ok? <==> v.VInt? || v.VBool? || v.VFloat?
    ensures r.Ok? ==> r.value == v
  {
    if v.VInt? || v.VBool? || v.VFloat? then Ok(v) else Err(ValueError)
  }

  /** `str(stats[k])`. */
  function Shown(d: Value, k: string): (r: Outcome<Value>)
    ensures r.Ok? <==> d.VDict? && k in d.entries
    ensures r.Ok? ==> r.value == VStr(ToStr(d.entries[k]))
  {
    var v :- Subscript(d, k);
    Ok(VStr(ToStr(v)))
  }

  /** The row of `format_node_for_display` from decoded data. */
  function NodeRow(data: Value): Outcome<Row> {
    var ts :- Subscript(data, "timestamp");
    var id :- Subscript(data, "from_id");
    var user :- Subscript(data, "user");
    var name :- Subscript(user, "long_name");
    Ok(map["timestamp" := ts, "id" := id, "name" := name])
  }

  /** The row of `format_message_for_display` from decoded data. */
  function MessageRow(data: Value): Outcome<Row> {
    var ts :- Subscript(data, "timestamp");
    var from :- Subscript(data, "from_id");
    var to :- Subscript(data, "to_id");
    var text :- Subscript(data, "text");
    Ok(map["timestamp" := ts, "from" := from, "to" := to, "text" := text])
  }

  /** The row of `format_device_telemetry_for_display` from decoded data;
      `channel_utilization` is read with a default of 0. */
  function DeviceRow(data: Value): Outcome<Row> {
    var m :- Subscript(data, "device_metrics");
    var ts :- Subscript(data, "timestamp");
    var from :- Subscript(data, "from_id");
    var battery :- Shown(m, "battery_level");
    var voltageV :- Subscript(m, "voltage");
    var voltage :- Fixed(voltageV);
    var chanV :- GetOr(m, "channel_utilization", VInt(0));
    var chan :- Fixed(chanV);
    var airV :- Subscript(m, "air_util_tx");
    var air :- Fixed(airV);
    Ok(map["timestamp" := ts, "from_id" := from, "battery" := battery, "voltage" := voltage,
           "channel_util" := chan, "air_util" := air])
  }

  /** The row of `format_network_telemetry_for_display` from decoded data. */
  function NetworkRow(data: Value): Outcome<Row> {
    var s :- Subscript(data, "local_stats");
    var ts :- Subscript(data, "timestamp");
    var from :- Subscript(data, "from_id");
    var online :- Shown(s, "num_online_nodes");
    var total :- Shown(s, "num_total_nodes");
    var tx :- Shown(s, "num_packets_tx");
    var rx :- Shown(s, "num_packets_rx");
    var bad :- Shown(s, "num_packets_rx_bad");
    Ok(map["timestamp" := ts, "from_id" := from, "online_nodes" := online, "total_nodes" := total,
           "packets_tx" := tx, "packets_rx" := rx, "packets_rx_bad" := bad])
  }

  /** The row of `format_environment_telemetry_for_display` from decoded data. */
  function EnvironmentRow(data: Value): Outcome<Row> {
    var m :- Subscript(data, "environment_metrics");
    var ts :- Subscript(data, "timestamp");
    var from :- Subscript(data, "from_id");
    var tempV :- Subscript(m, "temperature");
    var temp :- Fixed(tempV);
    var humV :- Subscript(m, "relative_humidity");
    var hum :- Fixed(humV);
    var pressV :- Subscript(m, "barometric_pressure");
    var press :- Fixed(pressV);
    Ok(map["timestamp" := ts, "from_id" := from, "temperature" := temp, "humidity" := hum, "pressure" := press])
  }

  /** The display row of each category. */
  function RowOf(k: RecordKind, data: Value): Outcome<Row> {
    match k
    case NodeInfo => NodeRow(data)
    case TextMessage => MessageRow(data)
    case DeviceTelemetry => DeviceRow(data)
    case NetworkTelemetry => NetworkRow(data)
    case EnvironmentTelemetry => EnvironmentRow(data)
  }

  /** `format_*_for_display`: undecodable JSON gives None; a missing key or a
      wrongly typed field raises, since only JSONDecodeError is caught. */
  function Format(k: RecordKind, entry: Blob, parse: string -> Option<Value>): (r: Outcome<Option<Row>>)
    ensures Loads(entry, parse).None? ==> r == Ok(None)
    ensures Loads(entry, parse).Some? ==>
              (r.Ok? <==> RowOf(k, Loads(entry, parse).value).Ok?)
    ensures r.Ok? && r.value.Some? ==> r.value.value == RowOf(k, Loads(entry, parse).value).value
  {
    match Loads(entry, parse)
    case None => Ok(None)
    case Some(data) =>
      var row :- RowOf(k, data);
      Ok(Some(row))
  }

  /** The rows kept from formatting each entry in turn: None results are
      dropped, and the first raised error ends the whole call. */
  function FormatAll(k: RecordKind, entries: seq<Blob>, parse: string -> Option<Value>): (r: Outcome<seq<Row>>)
    ensures r.Ok? <==> forall i :: 0 <= i < |entries| ==> Format(k, entries[i], parse).Ok?
    ensures r.Ok? ==> |r.value| <= |entries|
    decreases |entries|
  {
    if entries == [] then Ok([])
    else
      var first :- Format(k, entries[0], parse);
      var rest :- FormatAll(k, entries[1..], parse);
      assert forall i :: 1 <= i < |entries| ==> entries[i] == entries[1..][i - 1];
      match first
      case None => Ok(rest)
      case Some(row) => Ok([row] + rest)
  }

  /** `get_formatted_*(limit)`: load the category's list (newest first) and
      format every entry. */
  function GetFormatted(db: Store, k: RecordKind, limit: int, up: bool, parse: string -> Option<Value>): (r: Outcome<seq<Row>>)
    ensures !up ==> r == Ok([])
    ensures r.Ok? ==> |r.value| <= |LoadKind(db, k, limit, up)|
  {
    FormatAll(k, LoadKind(db, k, limit, up), parse)
  }

  /** The rows of entries that all decode are their rows in the same order:
      nothing is dropped and nothing is reordered. */
  lemma {:induction false} FormatAllKeepsOrder(k: RecordKind, entries: seq<Blob>, parse: string -> Option<Value>)
    requires forall i :: 0 <= i < |entries| ==> Format(k, entries[i], parse).Ok? && Format(k, entries[i], parse).value.Some?
    ensures FormatAll(k, entries, parse).Ok?
    ensures |FormatAll(k, entries, parse).value| == |entries|
    ensures forall i :: 0 <= i < |entries| ==>
              FormatAll(k, entries, parse).value[i] == Format(k, entries[i], parse).value.value
    decreases |entries|
  {
    if entries != [] {
      assert forall i :: 1 <= i < |entries| ==> entries[i] == entries[1..][i - 1];
      FormatAllKeepsOrder(k, entries[1..], parse);
    }
  }

  /** An entry that does not decode is dropped and the rest are unaffected. */
  lemma UndecodableDropped(k: RecordKind, bad: Blob, entries: seq<Blob>, parse: string -> Option<Value>)
    requires Loads(bad, parse).None?
    ensures FormatAll(k, [bad] + entries, parse) == FormatAll(k, entries, parse)
  {
    assert ([bad] + entries)[1..] == entries;
  }

  /** A field of a record that conforms to its kind's TypedDict is present and conforms. */
  lemma ConformingField(k: RecordKind, rec: Record, j: nat)
    requires Conforms(SchemaOf(k), VDict(rec)) && j < |SchemaOf(k).fields|
    ensures SchemaOf(k).fields[j].0 in rec && Conforms(SchemaOf(k).fields[j].1, rec[SchemaOf(k).fields[j].0])
  {
  }

  /** A field of a conforming sub-record is present and conforms. */
  lemma ConformingSubField(fs: seq<(string, Schema)>, v: Value, j: nat)
    requires Conforms(Rec(fs), v) && j < |fs|
    ensures v.VDict? && fs[j].0 in v.entries && Conforms(fs[j].1, v.entries[fs[j].0])
  {
  }

  /** Every conforming record is displayed without raising, except a device
      record whose optional `channel_utilization` is None, which the `:.2f`
      format rejects (the normaliser always writes a float there). The node
      row shows the sender and the user's long name, the message row the
      sender, recipient and text. */
  lemma StoredRecordFormats(k: RecordKind, rec: Record, parse: string -> Option<Value>)
    requires Conforms(SchemaOf(k), VDict(rec))
    ensures k.DeviceTelemetry? ==> (Format(k, Json(VDict(rec)), parse).Ok? <==> ChannelUtilSet(rec))
    ensures !k.DeviceTelemetry? ==> Format(k, Json(VDict(rec)), parse).Ok?
    ensures Format(k, Json(VDict(rec)), parse).Ok? ==> Format(k, Json(VDict(rec)), parse).value.Some?
    ensures k.NodeInfo? ==>
              && "timestamp" in rec && "from_id" in rec
              && "user" in rec && rec["user"].VDict? && "long_name" in rec["user"].entries
              && Format(k, Json(VDict(rec)), parse).value.value
              == map["timestamp" := rec["timestamp"], "id" := rec["from_id"], "name" := rec["user"].entries["long_name"]]
    ensures k.TextMessage? ==>
              && "timestamp" in rec && "from_id" in rec && "to_id" in rec && "text" in rec
              && Format(k, Json(VDict(rec)), parse).value.value
              == map["timestamp" := rec["timestamp"], "from" := rec["from_id"], "to" := rec["to_id"], "text" := rec["text"]]
  {
    ConformingField(k, rec, 1);
    ConformingField(k, rec, 3);
    ConformingField(k, rec, 4);
    match k
    case NodeInfo => NodeRecordFormats(rec);
    case TextMessage => ConformingField(k, rec, 5); ConformingField(k, rec, 6);
    case DeviceTelemetry => DeviceRecordFormats(rec);
    case NetworkTelemetry => NetworkRecordFormats(rec);
    case EnvironmentTelemetry => EnvironmentRecordFormats(rec);
  }

  /** Every record a normaliser returns is displayed without raising. A
      normalised device record in particular always carries a float
      `channel_utilization`, defaulted to 0.0, so the `:.2f` format accepts it. */
  lemma NormalisedRecordFormats(k: RecordKind, packet: Value, now: string, parse: string -> Option<Value>)
    requires Normalise(k, packet, now).Ok?
    ensures Format(k, Json(VDict(Normalise(k, packet, now).value)), parse).Ok?
    ensures Format(k, Json(VDict(Normalise(k, packet, now).value)), parse).value.Some?
  {
    var rec := Normalise(k, packet, now).value;
    StoredRecordFormats(k, rec, parse);
    if k.DeviceTelemetry? {
      var part := TelemetryPart(packet.entries, PartKey(k)).value;
      assert rec["device_metrics"] == DeviceBody(part).value;
    }
  }

  /** The device sub-record's channel utilisation is present and not None. */
  predicate ChannelUtilSet(rec: Record) {
    && "device_metrics" in rec && rec["device_metrics"].VDict?
    && "channel_utilization" in rec["device_metrics"].entries
    && !rec["device_metrics"].entries["channel_utilization"].VNone?
  }

  lemma NodeRecordFormats(rec: Record)
    requires "user" in rec && Conforms(UserInfoSchema, rec["user"])
    requires "timestamp" in rec && "from_id" in rec
    ensures rec["user"].VDict? && "long_name" in rec["user"].entries
    ensures NodeRow(VDict(rec)) == Ok(map["timestamp" := rec["timestamp"], "id" := rec["from_id"], "name" := rec["user"].entries["long_name"]])
  {
    ConformingSubField(UserInfoSchema.fields, rec["user"], 1);
  }

  lemma DeviceRecordFormats(rec: Record)
    requires "device_metrics" in rec && Conforms(DeviceMetricsSchema, rec["device_metrics"])
    requires "timestamp" in rec && "from_id" in rec
    ensures DeviceRow(VDict(rec)).Ok? <==> ChannelUtilSet(rec)
  {
    var m := rec["device_metrics"];
    ConformingSubField(DeviceMetricsSchema.fields, m, 0);
    ConformingSubField(DeviceMetricsSchema.fields, m, 1);
    ConformingSubField(DeviceMetricsSchema.fields, m, 2);
    ConformingSubField(DeviceMetricsSchema.fields, m, 3);
  }

  lemma NetworkRecordFormats(rec: Record)
    requires "local_stats" in rec && Conforms(LocalStatsSchema, rec["local_stats"])
    requires "timestamp" in rec && "from_id" in rec
    ensures NetworkRow(VDict(rec)).Ok?
  {
    var m := rec["local_stats"];
    ConformingSubField(LocalStatsSchema.fields, m, 3);
    ConformingSubField(LocalStatsSchema.fields, m, 4);
    ConformingSubField(LocalStatsSchema.fields, m, 5);
    ConformingSubField(LocalStatsSchema.fields, m, 6);
    ConformingSubField(LocalStatsSchema.fields, m, 7);
  }

  lemma EnvironmentRecordFormats(rec: Record)
    requires "environment_metrics" in rec && Conforms(EnvironmentMetricsSchema, rec["environment_metrics"])
    requires "timestamp" in rec && "from_id" in rec
    ensures EnvironmentRow(VDict(rec)).Ok?
  {
    var m := rec["environment_metrics"];
    ConformingSubField(EnvironmentMetricsSchema.fields, m, 0);
    ConformingSubField(EnvironmentMetricsSchema.fields, m, 1);
    ConformingSubField(EnvironmentMetricsSchema.fields, m, 2);
  }
}

=== FILE: gateway.dfy ===
/** `RedisHandler` in src/station/handlers: one Redis list per record category,
    LPUSH to store and LRANGE to load. The Redis server is a map from key to
    list; whether the server answers is the `up` input. */
module Gateway {
  import opened Wrappers
  import opened PyValue
  import opened Schema

  type Db<T> = map<string, seq<T>>

  /** The list at `key`; a missing key reads as the empty list, as in Redis. */
  function ListAt<T>(db: Db<T>, key: string): seq<T> {
    if key in db then db[key] else []
  }

  /** LPUSH: `x` becomes the head of the list at `key`. */
  function LPush<T>(db: Db<T>, key: string, x: T): (r: Db<T>)
    ensures ListAt(r, key) == [x] + ListAt(db, key)
    ensures forall k :: k != key ==> ListAt(r, k) == ListAt(db, k)
    ensures r.Keys == db.Keys + {key}
  {
    db[key := [x] + ListAt(db, key)]
  }

  /** LRANGE on a list: negative indices count from the end, `stop` is inclusive,
      out-of-range indices are clamped, and an empty range gives []. */
  function LRange<T>(l: seq<T>, start: int, stop: int): (r: seq<T>)
    ensures |r| <= |l|
  {
    var n := |l|;
    var s := if start < 0 then (if n + start < 0 then 0 else n + start) else start;
    var e := if stop < 0 then n + stop else (if stop >= n then n - 1 else stop);
    if s > e || s >= n then [] else l[s..e + 1]
  }

  /** LRANGE 0 -1 is the whole list; LRANGE 0 n with n >= 0 is its first n+1 entries. */
  lemma LRangeFromHead<T>(l: seq<T>, stop: int)
    ensures stop == -1 ==> LRange(l, 0, stop) == l
    ensures stop >= 0 ==> LRange(l, 0, stop) == l[..if stop + 1 < |l| then stop + 1 else |l|]
  {
  }

  /** The five category keys. */
  function KeyOf(k: RecordKind): string {
    match k
    case TextMessage => "meshtastic:messages"
    case NodeInfo => "meshtastic:nodes"
    case DeviceTelemetry => "meshtastic:telemetry:device"
    case NetworkTelemetry => "meshtastic:telemetry:network"
    case EnvironmentTelemetry => "meshtastic:telemetry:environment"
  }

  lemma KeysDistinct(a: RecordKind, b: RecordKind)
    ensures KeyOf(a) == KeyOf(b) <==> a == b
  {
  }

  /** `store(key, data)`: LPUSH, re-raising when Redis fails. */
  function Store<T>(db: Db<T>, key: string, data: T, up: bool): (r: Outcome<Db<T>>)
    ensures r.Ok? <==> up
    ensures r.Ok? ==> ListAt(r.value, key) == [data] + ListAt(db, key)
    ensures r.Ok? ==> forall k :: k != key ==> ListAt(r.value, k) == ListAt(db, k)
  {
    if up then Ok(LPush(db, key, data)) else Err(RedisError)
  }

  /** `load(key, start, end)`: LRANGE, or [] when Redis fails. */
  function Load<T>(db: Db<T>, key: string, start: int, end: int, up: bool): (r: seq<T>)
    ensures !up ==> r == []
    ensures up && start == 0 && end == -1 ==> r == ListAt(db, key)
  {
    if up then LRange(ListAt(db, key), start, end) else []
  }

  /** The `store_*` wrappers: store under the category's own key. */
  function StoreKind<T>(db: Db<T>, k: RecordKind, data: T, up: bool): (r: Outcome<Db<T>>)
    ensures r.Ok? <==> up
    ensures r.Ok? ==> ListAt(r.value, KeyOf(k)) == [data] + ListAt(db, KeyOf(k))
    ensures r.Ok? ==> forall other :: other != k ==> ListAt(r.value, KeyOf(other)) == ListAt(db, KeyOf(other))
  {
    Store(db, KeyOf(k), data, up)
  }

  /** The `load_*` wrappers: `limit` is passed as the inclusive end index, so
      `limit = n >= 0` yields up to n+1 entries and the default -1 yields all. */
  function LoadKind<T>(db: Db<T>, k: RecordKind, limit: int, up: bool): (r: seq<T>)
    ensures !up ==> r == []
    ensures up && limit == -1 ==> r == ListAt(db, KeyOf(k))
    ensures up && limit >= 0 ==> r == ListAt(db, KeyOf(k))[..if limit + 1 < |ListAt(db, KeyOf(k))| then limit + 1 else |ListAt(db, KeyOf(k))|]
  {
    LRangeFromHead(ListAt(db, KeyOf(k)), limit);
    Load(db, KeyOf(k), 0, limit, up)
  }

  /** Storing `a` then `b` in one category loads `b` before `a`, newest first. */
  lemma NewestFirst<T>(db: Db<T>, k: RecordKind, a: T, b: T)
    ensures var db1 := StoreKind(db, k, a, true).value;
            var db2 := StoreKind(db1, k, b, true).value;
            LoadKind(db2, k, -1, true) == [b, a] + LoadKind(db, k, -1, true)
  {
  }

  /** Right after `store(key, d)`, `load(key, 0, 0)` is `[d]`. */
  lemma LoadHeadAfterStore<T>(db: Db<T>, key: string, d: T)
    ensures Load(Store(db, key, d, true).value, key, 0, 0, true) == [d]
  {
  }
}

=== FILE: hex_id.dfy ===
/** The Meshtastic node id `f"!{num:08x}"`: an exclamation mark, then the node
    number in lower-case hexadecimal, zero-padded to eight characters. */
module HexId {
  import opened Wrappers
  import opened PyValue

  predicate IsHexDigit(c: char) {
    '0' <= c <= '9' || 'a' <= c <= 'f'
  }

  predicate AllHex(s: string) {
    forall i :: 0 <= i < |s| ==> IsHexDigit(s[i])
  }

  function HexChar(d: nat): (c: char)
    requires d < 16
    ensures IsHexDigit(c)
  {
    if d < 10 then ('0' as int + d) as char else ('a' as int + d - 10) as char
  }

  function HexDigitValue(c: char): (d: nat)
    requires IsHexDigit(c)
    ensures d < 16 && HexChar(d) == c
  {
    if c <= '9' then c as int - '0' as int else c as int - 'a' as int + 10
  }

  /** The hex digits of `n` without leading zeros; "0" for zero. */
  function NatToHex(n: nat): (r: string)
    ensures |r| > 0 && AllHex(r)
    decreases n
  {
    if n < 16 then [HexChar(n)] else NatToHex(n / 16) + [HexChar(n % 16)]
  }

  /** The value of a string of hex digits, most significant first. */
  function HexDigitsValue(s: string): nat
    requires AllHex(s)
    decreases |s|
  {
    if |s| == 0 then 0 else HexDigitsValue(s[..|s| - 1]) * 16 + HexDigitValue(s[|s| - 1])
  }

  function Pow16(k: nat): (r: nat)
    ensures r >= 1
  {
    if k == 0 then 1 else 16 * Pow16(k - 1)
  }

  /** `format(n, "08x")` for a Python int: the digits are zero-padded to eight
      characters in all; a negative number's '-' counts toward the width, so it
      leaves room for seven padded digits. Longer numbers are never cut. */
  function Format08x(n: int): (r: string)
    ensures n >= 0 ==> |r| >= 8 && AllHex(r)
    ensures n < 0 ==> |r| >= 8 && r[0] == '-' && AllHex(r[1..])
  {
    if n >= 0 then ZeroPad(NatToHex(n), 8) else "-" + ZeroPad(NatToHex(-n), 7)
  }

  function ZeroPad(s: string, width: nat): (r: string)
    requires AllHex(s)
    ensures |r| == if |s| < width then width else |s|
    ensures AllHex(r)
  {
    if |s| < width then seq(width - |s|, _ => '0') + s else s
  }

  /** The node id written for node number `n`: a non-negative number gives
      hex digits only, a negative one a '-' first; either way the characters
      after '!' read back as `n`. */
  function NodeId(n: int): (r: string)
    ensures |r| >= 9 && r[0] == '!'
    ensures n >= 0 ==> AllHex(r[1..])
    ensures n < 0 ==> r[1] == '-' && AllHex(r[2..])
    ensures ParseHex(r[1..]) == Some(n)
  {
    Format08xRoundTrip(n);
    assert ("!" + Format08x(n))[1..] == Format08x(n);
    "!" + Format08x(n)
  }

  /** Reading back what `Format08x` writes: an optional '-' followed by
      lower-case hex digits, as `int(s, 16)` reads it. */
  function ParseHex(s: string): Option<int> {
    if |s| > 0 && s[0] == '-' then
      if |s| > 1 && AllHex(s[1..]) then Some(-(HexDigitsValue(s[1..]) as int)) else None
    else if |s| > 0 && AllHex(s) then Some(HexDigitsValue(s))
    else None
  }

  /** `f"!{num:08x}"` applied to a Python value: ints and bools format, any
      other value raises (ValueError for str and float, TypeError otherwise). */
  function FormatNum(num: Value): (r: Outcome<string>)
    ensures r.Ok? <==> num.VInt? || num.VBool?
    ensures num.VInt? ==> r == Ok(NodeId(num.i))
  {
    match num
    case VInt(i) => Ok(NodeId(i))
    case VBool(b) => Ok(NodeId(if b then 1 else 0))
    case VFloat(_) => Err(ValueError)
    case VStr(_) => Err(ValueError)
    case _ => Err(TypeError)
  }

  lemma {:induction false} NatToHexValue(n: nat)
    ensures HexDigitsValue(NatToHex(n)) == n
    decreases n
  {
    if n >= 16 {
      var r := NatToHex(n);
      assert r[..|r| - 1] == NatToHex(n / 16);
      NatToHexValue(n / 16);
    }
  }

  lemma {:induction false} NatToHexLength(n: nat, k: nat)
    requires k >= 1 && n < Pow16(k)
    ensures |NatToHex(n)| <= k
    decreases k
  {
    if n >= 16 {
      NatToHexLength(n / 16, k - 1);
    }
  }

  lemma {:induction false} ZerosValue(k: nat)
    ensures AllHex(seq(k, _ => '0')) && HexDigitsValue(seq(k, _ => '0')) == 0
    decreases k
  {
    if k > 0 {
      assert seq(k, _ => '0')[..k - 1] == seq(k - 1, _ => '0');
      ZerosValue(k - 1);
    }
  }

  /** Leading zeros do not change the value of a hex numeral. */
  lemma {:induction false} LeadingZerosValue(z: string, s: string)
    requires AllHex(s) && forall i :: 0 <= i < |z| ==> z[i] == '0'
    ensures AllHex(z + s) && HexDigitsValue(z + s) == HexDigitsValue(s)
    decreases |s|
  {
    if |s| == 0 {
      assert z + s == z;
      assert z == seq(|z|, _ => '0');
      ZerosValue(|z|);
    } else {
      assert (z + s)[..|z + s| - 1] == z + s[..|s| - 1];
      LeadingZerosValue(z, s[..|s| - 1]);
    }
  }

  lemma ZeroPadValue(s: string, width: nat)
    requires AllHex(s)
    ensures HexDigitsValue(ZeroPad(s, width)) == HexDigitsValue(s)
  {
    if |s| < width {
      LeadingZerosValue(seq(width - |s|, _ => '0'), s);
    }
  }

  /** Reading a formatted number back yields the number, for every Python int. */
  lemma Format08xRoundTrip(n: int)
    ensures ParseHex(Format08x(n)) == Some(n)
  {
    if n >= 0 {
      NonNegativeRoundTrip(n);
    } else {
      NegativeRoundTrip(n);
    }
  }

  lemma NonNegativeRoundTrip(n: nat)
    ensures ParseHex(Format08x(n)) == Some(n)
  {
    var p := ZeroPad(NatToHex(n), 8);
    NatToHexValue(n);
    ZeroPadValue(NatToHex(n), 8);
    assert p[0] != '-';
  }

  lemma NegativeRoundTrip(n: int)
    requires n < 0
    ensures ParseHex(Format08x(n)) == Some(n)
  {
    var p := ZeroPad(NatToHex(-n), 7);
    NatToHexValue(-n);
    ZeroPadValue(NatToHex(-n), 7);
    var f := "-" + p;
    assert f == Format08x(n);
    assert f[0] == '-' && |f| > 1 && f[1..] == p;
    assert HexDigitsValue(p) == -n;
  }

  /** A 32-bit node number gives a nine-character id, "!" and eight hex
      digits, from which the number is recovered. */
  lemma NodeIdOf32Bit(n: int)
    requires 0 <= n < 0x1_0000_0000
    ensures |NodeId(n)| == 9 && AllHex(NodeId(n)[1..])
    ensures ParseHex(NodeId(n)[1..]) == Some(n)
  {
    assert Pow16(8) == 0x1_0000_0000;
    NatToHexLength(n, 8);
    assert NodeId(n)[1..] == Format08x(n);
    Format08xRoundTrip(n);
  }

  /** Distinct node numbers never share an id. */
  lemma NodeIdInjective(a: int, b: int)
    requires NodeId(a) == NodeId(b)
    ensures a == b
  {
    assert NodeId(a)[1..] == Format08x(a);
    assert NodeId(b)[1..] == Format08x(b);
    Format08xRoundTrip(a);
    Format08xRoundTrip(b);
  }
}

=== FILE: ingress.dfy ===
/** `MeshtasticHandler` in src/station/handlers/meshtastic_handler.py: the
    radio library's synchronous callbacks wrap each packet with its category
    and put it on an asyncio queue without waiting. */
module Ingress {
  import opened Wrappers
  import opened PyValue

  /** The three callbacks. */
  datatype Source = TextSource | NodeSource | TelemetrySource

  /** The category string each callback attaches. */
  function SourceTag(s: Source): string {
    match s
    case TextSource => "text"
    case NodeSource => "node"
    case TelemetrySource => "telemetry"
  }

  /** The queued update: `{"type": tag, "packet": packet}`. */
  function Item(s: Source, packet: Value): (v: Value)
    ensures v.VDict? && v.entries.Keys == {"type", "packet"}
    ensures v.entries["type"] == VStr(SourceTag(s)) && v.entries["packet"] == packet
  {
    VDict(map["type" := VStr(SourceTag(s)), "packet" := packet])
  }

  /** An asyncio queue; `maxsize` 0 means unbounded, as for `asyncio.Queue()`.
      `unfinished` counts items put and not yet marked done. */
  datatype Queue = Queue(items: seq<Value>, maxsize: nat, unfinished: nat)

  /** A queue whose unfinished count covers every queued item. */
  predicate Valid(q: Queue) {
    q.unfinished >= |q.items| && (q.maxsize > 0 ==> |q.items| <= q.maxsize)
  }

  predicate Full(q: Queue) {
    q.maxsize > 0 && |q.items| >= q.maxsize
  }

  /** `put_nowait`: appends, or raises QueueFull on a full bounded queue. */
  function PutNowait(q: Queue, x: Value): (r: Option<Queue>)
    ensures Full(q) <==> r.None?
    ensures r.Some? ==> r.value.items == q.items + [x] && r.value.maxsize == q.maxsize
    ensures r.Some? ==> r.value.unfinished == q.unfinished + 1
    ensures r.Some? && Valid(q) ==> Valid(r.value)
  {
    if Full(q) then None else Some(Queue(q.items + [x], q.maxsize, q.unfinished + 1))
  }

  /** `on_text_message`, `on_node_message`, `on_telemetry_message`: the
      QueueFull error is logged and swallowed, so the callback never raises. */
  function OnPacket(q: Queue, s: Source, packet: Value): (r: Queue)
    ensures !Full(q) ==> r.items == q.items + [Item(s, packet)] && r.unfinished == q.unfinished + 1
    ensures Full(q) ==> r == q
    ensures r.maxsize == q.maxsize
    ensures Valid(q) ==> Valid(r)
  {
    match PutNowait(q, Item(s, packet))
    case Some(q2) => q2
    case None => q
  }

  /** The callbacks applied in arrival order. */
  function OnPackets(q: Queue, arrivals: seq<(Source, Value)>): Queue
    decreases |arrivals|
  {
    if arrivals == [] then q
    else OnPackets(OnPacket(q, arrivals[0].0, arrivals[0].1), arrivals[1..])
  }

  /** On an unbounded queue every callback enqueues its packet, in arrival order. */
  lemma {:induction false} UnboundedKeepsArrivalOrder(q: Queue, arrivals: seq<(Source, Value)>)
    requires q.maxsize == 0
    ensures OnPackets(q, arrivals).items ==
              q.items + seq(|arrivals|, i requires 0 <= i < |arrivals| => Item(arrivals[i].0, arrivals[i].1))
    ensures OnPackets(q, arrivals).unfinished == q.unfinished + |arrivals|
    decreases |arrivals|
  {
    if arrivals != [] {
      var q1 := OnPacket(q, arrivals[0].0, arrivals[0].1);
      UnboundedKeepsArrivalOrder(q1, arrivals[1..]);
      var all := seq(|arrivals|, i requires 0 <= i < |arrivals| => Item(arrivals[i].0, arrivals[i].1));
      var rest := seq(|arrivals[1..]|, i requires 0 <= i < |arrivals[1..]| => Item(arrivals[1..][i].0, arrivals[1..][i].1));
      assert all == [Item(arrivals[0].0, arrivals[0].1)] + rest;
    }
  }

  /** A bounded queue never holds more than `maxsize` items, whatever arrives;
      packets arriving while it is full are dropped. */
  lemma {:induction false} BoundedNeverOverflows(q: Queue, arrivals: seq<(Source, Value)>)
    requires Valid(q)
    ensures Valid(OnPackets(q, arrivals))
    ensures OnPackets(q, arrivals).maxsize == q.maxsize
    ensures |OnPackets(q, arrivals).items| <= |q.items| + |arrivals|
    decreases |arrivals|
  {
    if arrivals != [] {
      BoundedNeverOverflows(OnPacket(q, arrivals[0].0, arrivals[0].1), arrivals[1..]);
    }
  }
}

=== FILE: json.dfy ===
/** The strings kept in Redis lists. A string written by `json.dumps(v)` is
    represented by the value it encodes; any other string is kept as text, and
    what `json.loads` makes of such text is supplied by the caller. */
module Json {
  import opened Wrappers
  import opened PyValue

  datatype Blob = Json(v: Value) | Raw(text: string)

  /** `json.dumps(v)`. */
  function Dumps(v: Value): (b: Blob)
    ensures b.Json? && b.v == v
  {
    Json(v)
  }

  /** `json.loads(b)`; `None` is a JSONDecodeError. `parse` decides raw text. */
  function Loads(b: Blob, parse: string -> Option<Value>): (r: Option<Value>)
    ensures b.Json? ==> r == Some(b.v)
    ensures b.Raw? ==> r == parse(b.text)
  {
    match b
    case Json(v) => Some(v)
    case Raw(t) => parse(t)
  }
}

=== FILE: legacy_display.dfy ===
/** `MeshtasticDataHandler` in meshtastic_data_handler.py: stores a packet's
    JSON text under its category and formats stored entries for display,
    defaulting every missing field. It works over the category lists of the
    `Gateway` store; the protobuf-to-JSON conversion is an input. */
module LegacyDisplay {
  import opened Wrappers
  import opened PyValue
  import opened Json
  import opened Schema
  import opened Gateway

  type Store = Db<Blob>
  type Row = map<string, Value>

  /** `process_packet(packet, packet_type)`. `json` is what `MessageToJson`
      made of the packet (an error when it raised). 'text' is stored with the
      messages, 'node' with the nodes, any other type nowhere; errors are
      logged, never raised. */
  function ProcessPacket(db: Store, json: Outcome<string>, packetType: Value, up: bool): (r: Store)
    ensures json.Err? || !up ==> r == db
    ensures packetType != VStr("text") && packetType != VStr("node") ==> r == db
    ensures json.Ok? && up && packetType == VStr("text") ==>
              ListAt(r, KeyOf(TextMessage)) == [Raw(json.value)] + ListAt(db, KeyOf(TextMessage))
              && forall other :: other != TextMessage ==> ListAt(r, KeyOf(other)) == ListAt(db, KeyOf(other))
    ensures json.Ok? && up && packetType == VStr("node") ==>
              ListAt(r, KeyOf(NodeInfo)) == [Raw(json.value)] + ListAt(db, KeyOf(NodeInfo))
              && forall other :: other != NodeInfo ==> ListAt(r, KeyOf(other)) == ListAt(db, KeyOf(other))
  {
    match json
    case Err(_) => db
    case Ok(text) =>
      var stored :=
        if packetType == VStr("text") then StoreKind(db, TextMessage, Raw(text), up)
        else if packetType == VStr("node") then StoreKind(db, NodeInfo, Raw(text), up)
        else Ok(db);
      match stored
      case Ok(db2) => db2
      case Err(_) => db
  }

  /** The two listings the handler formats. */
  datatype Listing = MessageListing | NodeListing

  /** `format_message_for_display`: sender and recipient default to 'Unknown',
      the text to '', the timestamp to the current time `now`. */
  function MessageRow(data: Value, now: string): (r: Outcome<Row>)
    ensures r.Ok? <==> data.VDict? && Get(data.entries, "decoded", VDict(map[])).VDict?
    ensures r.Err? ==> r.error == AttributeError
    ensures r.Ok? ==> r.value.Keys == {"timestamp", "from", "to", "text"}
    ensures r.Ok? ==> var e := data.entries;
                      && r.value["timestamp"] == (if "timestamp" in e then e["timestamp"] else VStr(now))
                      && r.value["from"] == (if "fromId" in e then e["fromId"] else VStr("Unknown"))
                      && r.value["to"] == (if "toId" in e then e["toId"] else VStr("Unknown"))
                      && r.value["text"] == (if "decoded" in e && "text" in e["decoded"].entries
                                             then e["decoded"].entries["text"] else VStr(""))
  {
    match data
    case VDict(e) =>
      (match Get(e, "decoded", VDict(map[]))
       case VDict(d) =>
         Ok(map["timestamp" := Get(e, "timestamp", VStr(now)), "from" := Get(e, "fromId", VStr("Unknown")),
                "to" := Get(e, "toId", VStr("Unknown")), "text" := Get(d, "text", VStr(""))])
       case _ => Err(AttributeError))
    case _ => Err(AttributeError)
  }

  /** `format_node_for_display`: id and name default to 'Unknown'; the name is
      `decoded.user.longName`. */
  function NodeRow(data: Value, now: string): (r: Outcome<Row>)
    ensures r.Ok? <==> data.VDict? && Get(data.entries, "decoded", VDict(map[])).VDict?
                       && Get(Get(data.entries, "decoded", VDict(map[])).entries, "user", VDict(map[])).VDict?
    ensures r.Err? ==> r.error == AttributeError
    ensures r.Ok? ==> r.value.Keys == {"timestamp", "id", "name"}
    ensures r.Ok? ==> var e := data.entries;
                      && r.value["timestamp"] == (if "timestamp" in e then e["timestamp"] else VStr(now))
                      && r.value["id"] == (if "fromId" in e then e["fromId"] else VStr("Unknown"))
  {
    match data
    case VDict(e) =>
      (match Get(e, "decoded", VDict(map[]))
       case VDict(d) =>
         (match Get(d, "user", VDict(map[]))
          case VDict(u) =>
            Ok(map["timestamp" := Get(e, "timestamp", VStr(now)), "id" := Get(e, "fromId", VStr("Unknown")),
                   "name" := Get(u, "longName", VStr("Unknown"))])
          case _ => Err(AttributeError))
       case _ => Err(AttributeError))
    case _ => Err(AttributeError)
  }

  /** One entry formatted: None when its JSON does not decode; a decoded value
      of the wrong shape raises, since only the decode error is caught. */
  function FormatEntry(l: Listing, entry: Blob, now: string, parse: string -> Option<Value>): (r: Outcome<Option<Row>>)
    ensures Loads(entry, parse).None? ==> r == Ok(None)
    ensures Loads(entry, parse).Some? && r.Ok? ==> r.value.Some?
    ensures Loads(entry, parse).Some? ==>
              var row := if l == MessageListing then MessageRow(Loads(entry, parse).value, now)
                         else NodeRow(Loads(entry, parse).value, now);
              (r.Ok? <==> row.Ok?) && (r.Ok? ==> r.value.value == row.value)
  {
    match Loads(entry, parse)
    case None => Ok(None)
    case Some(data) =>
      var row :- if l == MessageListing then MessageRow(data, now) else NodeRow(data, now);
      Ok(Some(row))
  }

  /** The loop of `get_formatted_*`: format each entry in load order, keep the
      truthy (non-None) results; an error raised by one entry ends the call. */
  function FormatAll(l: Listing, entries: seq<Blob>, now: string, parse: string -> Option<Value>): (r: Outcome<seq<Row>>)
    ensures r.Ok? <==> forall i :: 0 <= i < |entries| ==> FormatEntry(l, entries[i], now, parse).Ok?
    ensures r.Ok? ==> |r.value| <= |entries|
    decreases |entries|
  {
    if |entries| == 0 then Ok([])
    else
      var first :- FormatEntry(l, entries[0], now, parse);
      var rest :- FormatAll(l, entries[1..], now, parse);
      assert forall i :: 1 <= i < |entries| ==> entries[i] == entries[1..][i - 1];
      Ok((if first.Some? then [first.value] else []) + rest)
  }

  /** When every entry formats, the result is exactly the non-None rows in load
      order. */
  lemma {:induction false} FormatAllIsKept(l: Listing, entries: seq<Blob>, now: string, parse: string -> Option<Value>)
    requires forall i :: 0 <= i < |entries| ==> FormatEntry(l, entries[i], now, parse).Ok?
    ensures FormatAll(l, entries, now, parse) ==
              Ok(Somes(seq(|entries|, i requires 0 <= i < |entries| => FormatEntry(l, entries[i], now, parse).value)))
    decreases |entries|
  {
    if |entries| > 0 {
      var results := seq(|entries|, i requires 0 <= i < |entries| => FormatEntry(l, entries[i], now, parse).value);
      var tail := entries[1..];
      assert forall i :: 0 <= i < |tail| ==> tail[i] == entries[i + 1];
      FormatAllIsKept(l, tail, now, parse);
      assert results[1..] == seq(|tail|, i requires 0 <= i < |tail| => FormatEntry(l, tail[i], now, parse).value);
    }
  }

  /** `get_formatted_messages(limit)` and `get_formatted_nodes(limit)`: `limit`
      is the inclusive end index of the load, -1 for everything. */
  function GetFormatted(db: Store, l: Listing, limit: int, now: string, up: bool, parse: string -> Option<Value>): (r: Outcome<seq<Row>>)
    ensures !up ==> r == Ok([])
    ensures r.Ok? ==> |r.value| <= |LoadKind(db, if l == MessageListing then TextMessage else NodeInfo, limit, up)|
  {
    FormatAll(l, LoadKind(db, if l == MessageListing then TextMessage else NodeInfo, limit, up), now, parse)
  }

  /** Each field of a message row defaults on its own: a missing `timestamp`
      becomes the current time, a missing `fromId` or `toId` 'Unknown', and a
      missing `decoded` or `decoded.text` the empty string; present fields are
      shown as stored. An entry with none of the fields gets every default. */
  lemma MessageDefaults(data: map<string, Value>, now: string)
    requires "decoded" in data ==> data["decoded"].VDict?
    ensures MessageRow(VDict(data), now).Ok?
    ensures "timestamp" !in data ==> MessageRow(VDict(data), now).value["timestamp"] == VStr(now)
    ensures "fromId" !in data ==> MessageRow(VDict(data), now).value["from"] == VStr("Unknown")
    ensures "toId" !in data ==> MessageRow(VDict(data), now).value["to"] == VStr("Unknown")
    ensures ("decoded" !in data || "text" !in data["decoded"].entries) ==>
              MessageRow(VDict(data), now).value["text"] == VStr("")
    ensures "fromId" in data ==> MessageRow(VDict(data), now).value["from"] == data["fromId"]
    ensures "toId" in data ==> MessageRow(VDict(data), now).value["to"] == data["toId"]
    ensures data == map[] ==>
              MessageRow(VDict(data), now) ==
              Ok(map["timestamp" := VStr(now), "from" := VStr("Unknown"), "to" := VStr("Unknown"), "text" := VStr("")])
  {
  }

  /** A node entry's name is `decoded.user.longName` when present, else 'Unknown';
      its id is `fromId`, else 'Unknown'. */
  lemma NodeNameAndId(data: map<string, Value>, now: string, user: map<string, Value>)
    requires "decoded" in data && data["decoded"].VDict? && "user" in data["decoded"].entries
    requires data["decoded"].entries["user"] == VDict(user)
    ensures NodeRow(VDict(data), now).Ok?
    ensures NodeRow(VDict(data), now).value["name"] == if "longName" in user then user["longName"] else VStr("Unknown")
    ensures NodeRow(VDict(data), now).value["id"] == if "fromId" in data then data["fromId"] else VStr("Unknown")
  {
  }

  /** An entry that does not decode is dropped and the others are unaffected. */
  lemma UndecodableDropped(l: Listing, bad: Blob, entries: seq<Blob>, now: string, parse: string -> Option<Value>)
    requires Loads(bad, parse).None?
    ensures FormatAll(l, [bad] + entries, now, parse) == FormatAll(l, entries, now, parse)
  {
    assert ([bad] + entries)[1..] == entries;
    assert FormatEntry(l, bad, now, parse) == Ok(None);
    match FormatAll(l, entries, now, parse)
    case Ok(rest) =>
      assert [] + rest == rest;
    case Err(_) =>
  }
}

=== FILE: legacy_store.dfy ===
/** `RedisHandler` in the top-level redis_handler.py, the store of the older
    console pipeline: one Redis list of JSON messages and a family of hashes
    describing nodes. Redis availability is the `up` input; the clock is a
    timestamp parameter. */
module LegacyStore {
  import opened Wrappers
  import opened PyValue
  import opened Json
  import Gateway
  import HexId

  const MessagesKey := "meshtastic:messages"
  const NodesKey := "meshtastic:nodes"
  const TimestampsKey := "meshtastic:nodes:timestamps"
  const MetricsKey := "meshtastic:nodes:metrics"
  const PositionKey := "meshtastic:nodes:position"

  type Hash = map<string, string>

  /** The Redis state the legacy handler touches: lists and hashes by key. */
  datatype Store = Store(lists: Gateway.Db<Blob>, hashes: map<string, Hash>)

  /** HGETALL: a missing key reads as the empty hash. */
  function HashAt(s: Store, key: string): Hash {
    if key in s.hashes then s.hashes[key] else map[]
  }

  function Messages(s: Store): seq<Blob> {
    Gateway.ListAt(s.lists, MessagesKey)
  }

  /** How the Redis client turns an argument into a string: str as it is, int
      and float rendered; bool, None, lists and dicts raise DataError, a kind
      of RedisError. */
  function Encode(v: Value): (r: Outcome<string>)
    ensures r.Ok? <==> v.VStr? || v.VInt? || v.VFloat?
    ensures v.VStr? ==> r == Ok(v.s)
    ensures r.Err? ==> r.error == RedisError
  {
    match v
    case VStr(s) => Ok(s)
    case VInt(_) => Ok(ToStr(v))
    case VFloat(_) => Ok(ToStr(v))
    case _ => Err(RedisError)
  }

  predicate Encodable(v: Value) {
    Encode(v).Ok?
  }

  /** HSET of one field. */
  function HSet(s: Store, key: string, field: string, value: string): (r: Store)
    ensures r.lists == s.lists
    ensures HashAt(r, key) == HashAt(s, key)[field := value]
    ensures forall k :: k != key ==> HashAt(r, k) == HashAt(s, k)
  {
    Store(s.lists, s.hashes[key := HashAt(s, key)[field := value]])
  }

  /** `save_message(key, message)`: LPUSH; a failure is logged, never raised. */
  function SaveMessage(s: Store, key: string, message: Blob, up: bool): (r: Store)
    ensures up ==> Gateway.ListAt(r.lists, key) == [message] + Gateway.ListAt(s.lists, key)
    ensures !up ==> r == s
    ensures r.hashes == s.hashes
    ensures forall k :: k != key ==> Gateway.ListAt(r.lists, k) == Gateway.ListAt(s.lists, k)
  {
    if up then Store(Gateway.LPush(s.lists, key, message), s.hashes) else s
  }

  /** Whether every value `update_node` would queue in its pipeline can be sent:
      the node fields, the battery level when it is not None, and the three
      position components when the position is truthy (which must then be a
      dict, since `.get` is called on it). */
  predicate NodeWritable(nodeId: Value, nodeName: Value, timestamp: Value, battery: Value, position: Value) {
    Encodable(nodeId) && Encodable(nodeName) && Encodable(timestamp)
    && (battery != VNone ==> Encodable(battery))
    && (Truthy(position) ==>
          position.VDict?
          && Encodable(Get(position.entries, "latitude", VStr("")))
          && Encodable(Get(position.entries, "longitude", VStr("")))
          && Encodable(Get(position.entries, "altitude", VStr(""))))
  }

  /** The position hash after the three component writes. */
  function WithPosition(h: Hash, prefix: string, pos: map<string, Value>): Hash
    requires Encodable(Get(pos, "latitude", VStr(""))) && Encodable(Get(pos, "longitude", VStr("")))
    requires Encodable(Get(pos, "altitude", VStr("")))
  {
    h[prefix + ":latitude" := Encode(Get(pos, "latitude", VStr(""))).value]
     [prefix + ":longitude" := Encode(Get(pos, "longitude", VStr(""))).value]
     [prefix + ":altitude" := Encode(Get(pos, "altitude", VStr(""))).value]
  }

  /** `update_node`: every HSET goes through one pipeline, so either all of them
      take effect or none does. On failure the handler's `except` clause calls an
      undefined module-level `logger`, so the failure leaves the method as a
      NameError. */
  function UpdateNode(s: Store, nodeId: Value, nodeName: Value, timestamp: Value, battery: Value, position: Value, up: bool): (r: Outcome<Store>)
    ensures r.Ok? <==> up && NodeWritable(nodeId, nodeName, timestamp, battery, position)
    ensures r.Err? ==> r.error == NameError
    ensures r.Ok? ==> r.value.lists == s.lists
    ensures r.Ok? ==> HashAt(r.value, NodesKey) == HashAt(s, NodesKey)[Encode(nodeId).value := Encode(nodeName).value]
    ensures r.Ok? ==> HashAt(r.value, TimestampsKey) == HashAt(s, TimestampsKey)[Encode(nodeId).value := Encode(timestamp).value]
    ensures r.Ok? && battery == VNone ==> HashAt(r.value, MetricsKey) == HashAt(s, MetricsKey)
    ensures r.Ok? && battery != VNone ==>
              HashAt(r.value, MetricsKey) == HashAt(s, MetricsKey)[ToStr(nodeId) + ":battery" := Encode(battery).value]
    ensures r.Ok? && !Truthy(position) ==> HashAt(r.value, PositionKey) == HashAt(s, PositionKey)
    ensures r.Ok? && Truthy(position) ==>
              HashAt(r.value, PositionKey) == WithPosition(HashAt(s, PositionKey), ToStr(nodeId), position.entries)
    ensures r.Ok? ==> forall k :: k !in {NodesKey, TimestampsKey, MetricsKey, PositionKey} ==> HashAt(r.value, k) == HashAt(s, k)
  {
    if !(up && NodeWritable(nodeId, nodeName, timestamp, battery, position)) then Err(NameError)
    else
      var id := Encode(nodeId).value;
      var s1 := HSet(HSet(s, NodesKey, id, Encode(nodeName).value), TimestampsKey, id, Encode(timestamp).value);
      var s2 := if battery != VNone then HSet(s1, MetricsKey, ToStr(nodeId) + ":battery", Encode(battery).value) else s1;
      Ok(if Truthy(position) then SetPosition(s2, ToStr(nodeId), position.entries) else s2)
  }

  /** The position hash rewritten with a node's coordinates; nothing else changes. */
  function SetPosition(s: Store, prefix: string, pos: map<string, Value>): (r: Store)
    requires Encodable(Get(pos, "latitude", VStr(""))) && Encodable(Get(pos, "longitude", VStr("")))
    requires Encodable(Get(pos, "altitude", VStr("")))
    ensures r.lists == s.lists
    ensures HashAt(r, PositionKey) == WithPosition(HashAt(s, PositionKey), prefix, pos)
    ensures forall k :: k != PositionKey ==> HashAt(r, k) == HashAt(s, k)
  {
    Store(s.lists, s.hashes[PositionKey := WithPosition(HashAt(s, PositionKey), prefix, pos)])
  }

  /** LSET: replace the element at `index` (negative counts from the end); a
      missing key, an index out of range or a value that cannot be sent is an
      error and changes nothing. */
  function LSet(s: Store, key: string, index: Value, value: Value, up: bool): (r: Outcome<Store>)
    ensures r.Ok? <==> up && index.VInt? && Encodable(value)
                       && -|Gateway.ListAt(s.lists, key)| <= index.i < |Gateway.ListAt(s.lists, key)|
    ensures r.Ok? ==> var l := Gateway.ListAt(s.lists, key);
                      var j := if index.i < 0 then |l| + index.i else index.i;
                      0 <= j < |l|
                      && Gateway.ListAt(r.value.lists, key) == l[j := Raw(Encode(value).value)]
    ensures r.Ok? ==> r.value.hashes == s.hashes
    ensures r.Ok? ==> forall k :: k != key ==> Gateway.ListAt(r.value.lists, k) == Gateway.ListAt(s.lists, k)
  {
    var l := Gateway.ListAt(s.lists, key);
    if !(up && index.VInt? && Encodable(value) && -|l| <= index.i < |l|) then Err(RedisError)
    else
      var j := if index.i < 0 then |l| + index.i else index.i;
      Ok(Store(s.lists[key := l[j := Raw(Encode(value).value)]], s.hashes))
  }

  /** The JSON object a "message" update is saved as. */
  function MessageRecord(timestamp: Value, stationId: Value, toId: Value, text: Value): (v: Value)
    ensures v.VDict? && v.entries.Keys == {"timestamp", "station_id", "to_id", "message"}
    ensures v.entries["timestamp"] == timestamp && v.entries["station_id"] == stationId
    ensures v.entries["to_id"] == toId && v.entries["message"] == text
  {
    VDict(map["timestamp" := timestamp, "station_id" := stationId, "to_id" := toId, "message" := text])
  }

  /** Whether `update` is a dict whose "type" is the string `t`. */
  predicate HasType(update: Value, t: string) {
    update.VDict? && "type" in update.entries && update.entries["type"] == VStr(t)
  }

  predicate HasKeys(update: Value, ks: set<string>) {
    update.VDict? && ks <= update.entries.Keys
  }

  function SaveMessageUpdate(s: Store, e: map<string, Value>, up: bool): (r: Store)
    ensures r.hashes == s.hashes
  {
    if "timestamp" in e && "station_id" in e && "to_id" in e && "text_message" in e then
      SaveMessage(s, MessagesKey, Dumps(MessageRecord(e["timestamp"], e["station_id"], e["to_id"], e["text_message"])), up)
    else s
  }

  function NodeUpdate(s: Store, e: map<string, Value>, up: bool): (r: Store)
    ensures r.lists == s.lists
  {
    if "node_id" in e && "node_name" in e && "timestamp" in e then
      match UpdateNode(s, e["node_id"], e["node_name"], e["timestamp"],
                       Get(e, "battery_level", VNone), Get(e, "position", VNone), up)
      case Ok(s2) => s2
      case Err(_) => s
    else s
  }

  /** Whether an "update_message" update's LSET succeeds: both keys present,
      an int index in range of the messages list, a value Redis can send. */
  predicate ReplaceApplies(s: Store, e: map<string, Value>, up: bool) {
    && up && "index" in e && "updated_message" in e
    && e["index"].VInt? && Encodable(e["updated_message"])
    && -|Messages(s)| <= e["index"].i < |Messages(s)|
  }

  /** The position LSET writes to: a negative index counts from the end. */
  function ReplacedAt(s: Store, e: map<string, Value>, up: bool): (j: nat)
    requires ReplaceApplies(s, e, up)
    ensures j < |Messages(s)|
  {
    if e["index"].i < 0 then |Messages(s)| + e["index"].i else e["index"].i
  }

  function ReplaceMessageUpdate(s: Store, e: map<string, Value>, up: bool): (r: Store)
    ensures r.hashes == s.hashes
    ensures |Messages(r)| == |Messages(s)|
    ensures !ReplaceApplies(s, e, up) ==> r == s
    ensures ReplaceApplies(s, e, up) ==>
              Messages(r) == Messages(s)[ReplacedAt(s, e, up) := Raw(Encode(e["updated_message"]).value)]
              && forall k :: k != MessagesKey ==> Gateway.ListAt(r.lists, k) == Gateway.ListAt(s.lists, k)
  {
    if "index" in e && "updated_message" in e then
      match LSet(s, MessagesKey, e["index"], e["updated_message"], up)
      case Ok(s2) => s2
      case Err(_) => s
    else s
  }

  /** `process_update`: dispatch on the update's "type"; every error, a missing
      key included, is caught and logged, so the call never raises. */
  function ProcessUpdate(s: Store, update: Value, up: bool): (r: Store)
    ensures !up ==> r == s
    ensures !(HasType(update, "message") || HasType(update, "node") || HasType(update, "update_message")) ==> r == s
    ensures HasType(update, "message") && up && HasKeys(update, {"timestamp", "station_id", "to_id", "text_message"}) ==>
              var e := update.entries;
              Messages(r) == [Json(MessageRecord(e["timestamp"], e["station_id"], e["to_id"], e["text_message"]))] + Messages(s)
              && r.hashes == s.hashes
    ensures HasType(update, "message") && !HasKeys(update, {"timestamp", "station_id", "to_id", "text_message"}) ==> r == s
    ensures HasType(update, "node") ==> r.lists == s.lists
    ensures HasType(update, "update_message") ==> r.hashes == s.hashes && |Messages(r)| == |Messages(s)|
    ensures HasType(update, "update_message") && !ReplaceApplies(s, update.entries, up) ==> r == s
    ensures HasType(update, "update_message") && ReplaceApplies(s, update.entries, up) ==>
              var e := update.entries;
              Messages(r) == Messages(s)[ReplacedAt(s, e, up) := Raw(Encode(e["updated_message"]).value)]
              && forall k :: k != MessagesKey ==> Gateway.ListAt(r.lists, k) == Gateway.ListAt(s.lists, k)
  {
    match update
    case VDict(e) =>
      if "type" !in e then s
      else if e["type"] == VStr("message") then SaveMessageUpdate(s, e, up)
      else if e["type"] == VStr("node") then NodeUpdate(s, e, up)
      else if e["type"] == VStr("update_message") then ReplaceMessageUpdate(s, e, up)
      else s
    case _ => s
  }

  /** A "node" update with the three required keys writes the node's name and
      timestamp exactly when the pipeline can run; otherwise nothing changes. */
  lemma NodeUpdateWrites(s: Store, update: Value, up: bool)
    requires HasType(update, "node") && HasKeys(update, {"node_id", "node_name", "timestamp"})
    ensures var e := update.entries;
            var r := ProcessUpdate(s, update, up);
            if up && NodeWritable(e["node_id"], e["node_name"], e["timestamp"], Get(e, "battery_level", VNone), Get(e, "position", VNone)) then
              HashAt(r, NodesKey) == HashAt(s, NodesKey)[Encode(e["node_id"]).value := Encode(e["node_name"]).value]
              && HashAt(r, TimestampsKey) == HashAt(s, TimestampsKey)[Encode(e["node_id"]).value := Encode(e["timestamp"]).value]
            else r == s
  {
  }

  /** `initialize_broadcast_node`: the broadcast address "^all" is its own name. */
  function InitializeBroadcastNode(s: Store, timestamp: string, up: bool): (r: Store)
    ensures up ==> HashAt(r, NodesKey) == HashAt(s, NodesKey)["^all" := "^all"]
    ensures up ==> HashAt(r, TimestampsKey) == HashAt(s, TimestampsKey)["^all" := timestamp]
    ensures up ==> forall k :: k != NodesKey && k != TimestampsKey ==> HashAt(r, k) == HashAt(s, k)
    ensures r.lists == s.lists
    ensures !up ==> r == s
  {
    if up then HSet(HSet(s, NodesKey, "^all", "^all"), TimestampsKey, "^all", timestamp) else s
  }

  /** The id and name `initialize_connected_node` derives from the connected
      node's info: `None` when the info has no `num` (or a None one); an error
      when the info or its `user` is not a dict or `num` cannot be formatted. */
  function ConnectedNode(info: Value): (r: Outcome<Option<(string, Value)>>)
    ensures r.Ok? && r.value.Some? ==> info.VDict? && "num" in info.entries
    ensures info.VDict? && Get(info.entries, "num", VNone) == VNone ==> r == Ok(None)
  {
    match info
    case VDict(e) =>
      var num := Get(e, "num", VNone);
      if num == VNone then Ok(None)
      else
        var id :- HexId.FormatNum(num);
        (match Get(e, "user", VDict(map[]))
         case VDict(u) => Ok(Some((id, Get(u, "longName", Get(u, "shortName", VStr(id))))))
         case _ => Err(AttributeError))
    case _ => Err(AttributeError)
  }

  /** The naming rule: an integer `num` gives the id "!" + `%08x`; the name is
      `longName` when that key is present, else `shortName` when present, else
      the id itself. Presence decides, not truthiness: an empty `longName` wins. */
  lemma ConnectedNodeName(info: Value)
    requires info.VDict? && "num" in info.entries && info.entries["num"].VInt?
    requires Get(info.entries, "user", VDict(map[])).VDict?
    ensures var u := Get(info.entries, "user", VDict(map[])).entries;
            var id := HexId.NodeId(info.entries["num"].i);
            ConnectedNode(info) == Ok(Some((id,
              if "longName" in u then u["longName"]
              else if "shortName" in u then u["shortName"]
              else VStr(id))))
  {
  }

  /** `initialize_connected_node`: writes the derived name and the timestamp
      under the node's id; any failure is logged and writes nothing. */
  function InitializeConnectedNode(s: Store, info: Value, timestamp: string, up: bool): (r: Store)
    ensures r.lists == s.lists
    ensures ConnectedNode(info).Ok? && ConnectedNode(info).value.None? ==> r == s
    ensures !up ==> r == s
    ensures up && ConnectedNode(info).Ok? && ConnectedNode(info).value.Some? && Encodable(ConnectedNode(info).value.value.1) ==>
              var (id, name) := ConnectedNode(info).value.value;
              HashAt(r, NodesKey) == HashAt(s, NodesKey)[id := Encode(name).value]
              && HashAt(r, TimestampsKey) == HashAt(s, TimestampsKey)[id := timestamp]
  {
    match ConnectedNode(info)
    case Ok(Some((id, name))) =>
      if up && Encodable(name) then HSet(HSet(s, NodesKey, id, Encode(name).value), TimestampsKey, id, timestamp)
      else s
    case _ => s
  }

  /** `load_messages()`: LRANGE 0 -1 of the message list, or [] when Redis
      fails. It takes no argument besides the handler, so a call that passes one
      raises TypeError before anything is read. */
  function LoadMessages(s: Store, args: seq<Value>, up: bool): (r: Outcome<seq<Blob>>)
    ensures r.Ok? <==> |args| == 0
    ensures r.Ok? && up ==> r.value == Messages(s)
    ensures r.Ok? && !up ==> r.value == []
  {
    if |args| != 0 then Err(TypeError) else Ok(if up then Messages(s) else [])
  }

  /** What the rewrite loop does with one stored message. */
  datatype Step = Keep | Replace(b: Blob) | Abort

  /** One iteration of the `update_stored_messages` loop. Undecodable text is
      skipped; a decoded message whose `station_id` is `==` to `nodeId` is
      rewritten with the new name; a decoded value that is not a dict with a
      `station_id` raises KeyError or TypeError, which the inner handler does
      not catch, so the loop stops there. */
  function RewriteStep(m: Blob, nodeId: Value, newName: Value, parse: string -> Option<Value>): (r: Step)
    ensures r.Replace? <==> Loads(m, parse).Some? && Loads(m, parse).value.VDict?
                            && "station_id" in Loads(m, parse).value.entries
                            && PyEq(Loads(m, parse).value.entries["station_id"], nodeId)
    ensures r.Replace? ==> r.b == Json(VDict(Loads(m, parse).value.entries["station_id" := newName]))
  {
    match Loads(m, parse)
    case None => Keep
    case Some(VDict(e)) =>
      if "station_id" !in e then Abort
      else if PyEq(e["station_id"], nodeId) then Replace(Json(VDict(e["station_id" := newName])))
      else Keep
    case Some(_) => Abort
  }

  /** The comparison is Python's `==`, not identity of representation: a
      sender stored as the float 1.0 is renamed when node 1 is. */
  lemma NumericallyEqualIdRenamed(parse: string -> Option<Value>)
    ensures var m := Json(VDict(map["station_id" := VFloat(1.0)]));
            RewriteStep(m, VInt(1), VStr("Base"), parse) == Replace(Json(VDict(map["station_id" := VStr("Base")])))
  {
    var e := map["station_id" := VFloat(1.0)];
    assert e["station_id" := VStr("Base")] == map["station_id" := VStr("Base")];
  }

  /** No stored message before position `i` stops the loop. */
  predicate Reached(msgs: seq<Blob>, i: nat, nodeId: Value, newName: Value, parse: string -> Option<Value>)
    requires i <= |msgs|
  {
    forall j :: 0 <= j < i ==> !RewriteStep(msgs[j], nodeId, newName, parse).Abort?
  }

  /** The message list after the loop (see `RewriteAt` for what it holds). */
  function Rewrite(msgs: seq<Blob>, nodeId: Value, newName: Value, parse: string -> Option<Value>): (r: seq<Blob>)
    ensures |r| == |msgs|
    decreases |msgs|
  {
    if |msgs| == 0 then []
    else
      match RewriteStep(msgs[0], nodeId, newName, parse)
      case Abort => msgs
      case Keep => [msgs[0]] + Rewrite(msgs[1..], nodeId, newName, parse)
      case Replace(b) => [b] + Rewrite(msgs[1..], nodeId, newName, parse)
  }

  /** Every entry the loop reaches and matches is replaced by its rewrite;
      every other entry, the ones after a stop included, stays as it was. */
  lemma {:induction false} RewriteAt(msgs: seq<Blob>, nodeId: Value, newName: Value, parse: string -> Option<Value>, i: nat)
    requires i < |msgs|
    ensures Rewrite(msgs, nodeId, newName, parse)[i] ==
              (if Reached(msgs, i, nodeId, newName, parse) && RewriteStep(msgs[i], nodeId, newName, parse).Replace?
               then RewriteStep(msgs[i], nodeId, newName, parse).b else msgs[i])
    decreases i
  {
    var step := RewriteStep(msgs[0], nodeId, newName, parse);
    if i > 0 {
      var tail := msgs[1..];
      ReachedCons(msgs, nodeId, newName, parse, i);
      if !step.Abort? {
        RewriteAt(tail, nodeId, newName, parse, i - 1);
        assert Rewrite(msgs, nodeId, newName, parse)[i] == Rewrite(tail, nodeId, newName, parse)[i - 1];
        assert tail[i - 1] == msgs[i];
      }
    }
  }

  /** The loop reaches position `i` iff it gets past the first entry and then
      reaches position `i - 1` of the rest. */
  lemma ReachedCons(msgs: seq<Blob>, nodeId: Value, newName: Value, parse: string -> Option<Value>, i: nat)
    requires 1 <= i <= |msgs|
    ensures Reached(msgs, i, nodeId, newName, parse) <==>
              !RewriteStep(msgs[0], nodeId, newName, parse).Abort? && Reached(msgs[1..], i - 1, nodeId, newName, parse)
  {
    assert forall j :: 1 <= j < i ==> msgs[1..][j - 1] == msgs[j];
    if !RewriteStep(msgs[0], nodeId, newName, parse).Abort? && Reached(msgs[1..], i - 1, nodeId, newName, parse) {
      forall j | 0 <= j < i
        ensures !RewriteStep(msgs[j], nodeId, newName, parse).Abort?
      {
        if j > 0 {
          assert msgs[1..][j - 1] == msgs[j];
        }
      }
    }
  }

  /** The loop body of `update_stored_messages`, reading the list with the
      arguments `loadArgs`; any error escaping the loop is caught and logged. */
  function UpdateStored(s: Store, loadArgs: seq<Value>, nodeId: Value, newName: Value, parse: string -> Option<Value>, up: bool): (r: Store)
    ensures r.hashes == s.hashes
    ensures forall k :: k != MessagesKey ==> Gateway.ListAt(r.lists, k) == Gateway.ListAt(s.lists, k)
  {
    match LoadMessages(s, loadArgs, up)
    case Err(_) => s
    case Ok(msgs) =>
      if |msgs| == 0 then s
      else Store(s.lists[MessagesKey := Rewrite(msgs, nodeId, newName, parse)], s.hashes)
  }

  /** `update_stored_messages` as written: line 175 passes the list key to
      `load_messages`, which accepts no argument, so the call raises TypeError,
      the outer handler catches it, and no message is ever rewritten. */
  function UpdateStoredMessagesAsWritten(s: Store, nodeId: Value, newName: Value, parse: string -> Option<Value>, up: bool): (r: Store)
    ensures r == s
  {
    UpdateStored(s, [VStr(MessagesKey)], nodeId, newName, parse, up)
  }

  /** `update_stored_messages` as intended: `load_messages()` without the
      argument, then the rewrite loop over the whole list. */
  function UpdateStoredMessages(s: Store, nodeId: Value, newName: Value, parse: string -> Option<Value>, up: bool): (r: Store)
    ensures up ==> Messages(r) == Rewrite(Messages(s), nodeId, newName, parse)
    ensures !up ==> r == s
    ensures r.hashes == s.hashes
  {
    UpdateStored(s, [], nodeId, newName, parse, up)
  }

  /** Rewriting twice is rewriting once: a rewritten entry carries the new
      name, and every other entry meets the same decision again. */
  lemma {:induction false} RewriteIdempotent(msgs: seq<Blob>, nodeId: Value, newName: Value, parse: string -> Option<Value>)
    ensures Rewrite(Rewrite(msgs, nodeId, newName, parse), nodeId, newName, parse) == Rewrite(msgs, nodeId, newName, parse)
    decreases |msgs|
  {
    if |msgs| > 0 {
      var r := Rewrite(msgs, nodeId, newName, parse);
      match RewriteStep(msgs[0], nodeId, newName, parse)
      case Abort =>
        assert r == msgs;
      case Keep =>
        assert r == [msgs[0]] + Rewrite(msgs[1..], nodeId, newName, parse);
        assert r[1..] == Rewrite(msgs[1..], nodeId, newName, parse);
        RewriteIdempotent(msgs[1..], nodeId, newName, parse);
      case Replace(b) =>
        assert r == [b] + Rewrite(msgs[1..], nodeId, newName, parse);
        assert r[1..] == Rewrite(msgs[1..], nodeId, newName, parse);
        assert RewriteStep(b, nodeId, newName, parse).Replace? ==> RewriteStep(b, nodeId, newName, parse).b == b;
        RewriteIdempotent(msgs[1..], nodeId, newName, parse);
    }
  }

  /** The discrepancy on a one-message list whose sender is being renamed: the
      code as written leaves the message alone, the intended loop renames it. */
  lemma AsWrittenNeverRenames()
    ensures var m := Json(VDict(map["station_id" := VStr("!0000abcd")]));
            var s := Store(map[MessagesKey := [m]], map[]);
            var parse := (t: string) => None;
            UpdateStoredMessagesAsWritten(s, VStr("!0000abcd"), VStr("Base"), parse, true) == s
            && Messages(UpdateStoredMessages(s, VStr("!0000abcd"), VStr("Base"), parse, true))
               == [Json(VDict(map["station_id" := VStr("Base")]))]
  {
    var m := Json(VDict(map["station_id" := VStr("!0000abcd")]));
    var parse := (t: string) => None;
    assert RewriteStep(m, VStr("!0000abcd"), VStr("Base"), parse).Replace?;
    assert map["station_id" := VStr("!0000abcd")]["station_id" := VStr("Base")] == map["station_id" := VStr("Base")];
  }
}

=== FILE: log_filter.dfy ===
/** The two `LogLevelFilter` classes. The package's filter admits a record
    whose level is one of a set of levels or, in threshold mode, at least the
    smallest of them; the older top-level filter admits exactly one level. */
module LogFilter {
  import opened Wrappers
  import opened PyValue

  /** The constructor's `levels` argument: one int, or a list or set of ints. */
  datatype Levels = Single(level: int) | Several(levels: seq<int>)

  /** A constructed filter: its level set, its mode, and the minimum it
      computed when in threshold mode. */
  datatype Filter = Filter(levels: set<int>, threshold: bool, minLevel: Option<int>)

  /** `min()` of a non-empty list of levels. */
  function MinOf(xs: seq<int>): (m: int)
    requires |xs| > 0
    ensures m in xs && forall i :: 0 <= i < |xs| ==> m <= xs[i]
    decreases |xs|
  {
    if |xs| == 1 then xs[0]
    else
      var rest := MinOf(xs[1..]);
      assert forall i :: 1 <= i < |xs| ==> xs[i] == xs[1..][i - 1];
      if xs[0] <= rest then xs[0] else rest
  }

  /** `m` is the least element of `s`. */
  predicate IsLeast(m: int, s: set<int>) {
    m in s && forall x :: x in s ==> m <= x
  }

  /** `{levels} if isinstance(levels, int) else set(levels)`. */
  function LevelSet(l: Levels): (r: set<int>)
    ensures l.Single? ==> r == {l.level}
    ensures l.Several? ==> forall x :: x in r <==> x in l.levels
  {
    match l
    case Single(x) => {x}
    case Several(xs) => set x | x in xs
  }

  /** A filter the constructor can build: the minimum is present exactly in
      threshold mode, and is the least level. */
  predicate Valid(f: Filter) {
    if f.threshold then f.minLevel.Some? && IsLeast(f.minLevel.value, f.levels)
    else f.minLevel.None?
  }

  /** `LogLevelFilter(levels, threshold)`: threshold mode takes the minimum
      at once, so it raises ValueError on an empty level set. */
  function NewFilter(l: Levels, threshold: bool): (r: Outcome<Filter>)
    ensures r.Err? <==> threshold && LevelSet(l) == {}
    ensures r.Err? ==> r.error == ValueError
    ensures r.Ok? ==> Valid(r.value) && r.value.levels == LevelSet(l) && r.value.threshold == threshold
  {
    var levels := LevelSet(l);
    if !threshold then Ok(Filter(levels, false, None))
    else
      match l
      case Single(x) => Ok(Filter(levels, true, Some(x)))
      case Several(xs) =>
        if |xs| == 0 then Err(ValueError) else Ok(Filter(levels, true, Some(MinOf(xs))))
  }

  /** `filter(record)`: in threshold mode a level passes when it reaches
      some configured level, otherwise when it is one of them. */
  function Admits(f: Filter, levelno: int): (r: bool)
    requires Valid(f)
    ensures f.threshold ==> (r <==> exists l :: l in f.levels && l <= levelno)
    ensures !f.threshold ==> (r <==> levelno in f.levels)
  {
    if f.threshold then levelno >= f.minLevel.value else levelno in f.levels
  }

  /** A single level and the one-element list of it make the same filter. */
  lemma SingleIsOneElementList(x: int, threshold: bool)
    ensures NewFilter(Single(x), threshold) == NewFilter(Several([x]), threshold)
  {
    assert LevelSet(Several([x])) == {x};
  }

  /** Repeated levels collapse: the order and multiplicity of the list do not
      matter, only which levels it names. */
  lemma DuplicatesCollapse(xs: seq<int>, ys: seq<int>, threshold: bool)
    requires forall x :: x in xs <==> x in ys
    ensures NewFilter(Several(xs), threshold) == NewFilter(Several(ys), threshold)
  {
    assert forall x :: x in LevelSet(Several(xs)) <==> x in LevelSet(Several(ys));
    assert LevelSet(Several(xs)) == LevelSet(Several(ys));
  }

  /** Threshold mode admits every level at or above one it admits. */
  lemma ThresholdUpwardClosed(f: Filter, a: int, b: int)
    requires Valid(f) && f.threshold && a <= b && Admits(f, a)
    ensures Admits(f, b)
  {
  }

  /** Threshold mode admits at least what set mode admits for the same levels. */
  lemma ThresholdCoversSet(l: Levels, levelno: int)
    requires NewFilter(l, true).Ok? && NewFilter(l, false).Ok?
    requires Admits(NewFilter(l, false).value, levelno)
    ensures Admits(NewFilter(l, true).value, levelno)
  {
  }

  /** The older filter: it keeps the level it was given. */
  datatype ExactFilter = ExactFilter(level: int)

  /** Its `filter(record)`: levels above or below are rejected. */
  function AdmitsExact(f: ExactFilter, levelno: int): (r: bool)
    ensures levelno == f.level ==> r
    ensures levelno < f.level || levelno > f.level ==> !r
  {
    levelno == f.level
  }

  /** The older filter is the newer one in set mode over a single level. */
  lemma ExactIsSingleSetMode(level: int, levelno: int)
    ensures NewFilter(Single(level), false).Ok?
    ensures AdmitsExact(ExactFilter(level), levelno) == Admits(NewFilter(Single(level), false).value, levelno)
  {
  }
}

=== FILE: log_levels.dfy ===
/** Log-level names and logger set-up, in the package version
    (src/station/utils/logger.py) and the older top-level logger.py. The
    `logging` module's registry of named loggers is a map from logger name to
    its level, propagation flag and handlers; handler construction, formatters
    and the debugging prints are not modelled. */
module LogLevels {
  import opened Wrappers
  import opened PyValue
  import Text
  import LogFilter

  /** The package's custom levels. */
  const PacketLevel := 15
  const DataLevel := 16
  const RedisLevel := 17

  /** `CUSTOM_LEVELS`, keyed by upper-case name. */
  function CustomLevel(name: string): Option<int> {
    if name == "PACKET" then Some(PacketLevel)
    else if name == "DATA" then Some(DataLevel)
    else if name == "REDIS" then Some(RedisLevel)
    else None
  }

  /** The level constants of the `logging` module; its other upper-case
      attributes (format strings and the like) are not modelled. */
  function LoggingAttr(name: string): Option<int> {
    if name == "CRITICAL" || name == "FATAL" then Some(50)
    else if name == "ERROR" then Some(40)
    else if name == "WARNING" || name == "WARN" then Some(30)
    else if name == "INFO" then Some(20)
    else if name == "DEBUG" then Some(10)
    else if name == "NOTSET" then Some(0)
    else None
  }

  /** `get_available_levels()`: the five standard names, then the custom ones
      in the insertion order of `CUSTOM_LEVELS`, which is also their level order. */
  function AvailableLevels(): (r: seq<string>)
    ensures |r| == 8 && r[..5] == ["DEBUG", "INFO", "WARNING", "ERROR", "CRITICAL"]
    ensures r[5..] == ["PACKET", "DATA", "REDIS"]
    ensures forall i, j :: 5 <= i < j < |r| ==> CustomLevel(r[i]).GetOr(0) < CustomLevel(r[j]).GetOr(0)
    ensures forall i :: 5 <= i < |r| ==> CustomLevel(r[i]).Some?
    ensures forall n :: CustomLevel(n).Some? ==> n in r[5..]
  {
    ["DEBUG", "INFO", "WARNING", "ERROR", "CRITICAL"] + ["PACKET", "DATA", "REDIS"]
  }

  /** The `level_names` argument: one name or a list of names. */
  datatype LevelNames = One(name: string) | Many(names: seq<string>)

  function AsList(l: LevelNames): (r: seq<string>)
    ensures l.One? ==> r == [l.name]
    ensures l.Many? ==> r == l.names
  {
    match l
    case One(n) => [n]
    case Many(ns) => ns
  }

  /** One name resolved: upper-cased, looked up among the custom levels
      first and the `logging` level constants second; other names raise. */
  function ResolveOne(name: string): (r: Outcome<int>)
    ensures CustomLevel(Text.Upper(name)).Some? ==> r == Ok(CustomLevel(Text.Upper(name)).value)
    ensures CustomLevel(Text.Upper(name)).None? ==>
              r == (if LoggingAttr(Text.Upper(name)).Some? then Ok(LoggingAttr(Text.Upper(name)).value) else Err(ValueError))
  {
    var upper := Text.Upper(name);
    match CustomLevel(upper)
    case Some(level) => Ok(level)
    case None =>
      match LoggingAttr(upper)
      case Some(level) => Ok(level)
      case None => Err(ValueError)
  }

  /** `resolve_log_levels(level_names)`: the levels in the order the names
      were given, or ValueError for the first unknown name. */
  function ResolveAll(names: seq<string>): (r: Outcome<seq<int>>)
    ensures r.Ok? <==> forall i :: 0 <= i < |names| ==> ResolveOne(names[i]).Ok?
    ensures r.Ok? ==> |r.value| == |names| && forall i :: 0 <= i < |names| ==> r.value[i] == ResolveOne(names[i]).value
    ensures r.Err? ==> r.error == ValueError
    decreases |names|
  {
    if |names| == 0 then Ok([])
    else
      var first :- ResolveOne(names[0]);
      var rest :- ResolveAll(names[1..]);
      assert forall i :: 1 <= i < |names| ==> names[i] == names[1..][i - 1];
      Ok([first] + rest)
  }

  function ResolveLogLevels(l: LevelNames): (r: Outcome<seq<int>>)
    ensures r == ResolveAll(AsList(l))
  {
    ResolveAll(AsList(l))
  }

  /** A name without lower-case letters is its own upper case. */
  lemma UpperFixed(s: string)
    requires forall i :: 0 <= i < |s| ==> !('a' <= s[i] <= 'z')
    ensures Text.Upper(s) == s
  {
  }

  /** Every listed level name resolves. */
  lemma AvailableLevelsResolve()
    ensures forall n :: n in AvailableLevels() ==> ResolveOne(n).Ok?
  {
    forall n | n in AvailableLevels()
      ensures ResolveOne(n).Ok?
    {
      UpperFixed(n);
    }
  }

  /** Names are matched case-insensitively: the custom names in any case
      resolve to their levels, in the order given. */
  lemma CustomNamesAnyCase()
    ensures ResolveLogLevels(Many(["packet", "Data", "REDIS"])) == Ok([15, 16, 17])
  {
    assert Text.Upper("packet") == "PACKET";
    assert Text.Upper("Data") == "DATA";
    UpperFixed("REDIS");
    var names := ["packet", "Data", "REDIS"];
    assert ResolveOne(names[0]) == Ok(15) && ResolveOne(names[1]) == Ok(16) && ResolveOne(names[2]) == Ok(17);
    assert ResolveAll(names).value == [15, 16, 17];
  }

  /** Where a handler writes. */
  datatype Sink = ConsoleSink | FileSink(path: Value)

  /** A handler: its sink, its level, and the filter attached to it, if any. */
  datatype Handler = Handler(sink: Sink, level: int, filter: Option<LogFilter.Filter>)

  datatype Logger = Logger(level: int, propagate: bool, handlers: seq<Handler>)

  /** The named loggers that exist. A logger not yet created starts at
      NOTSET, propagating, with no handlers. */
  type Registry = map<string, Logger>

  function GetLogger(reg: Registry, name: string): Logger {
    if name in reg then reg[name] else Logger(0, true, [])
  }

  /** `logger.hasHandlers()`: the logger's own handlers, or an ancestor's,
      which `ancestorsHandled` reports. */
  predicate HasHandlers(reg: Registry, name: string, ancestorsHandled: bool) {
    |GetLogger(reg, name).handlers| > 0 || ancestorsHandled
  }

  /** The package's `configure_logger` with its debugging prints set aside:
      an already-configured logger is returned unchanged; otherwise the
      level is the least resolved level, propagation is switched off, and a
      console handler, plus a file handler when `log_file` is truthy, is
      added at that level with one shared filter. An unknown name raises
      ValueError, and so does an empty list (from `min`). */
  function Configure(reg: Registry, name: string, levels: LevelNames, useThreshold: bool, logFile: Value, ancestorsHandled: bool): (r: Outcome<Registry>)
    ensures HasHandlers(reg, name, ancestorsHandled) ==> r.Ok? && name in r.value && r.value[name] == GetLogger(reg, name)
    ensures !HasHandlers(reg, name, ancestorsHandled) ==>
              (r.Ok? <==> ResolveLogLevels(levels).Ok? && |AsList(levels)| > 0)
    ensures r.Err? ==> r.error == ValueError
    ensures r.Ok? ==> r.value.Keys == reg.Keys + {name}
                      && forall other :: other in reg && other != name ==> r.value[other] == reg[other]
  {
    if HasHandlers(reg, name, ancestorsHandled) then Ok(reg[name := GetLogger(reg, name)])
    else
      var resolved :- ResolveLogLevels(levels);
      if |resolved| == 0 then Err(ValueError)
      else
        var base := LogFilter.MinOf(resolved);
        var filter := LogFilter.NewFilter(LogFilter.Several(resolved), useThreshold).value;
        var console := Handler(ConsoleSink, base, Some(filter));
        var handlers := if Truthy(logFile) then [console, Handler(FileSink(logFile), base, Some(filter))] else [console];
        Ok(reg[name := Logger(base, false, GetLogger(reg, name).handlers + handlers)])
  }

  /** What a fresh configuration sets up: the logger's level is the least of
      the resolved levels, it no longer propagates, and its handlers are a
      console handler and, for a truthy `log_file`, a file handler writing
      there, each at the logger's level with the filter over the resolved
      levels. */
  lemma ConfigureFresh(reg: Registry, name: string, levels: LevelNames, useThreshold: bool, logFile: Value, ancestorsHandled: bool)
    requires !HasHandlers(reg, name, ancestorsHandled)
    requires Configure(reg, name, levels, useThreshold, logFile, ancestorsHandled).Ok?
    ensures var lg := Configure(reg, name, levels, useThreshold, logFile, ancestorsHandled).value[name];
            var resolved := ResolveLogLevels(levels).value;
            LogFilter.IsLeast(lg.level, set x | x in resolved) && !lg.propagate
            && |lg.handlers| == (if Truthy(logFile) then 2 else 1)
            && lg.handlers[0].sink == ConsoleSink
            && (Truthy(logFile) ==> lg.handlers[1].sink == FileSink(logFile))
            && forall i :: 0 <= i < |lg.handlers| ==>
                 lg.handlers[i].level == lg.level
                 && lg.handlers[i].filter == Some(LogFilter.NewFilter(LogFilter.Several(resolved), useThreshold).value)
  {
  }

  /** `configure_logger` as written: with `debugging` set, line 100 reads
      `base_level` before line 112 assigns it, which raises UnboundLocalError
      (a NameError) before anything is configured. */
  function ConfigureAsWritten(reg: Registry, name: string, levels: LevelNames, useThreshold: bool,
                              logFile: Value, debugging: bool, ancestorsHandled: bool): (r: Outcome<Registry>)
    ensures !debugging ==> r == Configure(reg, name, levels, useThreshold, logFile, ancestorsHandled)
  {
    if debugging then Err(NameError)
    else Configure(reg, name, levels, useThreshold, logFile, ancestorsHandled)
  }

  /** With debugging on, the as-written function configures nothing, even for
      a valid level and a fresh logger where the intended one succeeds. */
  lemma DebuggingAlwaysFails(reg: Registry, name: string)
    requires name !in reg
    ensures ConfigureAsWritten(reg, name, One("INFO"), false, VNone, true, false) == Err(NameError)
    ensures Configure(reg, name, One("INFO"), false, VNone, false).Ok?
  {
    assert Text.Upper("INFO") == "INFO";
  }

  /** Configuring twice is configuring once: the second call sees the
      handlers the first one added. */
  lemma ConfigureIdempotent(reg: Registry, name: string, levels: LevelNames, useThreshold: bool, logFile: Value,
                            ancestorsHandled: bool, levels2: LevelNames, useThreshold2: bool, logFile2: Value)
    requires Configure(reg, name, levels, useThreshold, logFile, ancestorsHandled).Ok?
    ensures var reg' := Configure(reg, name, levels, useThreshold, logFile, ancestorsHandled).value;
            Configure(reg', name, levels2, useThreshold2, logFile2, ancestorsHandled) == Ok(reg')
  {
    var reg' := Configure(reg, name, levels, useThreshold, logFile, ancestorsHandled).value;
    ConfiguredHasHandlers(reg, name, levels, useThreshold, logFile, ancestorsHandled);
    assert reg'[name := GetLogger(reg', name)] == reg';
  }

  /** A successful call leaves the logger with handlers. */
  lemma ConfiguredHasHandlers(reg: Registry, name: string, levels: LevelNames, useThreshold: bool, logFile: Value, ancestorsHandled: bool)
    requires Configure(reg, name, levels, useThreshold, logFile, ancestorsHandled).Ok?
    ensures HasHandlers(Configure(reg, name, levels, useThreshold, logFile, ancestorsHandled).value, name, ancestorsHandled)
  {
    if !HasHandlers(reg, name, ancestorsHandled) {
      ConfigureFresh(reg, name, levels, useThreshold, logFile, ancestorsHandled);
    }
  }

  /** The older logger.py's custom levels: PACKET and REDIS only. */
  function LegacyCustomLevel(name: string): Option<int> {
    if name == "PACKET" then Some(PacketLevel)
    else if name == "REDIS" then Some(RedisLevel)
    else None
  }

  /** The older `resolve_log_level`: a custom level, else the `logging`
      level constant, else INFO — it never raises. */
  function ResolveLogLevel(name: string): (level: int)
    ensures LegacyCustomLevel(Text.Upper(name)).Some? ==> level == LegacyCustomLevel(Text.Upper(name)).value
    ensures LegacyCustomLevel(Text.Upper(name)).None? && LoggingAttr(Text.Upper(name)).Some? ==>
              level == LoggingAttr(Text.Upper(name)).value
    ensures LegacyCustomLevel(Text.Upper(name)).None? && LoggingAttr(Text.Upper(name)).None? ==> level == 20
  {
    var upper := Text.Upper(name);
    match LegacyCustomLevel(upper)
    case Some(level) => level
    case None => LoggingAttr(upper).GetOr(20)
  }

  /** The two resolvers agree wherever the package one succeeds, except on
      DATA, which the older one does not know and maps to INFO. */
  lemma ResolversAgree(name: string)
    requires ResolveOne(name).Ok? && Text.Upper(name) != "DATA"
    ensures ResolveLogLevel(name) == ResolveOne(name).value
  {
  }

  lemma DataDiffers()
    ensures ResolveOne("data") == Ok(16) && ResolveLogLevel("data") == 20
  {
    assert Text.Upper("data") == "DATA";
  }

  /** The older `configure_logger`: unchanged when already configured;
      otherwise the given level, no propagation, a console handler and a
      'meshtastic.log' file handler, both at that level and unfiltered. */
  function ConfigureLegacy(reg: Registry, name: string, level: int, ancestorsHandled: bool): (r: Registry)
    ensures r.Keys == reg.Keys + {name}
    ensures HasHandlers(reg, name, ancestorsHandled) ==> r[name] == GetLogger(reg, name)
    ensures forall other :: other in reg && other != name ==> r[other] == reg[other]
    ensures !HasHandlers(reg, name, ancestorsHandled) ==>
              r[name].level == level && !r[name].propagate
              && r[name].handlers == [Handler(ConsoleSink, level, None), Handler(FileSink(VStr("meshtastic.log")), level, None)]
  {
    if HasHandlers(reg, name, ancestorsHandled) then reg[name := GetLogger(reg, name)]
    else
      reg[name := Logger(level, false, [Handler(ConsoleSink, level, None), Handler(FileSink(VStr("meshtastic.log")), level, None)])]
  }

  /** A second call on the same name adds no handlers. */
  lemma ConfigureLegacyIdempotent(reg: Registry, name: string, level: int, level2: int, ancestorsHandled: bool)
    ensures ConfigureLegacy(ConfigureLegacy(reg, name, level, ancestorsHandled), name, level2, ancestorsHandled)
            == ConfigureLegacy(reg, name, level, ancestorsHandled)
  {
  }
}

=== FILE: mvc_app.dfy ===
/** The consumer side in src/station/ui/mvc_app.py: `process_messages` takes
    queued updates one at a time, hands each packet to the data handler, and
    schedules `update_ui`, which routes the update to one of five views. */
module MvcApp {
  import opened Wrappers
  import opened PyValue
  import opened Schema
  import opened Ingress
  import opened DataHandler

  /** The five tabs of the application. */
  datatype View = MessagesView | NodesView | DeviceView | NetworkView | EnvironmentView

  /** `_get_telemetry_type`: the same precedence as the data handler's
      telemetry routing; a missing key or a non-container raises. */
  function GetTelemetryType(packet: Value): (r: Outcome<Option<RecordKind>>)
    ensures r.Ok? <==> TelemetryOf(packet).Ok? && TelemetryKind(TelemetryOf(packet).value).Ok?
    ensures r.Ok? && r.value.Some? ==> r.value.value in PacketTypes("TELEMETRY_APP")
    ensures TelemetryOf(packet).Ok? && TelemetryOf(packet).value.VDict? ==>
              var t := TelemetryOf(packet).value.entries;
              && (r == Ok(Some(DeviceTelemetry)) <==> "deviceMetrics" in t)
              && (r == Ok(Some(NetworkTelemetry)) <==> "deviceMetrics" !in t && "localStats" in t)
              && (r == Ok(Some(EnvironmentTelemetry)) <==>
                    "deviceMetrics" !in t && "localStats" !in t && "environmentMetrics" in t)
              && (r == Ok(None) <==>
                    "deviceMetrics" !in t && "localStats" !in t && "environmentMetrics" !in t)
    ensures PortName(packet) == "TELEMETRY_APP" && r.Ok? ==> r.value == Route(packet)
  {
    var telemetry :- TelemetryOf(packet);
    TelemetryKind(telemetry)
  }

  /** The view that shows each telemetry kind. */
  function TelemetryView(k: RecordKind): View
    requires k in PacketTypes("TELEMETRY_APP")
  {
    match k
    case DeviceTelemetry => DeviceView
    case NetworkTelemetry => NetworkView
    case EnvironmentTelemetry => EnvironmentView
  }

  /** `update_ui`: the view an update is routed to, or None when its type is
      unknown, its telemetry matches no kind, or routing raises (the error is
      logged and swallowed). */
  function UpdateUi(update: Value): (r: Option<View>)
    ensures forall p :: update == Item(NodeSource, p) ==> r == Some(NodesView)
    ensures forall p :: update == Item(TextSource, p) ==> r == Some(MessagesView)
    ensures forall p :: update == Item(TelemetrySource, p) ==>
              r == (if GetTelemetryType(p).Ok? && GetTelemetryType(p).value.Some?
                    then Some(TelemetryView(GetTelemetryType(p).value.value)) else None)
    ensures r == Some(DeviceView) ==> update.VDict? && "type" in update.entries && update.entries["type"] == VStr("telemetry")
  {
    var routed := (
      var updateType :- Subscript(update, "type");
      var packet :- Subscript(update, "packet");
      if updateType == VStr("text") then Ok(Some(MessagesView))
      else if updateType == VStr("node") then Ok(Some(NodesView))
      else if updateType == VStr("telemetry") then
        var kind :- GetTelemetryType(packet);
        (match kind
         case Some(k) => Ok(Some(TelemetryView(k)))
         case None => Ok(None))
      else Ok(None));
    if routed.Ok? then routed.value else None
  }

  /** The consumer's state: its queue, the Redis store, and the updates
      scheduled for `update_ui` so far. */
  datatype App = App(queue: Queue, db: Store, scheduled: seq<Value>)

  /** One iteration of the `process_messages` loop. An empty queue only
      sleeps. Otherwise the head update is taken, its packet processed (which
      never raises), `update_ui` scheduled, and the item marked done; an update
      without `packet` or `type` raises, and the handler still marks it done. */
  function DispatchStep(a: App, now: string, up: bool): (r: App)
    requires Valid(a.queue)
    ensures Valid(r.queue) && r.queue.maxsize == a.queue.maxsize
    ensures a.queue.items == [] ==> r == a
    ensures a.queue.items != [] ==>
              && r.queue.items == a.queue.items[1..]
              && r.queue.unfinished == a.queue.unfinished - 1
    ensures forall s, p :: a.queue.items != [] && a.queue.items[0] == Item(s, p) ==>
              r.db == ProcessPacket(a.db, p, now, up) && r.scheduled == a.scheduled + [a.queue.items[0]]
  {
    if a.queue.items == [] then a
    else
      var item := a.queue.items[0];
      var rest := Queue(a.queue.items[1..], a.queue.maxsize, a.queue.unfinished - 1);
      var taken := (
        var packet :- Subscript(item, "packet");
        var _ :- Subscript(item, "type");
        Ok(packet));
      match taken
      case Ok(packet) => App(rest, ProcessPacket(a.db, packet, now, up), a.scheduled + [item])
      case Err(_) => App(rest, a.db, a.scheduled)
  }

  /** The loop run once per timestamp in `nows`. */
  function Dispatch(a: App, nows: seq<string>, up: bool): (r: App)
    requires Valid(a.queue)
    ensures Valid(r.queue)
    decreases |nows|
  {
    if nows == [] then a else Dispatch(DispatchStep(a, nows[0], up), nows[1..], up)
  }

  /** The packets of a sequence of callback items processed in order: the
      reference the consumer loop is measured against. */
  function ProcessAll(db: Store, arrivals: seq<(Source, Value)>, nows: seq<string>, up: bool): Store
    requires |nows| == |arrivals|
    decreases |arrivals|
  {
    if arrivals == [] then db
    else ProcessAll(ProcessPacket(db, arrivals[0].1, nows[0], up), arrivals[1..], nows[1..], up)
  }

  /** The items the callbacks put on the queue for the given arrivals. */
  function Items(arrivals: seq<(Source, Value)>): (r: seq<Value>)
    ensures |r| == |arrivals|
    ensures forall i :: 0 <= i < |arrivals| ==> r[i] == Item(arrivals[i].0, arrivals[i].1)
  {
    seq(|arrivals|, i requires 0 <= i < |arrivals| => Item(arrivals[i].0, arrivals[i].1))
  }

  /** Draining a queue of callback items processes every packet exactly once,
      in arrival order, schedules every update, and marks every item done. */
  lemma {:induction false} DrainProcessesInOrder(a: App, arrivals: seq<(Source, Value)>, nows: seq<string>, up: bool)
    requires Valid(a.queue) && a.queue.items == Items(arrivals) && |nows| == |arrivals|
    ensures var r := Dispatch(a, nows, up);
            && r.queue.items == []
            && r.queue.unfinished == a.queue.unfinished - |arrivals|
            && r.db == ProcessAll(a.db, arrivals, nows, up)
            && r.scheduled == a.scheduled + Items(arrivals)
    decreases |arrivals|
  {
    if arrivals != [] {
      var (src, p) := arrivals[0];
      var a1 := DispatchStep(a, nows[0], up);
      assert a.queue.items[0] == Item(src, p);
      assert a1.db == ProcessPacket(a.db, p, nows[0], up);
      assert a1.scheduled == a.scheduled + [Item(src, p)];
      assert a1.queue.items == Items(arrivals[1..]);
      assert Dispatch(a, nows, up) == Dispatch(a1, nows[1..], up);
      assert ProcessAll(a.db, arrivals, nows, up) == ProcessAll(a1.db, arrivals[1..], nows[1..], up);
      DrainProcessesInOrder(a1, arrivals[1..], nows[1..], up);
      ItemsCons(arrivals);
      AppendAssoc(a.scheduled, Item(src, p), Items(arrivals[1..]));
    }
  }

  lemma ItemsCons(arrivals: seq<(Source, Value)>)
    requires arrivals != []
    ensures Items(arrivals) == [Item(arrivals[0].0, arrivals[0].1)] + Items(arrivals[1..])
  {
  }

  lemma AppendAssoc<T>(s: seq<T>, x: T, t: seq<T>)
    ensures s + ([x] + t) == (s + [x]) + t
  {
  }

  /** Every telemetry update is routed to the view of the kind the data
      handler stores it under. */
  lemma ViewMatchesStoredKind(p: Value)
    requires Route(p).Some? && PortName(p) == "TELEMETRY_APP"
    ensures UpdateUi(Item(TelemetrySource, p)) == Some(TelemetryView(Route(p).value))
  {
  }
}

=== FILE: normaliser.dfy ===
/** The normalisers of src/station/handlers/data_handler.py: each maps a decoded
    packet (camelCase keys) to a snake_case record of one kind, applies the
    documented defaults and coercions, stamps the kind's `type` tag, and
    validates the record against the kind's TypedDict before returning it. */
module Normaliser {
  import opened Wrappers
  import opened PyValue
  import opened Schema
  import opened Validation

  /** A normalised record: the dict that is serialised and stored. */
  type Record = map<string, Value>

  /** `int(d[k])` on a dict. */
  function IntAt(d: map<string, Value>, k: string): (r: Outcome<int>)
    ensures k !in d ==> r == Err(KeyError(k))
    ensures k in d ==> r == ToInt(d[k])
  {
    if k in d then ToInt(d[k]) else Err(KeyError(k))
  }

  /** `float(d[k])` on a dict. */
  function FloatAt(d: map<string, Value>, k: string): (r: Outcome<real>)
    ensures k !in d ==> r == Err(KeyError(k))
    ensures k in d ==> r == ToFloat(d[k])
  {
    if k in d then ToFloat(d[k]) else Err(KeyError(k))
  }

  /** `str(d[k])` on a dict: fails only when the key is missing. */
  function StrAt(d: map<string, Value>, k: string): (r: Outcome<string>)
    ensures r.Ok? <==> k in d
    ensures r.Ok? ==> r.value == ToStr(d[k])
  {
    if k in d then Ok(ToStr(d[k])) else Err(KeyError(k))
  }

  /** `int(d.get(k, dflt))`: the default when the key is absent. */
  function IntGet(d: map<string, Value>, k: string, dflt: int): (r: Outcome<int>)
    ensures k !in d ==> r == Ok(dflt)
    ensures k in d ==> r == ToInt(d[k])
  {
    ToInt(Get(d, k, VInt(dflt)))
  }

  /** `float(d.get(k, dflt))`: the default when the key is absent. */
  function FloatGet(d: map<string, Value>, k: string, dflt: real): (r: Outcome<real>)
    ensures k !in d ==> r == Ok(dflt)
    ensures k in d ==> r == ToFloat(d[k])
  {
    ToFloat(Get(d, k, VFloat(dflt)))
  }

  /** `_extract_metrics`: `rxTime` is required; `rxSnr` and `rxRssi` default to
      0 (never None) and `hopLimit` to 3. */
  function ExtractMetrics(p: map<string, Value>): (r: Outcome<Value>)
    ensures r.Ok? ==> "rxTime" in p && ToInt(p["rxTime"]).Ok?
    ensures r.Ok? ==> r.value.VDict? && r.value.entries.Keys == {"rx_time", "rx_snr", "rx_rssi", "hop_limit"}
    ensures r.Ok? ==> Conforms(MetricsSchema, r.value)
    ensures r.Ok? ==> r.value.entries["rx_time"] == VInt(ToInt(p["rxTime"]).value)
    ensures r.Ok? && "hopLimit" !in p ==> r.value.entries["hop_limit"] == VInt(3)
    ensures r.Ok? && "rxSnr" !in p ==> r.value.entries["rx_snr"] == VFloat(0.0)
    ensures r.Ok? && "rxRssi" !in p ==> r.value.entries["rx_rssi"] == VInt(0)
    ensures ("rxTime" in p && IsInt(p["rxTime"]) && "rxSnr" !in p && "rxRssi" !in p && "hopLimit" !in p) ==> r.Ok?
    ensures r.Ok? <==> IntAt(p, "rxTime").Ok? && FloatGet(p, "rxSnr", 0.0).Ok? && IntGet(p, "rxRssi", 0).Ok?
                       && IntGet(p, "hopLimit", 3).Ok?
    ensures r.Ok? ==> r.value.entries["rx_snr"] == VFloat(FloatGet(p, "rxSnr", 0.0).value)
                      && r.value.entries["rx_rssi"] == VInt(IntGet(p, "rxRssi", 0).value)
                      && r.value.entries["hop_limit"] == VInt(IntGet(p, "hopLimit", 3).value)
  {
    var rxTime :- IntAt(p, "rxTime");
    var snr :- ToFloat(Get(p, "rxSnr", VInt(0)));
    var rssi :- ToInt(Get(p, "rxRssi", VInt(0)));
    var hop :- ToInt(Get(p, "hopLimit", VInt(3)));
    Ok(MetricsRecord(rxTime, snr, rssi, hop))
  }

  /** The `Metrics` sub-record. */
  function MetricsRecord(rxTime: int, snr: real, rssi: int, hop: int): (v: Value)
    ensures Conforms(MetricsSchema, v)
    ensures v.VDict? && v.entries.Keys == {"rx_time", "rx_snr", "rx_rssi", "hop_limit"}
    ensures v.entries["rx_time"] == VInt(rxTime) && v.entries["rx_snr"] == VFloat(snr)
    ensures v.entries["rx_rssi"] == VInt(rssi) && v.entries["hop_limit"] == VInt(hop)
  {
    var m := map["rx_time" := VInt(rxTime), "rx_snr" := VFloat(snr), "rx_rssi" := VInt(rssi), "hop_limit" := VInt(hop)];
    assert FieldsConform(MetricsSchema.fields, m, 0);
    VDict(m)
  }

  /** The fields every record takes from the packet itself. */
  datatype Head = Head(fromNum: int, fromId: string, metrics: Value, raw: string)

  /** `int(packet['from'])`, `str(packet['fromId'])`, the metrics and `str(packet['raw'])`.
      A missing `fromId` fails; a present one is kept as `str()` renders it,
      so a null sender id becomes "None". */
  function ReadHead(p: map<string, Value>): (r: Outcome<Head>)
    ensures r.Ok? <==> "fromId" in p && "raw" in p && IntAt(p, "from").Ok? && ExtractMetrics(p).Ok?
    ensures r.Ok? ==> ToInt(p["from"]) == Ok(r.value.fromNum)
    ensures r.Ok? ==> r.value.fromId == ToStr(p["fromId"]) && r.value.raw == ToStr(p["raw"])
    ensures r.Ok? ==> Conforms(MetricsSchema, r.value.metrics) && ExtractMetrics(p) == Ok(r.value.metrics)
  {
    var fromNum :- IntAt(p, "from");
    var fromId :- StrAt(p, "fromId");
    var metrics :- ExtractMetrics(p);
    var raw :- StrAt(p, "raw");
    Ok(Head(fromNum, fromId, metrics, raw))
  }

  /** The keys of the fields every record shares. */
  const EnvelopeKeys: set<string> := {"type", "timestamp", "from_num", "from_id", "metrics", "raw"}

  /** The fields every record shares, with the kind's tag. */
  function Envelope(k: RecordKind, now: string, h: Head): (e: Record)
    ensures e.Keys == EnvelopeKeys
    ensures e["type"] == VStr(TypeTag(k)) && e["timestamp"] == VStr(now)
    ensures e["from_num"] == VInt(h.fromNum) && e["from_id"] == VStr(h.fromId)
    ensures e["metrics"] == h.metrics && e["raw"] == VStr(h.raw)
  {
    map["type" := VStr(TypeTag(k)), "timestamp" := VStr(now), "from_num" := VInt(h.fromNum),
        "from_id" := VStr(h.fromId), "metrics" := h.metrics, "raw" := VStr(h.raw)]
  }

  /** The envelope fields of `rec` conform to the kind's TypedDict. */
  ghost predicate EnvelopeOk(k: RecordKind, rec: Record) {
    && "type" in rec && rec["type"] == VStr(TypeTag(k))
    && "timestamp" in rec && rec["timestamp"].VStr?
    && "from_num" in rec && rec["from_num"].VInt?
    && "from_id" in rec && rec["from_id"].VStr?
    && "metrics" in rec && Conforms(MetricsSchema, rec["metrics"])
    && "raw" in rec && rec["raw"].VStr?
  }

  /** The kind-specific fields of `rec` conform, and so does `priority` for telemetry. */
  ghost predicate ExtrasConform(k: RecordKind, rec: Record) {
    && (forall i :: 0 <= i < |BodyFields(k)| ==>
          BodyFields(k)[i].0 in rec && Conforms(BodyFields(k)[i].1, rec[BodyFields(k)[i].0]))
    && (!(k.NodeInfo? || k.TextMessage?) ==>
          "priority" in rec && (rec["priority"].VNone? || rec["priority"].VStr?))
  }

  /** A record with a well-formed envelope conforms to its kind's TypedDict
      exactly when its kind-specific fields do. */
  lemma RecordConforms(k: RecordKind, rec: Record)
    requires EnvelopeOk(k, rec)
    ensures Conforms(SchemaOf(k), VDict(rec)) <==> ExtrasConform(k, rec)
  {
    if ExtrasConform(k, rec) {
      ExtrasSuffice(k, rec);
    }
    if Conforms(SchemaOf(k), VDict(rec)) {
      ExtrasNeeded(k, rec);
    }
  }

  /** The field list of a kind's TypedDict: the four leading envelope fields,
      the kind's body, the metrics, and the tail. */
  lemma SchemaLayout(k: RecordKind)
    ensures SchemaOf(k).fields ==
              [("type", Lit({TypeTag(k)})), ("timestamp", StrT), ("from_num", IntT), ("from_id", StrT)]
              + BodyFields(k) + [("metrics", MetricsSchema)] + TailFields(k)
  {
  }

  lemma ExtrasSuffice(k: RecordKind, rec: Record)
    requires EnvelopeOk(k, rec) && ExtrasConform(k, rec)
    ensures Conforms(SchemaOf(k), VDict(rec))
  {
    var b := BodyFields(k);
    var fs := SchemaOf(k).fields;
    SchemaLayout(k);
    forall j | 0 <= j < |fs|
      ensures fs[j].0 in rec && Conforms(fs[j].1, rec[fs[j].0])
    {
      if 4 <= j < 4 + |b| {
        assert fs[j] == b[j - 4];
      }
    }
  }

  lemma ExtrasNeeded(k: RecordKind, rec: Record)
    requires Conforms(SchemaOf(k), VDict(rec))
    ensures ExtrasConform(k, rec)
  {
    var b := BodyFields(k);
    var fs := SchemaOf(k).fields;
    SchemaLayout(k);
    assert FieldsConform(fs, rec, 0);
    forall i | 0 <= i < |b|
      ensures b[i].0 in rec && Conforms(b[i].1, rec[b[i].0])
    {
      assert fs[4 + i] == b[i];
      assert fs[4 + i].0 in rec && Conforms(fs[4 + i].1, rec[fs[4 + i].0]);
    }
    if !(k.NodeInfo? || k.TextMessage?) {
      assert fs[5 + |b|] == ("priority", Opt(StrT));
      assert Conforms(fs[5 + |b|].1, rec[fs[5 + |b|].0]);
    }
  }

  // ------------------------------------------------------------ the sub-records

  /** `dict(packet['decoded']['user'])` projected onto `UserInfo`: every field is
      required and rendered with `str()`. */
  function UserBody(user: Value): (r: Outcome<Value>)
    ensures r.Ok? <==> user.VDict? && user.entries.Keys >= {"id", "longName", "shortName", "macaddr", "hwModel", "raw"}
    ensures r.Ok? ==> Conforms(UserInfoSchema, r.value)
    ensures r.Ok? ==> r.value.VDict? && "long_name" in r.value.entries
                      && r.value.entries["long_name"] == VStr(ToStr(user.entries["longName"]))
  {
    if !user.VDict? then Err(TypeError)
    else
      var u := user.entries;
      var uid :- StrAt(u, "id");
      var longName :- StrAt(u, "longName");
      var shortName :- StrAt(u, "shortName");
      var mac :- StrAt(u, "macaddr");
      var hw :- StrAt(u, "hwModel");
      var raw :- StrAt(u, "raw");
      Ok(UserRecord(uid, longName, shortName, mac, hw, raw))
  }

  /** The `UserInfo` sub-record. */
  function UserRecord(uid: string, longName: string, shortName: string, mac: string, hw: string, raw: string): (v: Value)
    ensures Conforms(UserInfoSchema, v)
    ensures v.VDict? && "long_name" in v.entries && v.entries["long_name"] == VStr(longName)
  {
    var out := map["id" := VStr(uid), "long_name" := VStr(longName), "short_name" := VStr(shortName),
                   "macaddr" := VStr(mac), "hw_model" := VStr(hw), "raw" := VStr(raw)];
    assert FieldsConform(UserInfoSchema.fields, out, 0);
    VDict(out)
  }

  /** `deviceMetrics` projected onto `DeviceMetrics`: `channelUtilization`
      defaults to 0.0, the other four fields are required. */
  function DeviceBody(dm: map<string, Value>): (r: Outcome<Value>)
    ensures r.Ok? <==> IntAt(dm, "batteryLevel").Ok? && FloatAt(dm, "voltage").Ok?
                       && FloatGet(dm, "channelUtilization", 0.0).Ok? && FloatAt(dm, "airUtilTx").Ok?
                       && IntAt(dm, "uptimeSeconds").Ok?
    ensures r.Ok? ==> dm.Keys >= {"batteryLevel", "voltage", "airUtilTx", "uptimeSeconds"}
    ensures r.Ok? ==> Conforms(DeviceMetricsSchema, r.value)
    ensures r.Ok? ==> r.value.VDict? && r.value.entries.Keys == {"battery_level", "voltage", "channel_utilization", "air_util_tx", "uptime_seconds"}
    ensures r.Ok? ==> r.value.entries["battery_level"] == VInt(ToInt(dm["batteryLevel"]).value)
                      && r.value.entries["voltage"] == VFloat(ToFloat(dm["voltage"]).value)
                      && r.value.entries["air_util_tx"] == VFloat(ToFloat(dm["airUtilTx"]).value)
                      && r.value.entries["uptime_seconds"] == VInt(ToInt(dm["uptimeSeconds"]).value)
    ensures r.Ok? && "channelUtilization" in dm ==>
              r.value.entries["channel_utilization"] == VFloat(ToFloat(dm["channelUtilization"]).value)
    ensures r.Ok? && "channelUtilization" !in dm ==> r.value.entries["channel_utilization"] == VFloat(0.0)
  {
    var battery :- IntAt(dm, "batteryLevel");
    var voltage :- FloatAt(dm, "voltage");
    var chanUtil :- FloatGet(dm, "channelUtilization", 0.0);
    var airUtil :- FloatAt(dm, "airUtilTx");
    var uptime :- IntAt(dm, "uptimeSeconds");
    Ok(DeviceRecord(battery, voltage, chanUtil, airUtil, uptime))
  }

  /** The `DeviceMetrics` sub-record. */
  function DeviceRecord(battery: int, voltage: real, chanUtil: real, airUtil: real, uptime: int): (v: Value)
    ensures Conforms(DeviceMetricsSchema, v)
    ensures v.VDict? && v.entries.Keys == {"battery_level", "voltage", "channel_utilization", "air_util_tx", "uptime_seconds"}
    ensures v.entries["battery_level"] == VInt(battery) && v.entries["voltage"] == VFloat(voltage)
    ensures v.entries["channel_utilization"] == VFloat(chanUtil) && v.entries["air_util_tx"] == VFloat(airUtil)
    ensures v.entries["uptime_seconds"] == VInt(uptime)
  {
    var d := map["battery_level" := VInt(battery), "voltage" := VFloat(voltage),
                 "channel_utilization" := VFloat(chanUtil), "air_util_tx" := VFloat(airUtil),
                 "uptime_seconds" := VInt(uptime)];
    assert FieldsConform(DeviceMetricsSchema.fields, d, 0);
    VDict(d)
  }

  /** An optional counter that validates against `Optional[int]`. */
  predicate OptCounterOk(v: Value) {
    v.VNone? || IsInt(v)
  }

  /** The eight `localStats` counters that default to 0. */
  function Counters(ls: map<string, Value>): (r: Outcome<map<string, Value>>)
    ensures r.Ok? <==> Rates(ls).Ok? && PacketCounts(ls).Ok?
    ensures r.Ok? ==> r.value.Keys == {"uptime_seconds", "channel_utilization", "air_util_tx", "num_packets_tx",
                                       "num_packets_rx", "num_packets_rx_bad", "num_online_nodes", "num_total_nodes"}
    ensures r.Ok? ==> r.value["uptime_seconds"] == VInt(IntGet(ls, "uptimeSeconds", 0).value)
                      && r.value["channel_utilization"] == VFloat(FloatGet(ls, "channelUtilization", 0.0).value)
                      && r.value["air_util_tx"] == VFloat(FloatGet(ls, "airUtilTx", 0.0).value)
                      && r.value["num_packets_tx"] == VInt(IntGet(ls, "numPacketsTx", 0).value)
                      && r.value["num_packets_rx"] == VInt(IntGet(ls, "numPacketsRx", 0).value)
                      && r.value["num_packets_rx_bad"] == VInt(IntGet(ls, "numPacketsRxBad", 0).value)
                      && r.value["num_online_nodes"] == VInt(IntGet(ls, "numOnlineNodes", 0).value)
                      && r.value["num_total_nodes"] == VInt(IntGet(ls, "numTotalNodes", 0).value)
    ensures r.Ok? && "uptimeSeconds" !in ls ==> r.value["uptime_seconds"] == VInt(0)
    ensures r.Ok? && "channelUtilization" !in ls ==> r.value["channel_utilization"] == VFloat(0.0)
    ensures r.Ok? && "airUtilTx" !in ls ==> r.value["air_util_tx"] == VFloat(0.0)
    ensures r.Ok? && "numPacketsTx" !in ls ==> r.value["num_packets_tx"] == VInt(0)
    ensures r.Ok? && "numPacketsRx" !in ls ==> r.value["num_packets_rx"] == VInt(0)
    ensures r.Ok? && "numPacketsRxBad" !in ls ==> r.value["num_packets_rx_bad"] == VInt(0)
    ensures r.Ok? && "numOnlineNodes" !in ls ==> r.value["num_online_nodes"] == VInt(0)
    ensures r.Ok? && "numTotalNodes" !in ls ==> r.value["num_total_nodes"] == VInt(0)
  {
    var rates :- Rates(ls);
    var packets :- PacketCounts(ls);
    Ok(rates + packets)
  }

  /** The uptime and the two utilisation rates of `localStats`. */
  function Rates(ls: map<string, Value>): (r: Outcome<map<string, Value>>)
    ensures r.Ok? <==> IntGet(ls, "uptimeSeconds", 0).Ok? && FloatGet(ls, "channelUtilization", 0.0).Ok?
                       && FloatGet(ls, "airUtilTx", 0.0).Ok?
    ensures r.Ok? ==> r.value.Keys == {"uptime_seconds", "channel_utilization", "air_util_tx"}
    ensures r.Ok? ==> r.value["uptime_seconds"] == VInt(IntGet(ls, "uptimeSeconds", 0).value)
                      && r.value["channel_utilization"] == VFloat(FloatGet(ls, "channelUtilization", 0.0).value)
                      && r.value["air_util_tx"] == VFloat(FloatGet(ls, "airUtilTx", 0.0).value)
  {
    var uptime :- IntGet(ls, "uptimeSeconds", 0);
    var chanUtil :- FloatGet(ls, "channelUtilization", 0.0);
    var airUtil :- FloatGet(ls, "airUtilTx", 0.0);
    Ok(map["uptime_seconds" := VInt(uptime), "channel_utilization" := VFloat(chanUtil), "air_util_tx" := VFloat(airUtil)])
  }

  /** The five packet and node counts of `localStats`. */
  function PacketCounts(ls: map<string, Value>): (r: Outcome<map<string, Value>>)
    ensures r.Ok? <==> IntGet(ls, "numPacketsTx", 0).Ok? && IntGet(ls, "numPacketsRx", 0).Ok?
                       && IntGet(ls, "numPacketsRxBad", 0).Ok? && IntGet(ls, "numOnlineNodes", 0).Ok?
                       && IntGet(ls, "numTotalNodes", 0).Ok?
    ensures r.Ok? ==> r.value.Keys == {"num_packets_tx", "num_packets_rx", "num_packets_rx_bad", "num_online_nodes", "num_total_nodes"}
    ensures r.Ok? ==> r.value["num_packets_tx"] == VInt(IntGet(ls, "numPacketsTx", 0).value)
                      && r.value["num_packets_rx"] == VInt(IntGet(ls, "numPacketsRx", 0).value)
                      && r.value["num_packets_rx_bad"] == VInt(IntGet(ls, "numPacketsRxBad", 0).value)
                      && r.value["num_online_nodes"] == VInt(IntGet(ls, "numOnlineNodes", 0).value)
                      && r.value["num_total_nodes"] == VInt(IntGet(ls, "numTotalNodes", 0).value)
  {
    var tx :- IntGet(ls, "numPacketsTx", 0);
    var rx :- IntGet(ls, "numPacketsRx", 0);
    var rxBad :- IntGet(ls, "numPacketsRxBad", 0);
    var online :- IntGet(ls, "numOnlineNodes", 0);
    var total :- IntGet(ls, "numTotalNodes", 0);
    Ok(map["num_packets_tx" := VInt(tx), "num_packets_rx" := VInt(rx), "num_packets_rx_bad" := VInt(rxBad),
           "num_online_nodes" := VInt(online), "num_total_nodes" := VInt(total)])
  }

  /** `localStats` projected onto `LocalStats`: the counters, and three optional
      fields copied as given, None when absent. Only the copied ones can fail
      validation. */
  function LocalStatsBody(ls: map<string, Value>): (r: Outcome<Value>)
    ensures r.Ok? <==> Counters(ls).Ok?
    ensures r.Ok? ==> r.value.VDict? && r.value.entries.Keys == Counters(ls).value.Keys + OptionalCounterKeys
    ensures r.Ok? ==> forall key :: key in Counters(ls).value ==> r.value.entries[key] == Counters(ls).value[key]
    ensures r.Ok? ==> r.value.entries["num_rx_dupe"] == Get(ls, "numRxDupe", VNone)
                      && r.value.entries["num_tx_relay"] == Get(ls, "numTxRelay", VNone)
                      && r.value.entries["num_tx_relay_canceled"] == Get(ls, "numTxRelayCanceled", VNone)
    ensures r.Ok? && "numRxDupe" !in ls ==> r.value.entries["num_rx_dupe"] == VNone
    ensures r.Ok? && "numTxRelay" !in ls ==> r.value.entries["num_tx_relay"] == VNone
    ensures r.Ok? && "numTxRelayCanceled" !in ls ==> r.value.entries["num_tx_relay_canceled"] == VNone
    ensures r.Ok? ==> (Conforms(LocalStatsSchema, r.value) <==>
                        OptCounterOk(Get(ls, "numRxDupe", VNone)) && OptCounterOk(Get(ls, "numTxRelay", VNone))
                        && OptCounterOk(Get(ls, "numTxRelayCanceled", VNone)))
  {
    var c :- Counters(ls);
    Ok(WithOptionalCounters(c, Get(ls, "numRxDupe", VNone), Get(ls, "numTxRelay", VNone),
                            Get(ls, "numTxRelayCanceled", VNone)))
  }

  /** The keys of the three optional `LocalStats` counters. */
  const OptionalCounterKeys: set<string> := {"num_rx_dupe", "num_tx_relay", "num_tx_relay_canceled"}

  /** The counters together with the three raw optional fields. */
  function WithOptionalCounters(c: map<string, Value>, dupe: Value, relay: Value, canceled: Value): (v: Value)
    requires c.Keys == {"uptime_seconds", "channel_utilization", "air_util_tx", "num_packets_tx",
                        "num_packets_rx", "num_packets_rx_bad", "num_online_nodes", "num_total_nodes"}
    requires IsInt(c["uptime_seconds"]) && c["channel_utilization"].VFloat? && c["air_util_tx"].VFloat?
    requires IsInt(c["num_packets_tx"]) && IsInt(c["num_packets_rx"]) && IsInt(c["num_packets_rx_bad"])
    requires IsInt(c["num_online_nodes"]) && IsInt(c["num_total_nodes"])
    ensures v.VDict? && v.entries.Keys == c.Keys + OptionalCounterKeys
    ensures forall key :: key in c ==> v.entries[key] == c[key]
    ensures v.entries["num_rx_dupe"] == dupe && v.entries["num_tx_relay"] == relay
    ensures v.entries["num_tx_relay_canceled"] == canceled
    ensures Conforms(LocalStatsSchema, v) <==> OptCounterOk(dupe) && OptCounterOk(relay) && OptCounterOk(canceled)
  {
    var s := c["num_rx_dupe" := dupe]["num_tx_relay" := relay]["num_tx_relay_canceled" := canceled];
    LocalStatsConforms(s);
    VDict(s)
  }

  /** The local-stats sub-record conforms exactly when its optional counters do. */
  lemma LocalStatsConforms(s: map<string, Value>)
    requires s.Keys == {"uptime_seconds", "channel_utilization", "air_util_tx", "num_packets_tx",
                        "num_packets_rx", "num_packets_rx_bad", "num_online_nodes", "num_total_nodes",
                        "num_rx_dupe", "num_tx_relay", "num_tx_relay_canceled"}
    requires IsInt(s["uptime_seconds"]) && s["channel_utilization"].VFloat? && s["air_util_tx"].VFloat?
    requires IsInt(s["num_packets_tx"]) && IsInt(s["num_packets_rx"]) && IsInt(s["num_packets_rx_bad"])
    requires IsInt(s["num_online_nodes"]) && IsInt(s["num_total_nodes"])
    ensures Conforms(LocalStatsSchema, VDict(s)) <==>
      OptCounterOk(s["num_rx_dupe"]) && OptCounterOk(s["num_tx_relay"]) && OptCounterOk(s["num_tx_relay_canceled"])
  {
    var fs := LocalStatsSchema.fields;
    if OptCounterOk(s["num_rx_dupe"]) && OptCounterOk(s["num_tx_relay"]) && OptCounterOk(s["num_tx_relay_canceled"]) {
      assert FieldsConform(fs, s, 0);
    } else {
      assert !(Conforms(fs[8].1, s[fs[8].0]) && Conforms(fs[9].1, s[fs[9].0]) && Conforms(fs[10].1, s[fs[10].0]));
    }
  }

  /** `environmentMetrics` projected onto `EnvironmentMetrics`: all five fields
      default to 0. */
  function EnvironmentBody(em: map<string, Value>): (r: Outcome<Value>)
    ensures r.Ok? <==> FloatGet(em, "temperature", 0.0).Ok? && FloatGet(em, "relativeHumidity", 0.0).Ok?
                       && FloatGet(em, "barometricPressure", 0.0).Ok? && FloatGet(em, "gasResistance", 0.0).Ok?
                       && IntGet(em, "iaq", 0).Ok?
    ensures r.Ok? ==> Conforms(EnvironmentMetricsSchema, r.value)
    ensures r.Ok? ==> r.value.VDict? && r.value.entries.Keys == {"temperature", "relative_humidity", "barometric_pressure", "gas_resistance", "iaq"}
    ensures r.Ok? ==> r.value.entries["temperature"] == VFloat(FloatGet(em, "temperature", 0.0).value)
                      && r.value.entries["relative_humidity"] == VFloat(FloatGet(em, "relativeHumidity", 0.0).value)
                      && r.value.entries["barometric_pressure"] == VFloat(FloatGet(em, "barometricPressure", 0.0).value)
                      && r.value.entries["gas_resistance"] == VFloat(FloatGet(em, "gasResistance", 0.0).value)
                      && r.value.entries["iaq"] == VInt(IntGet(em, "iaq", 0).value)
    ensures r.Ok? && "temperature" !in em ==> r.value.entries["temperature"] == VFloat(0.0)
    ensures r.Ok? && "relativeHumidity" !in em ==> r.value.entries["relative_humidity"] == VFloat(0.0)
    ensures r.Ok? && "barometricPressure" !in em ==> r.value.entries["barometric_pressure"] == VFloat(0.0)
    ensures r.Ok? && "gasResistance" !in em ==> r.value.entries["gas_resistance"] == VFloat(0.0)
    ensures r.Ok? && "iaq" !in em ==> r.value.entries["iaq"] == VInt(0)
    ensures em == map[] ==> r.Ok?
  {
    var temp :- FloatGet(em, "temperature", 0.0);
    var hum :- FloatGet(em, "relativeHumidity", 0.0);
    var press :- FloatGet(em, "barometricPressure", 0.0);
    var gas :- FloatGet(em, "gasResistance", 0.0);
    var iaq :- IntGet(em, "iaq", 0);
    Ok(EnvironmentRecord(temp, hum, press, gas, iaq))
  }

  /** The `EnvironmentMetrics` sub-record. */
  function EnvironmentRecord(temp: real, hum: real, press: real, gas: real, iaq: int): (v: Value)
    ensures Conforms(EnvironmentMetricsSchema, v)
    ensures v.VDict? && v.entries.Keys == {"temperature", "relative_humidity", "barometric_pressure", "gas_resistance", "iaq"}
    ensures v.entries["temperature"] == VFloat(temp) && v.entries["relative_humidity"] == VFloat(hum)
    ensures v.entries["barometric_pressure"] == VFloat(press) && v.entries["gas_resistance"] == VFloat(gas)
    ensures v.entries["iaq"] == VInt(iaq)
  {
    var e := map["temperature" := VFloat(temp), "relative_humidity" := VFloat(hum),
                 "barometric_pressure" := VFloat(press), "gas_resistance" := VFloat(gas),
                 "iaq" := VInt(iaq)];
    assert FieldsConform(EnvironmentMetricsSchema.fields, e, 0);
    VDict(e)
  }

  // ------------------------------------------------------------------ records

  /** The telemetry sub-dict each telemetry kind reads. */
  function PartKey(k: RecordKind): string
    requires !(k.NodeInfo? || k.TextMessage?)
  {
    match k
    case DeviceTelemetry => "deviceMetrics"
    case NetworkTelemetry => "localStats"
    case EnvironmentTelemetry => "environmentMetrics"
  }

  /** `packet['decoded']['telemetry'][key]`, which must be a dict for the `.get` calls. */
  function TelemetryPart(p: map<string, Value>, key: string): (r: Outcome<map<string, Value>>)
    ensures r.Ok? ==> "decoded" in p
  {
    var decoded :- Subscript(VDict(p), "decoded");
    var telemetry :- Subscript(decoded, "telemetry");
    var part :- Subscript(telemetry, key);
    if part.VDict? then Ok(part.entries) else Err(AttributeError)
  }

  /** `packet.get('priority')`. */
  function Priority(p: map<string, Value>): Value {
    Get(p, "priority", VNone)
  }

  /** A `priority` that validates against `Optional[str]`. */
  predicate PriorityOk(p: map<string, Value>) {
    Priority(p).VNone? || Priority(p).VStr?
  }

  /** The sub-record of a telemetry kind. */
  function TelemetryBody(k: RecordKind, part: map<string, Value>): (r: Outcome<Value>)
    requires !(k.NodeInfo? || k.TextMessage?)
    ensures r.Ok? ==> r.value.VDict?
    ensures r.Ok? && !k.NetworkTelemetry? ==> Conforms(BodyFields(k)[0].1, r.value)
    ensures k.DeviceTelemetry? ==> r == DeviceBody(part)
    ensures k.NetworkTelemetry? ==> r == LocalStatsBody(part)
    ensures k.EnvironmentTelemetry? ==> r == EnvironmentBody(part)
  {
    match k
    case DeviceTelemetry => DeviceBody(part)
    case NetworkTelemetry => LocalStatsBody(part)
    case EnvironmentTelemetry => EnvironmentBody(part)
  }

  /** The `user` field of a node-info record. */
  function NodeExtras(p: map<string, Value>): (r: Outcome<Record>)
    ensures r.Ok? ==> r.value.Keys == {"user"} && Conforms(UserInfoSchema, r.value["user"])
  {
    var decoded :- Subscript(VDict(p), "decoded");
    var userV :- Subscript(decoded, "user");
    var user :- UserBody(userV);
    Ok(map["user" := user])
  }

  /** The recipient and text fields of a text-message record. */
  function TextExtras(p: map<string, Value>): (r: Outcome<Record>)
    ensures r.Ok? <==> IntAt(p, "to").Ok? && "toId" in p && "decoded" in p && ReqStr(p["decoded"], "text").Ok?
    ensures r.Ok? ==> r.value.Keys == {"to_num", "to_id", "text"}
    ensures r.Ok? ==> r.value["to_num"] == VInt(ToInt(p["to"]).value)
    ensures r.Ok? ==> r.value["to_id"] == VStr(ToStr(p["toId"]))
    ensures r.Ok? ==> p["decoded"].VDict? && "text" in p["decoded"].entries
                      && r.value["text"] == VStr(ToStr(p["decoded"].entries["text"]))
  {
    var toNum :- IntAt(p, "to");
    var toId :- StrAt(p, "toId");
    var decoded :- Subscript(VDict(p), "decoded");
    var text :- ReqStr(decoded, "text");
    Ok(map["to_num" := VInt(toNum), "to_id" := VStr(toId), "text" := VStr(text)])
  }

  /** The sub-record and `priority` of a telemetry record. */
  function TelemetryExtras(k: RecordKind, p: map<string, Value>): (r: Outcome<Record>)
    requires !(k.NodeInfo? || k.TextMessage?)
    ensures r.Ok? ==> r.value.Keys == {BodyFields(k)[0].0, "priority"} && r.value["priority"] == Priority(p)
    ensures r.Ok? && !k.NetworkTelemetry? ==> Conforms(BodyFields(k)[0].1, r.value[BodyFields(k)[0].0])
    ensures r.Ok? <==> TelemetryPart(p, PartKey(k)).Ok? && TelemetryBody(k, TelemetryPart(p, PartKey(k)).value).Ok?
    ensures r.Ok? ==> r.value[BodyFields(k)[0].0] == TelemetryBody(k, TelemetryPart(p, PartKey(k)).value).value
  {
    var part :- TelemetryPart(p, PartKey(k));
    var body :- TelemetryBody(k, part);
    Ok(map[BodyFields(k)[0].0 := body, "priority" := Priority(p)])
  }

  /** The kind-specific fields a normaliser adds to the envelope. */
  function Extras(k: RecordKind, p: map<string, Value>): (r: Outcome<Record>)
    ensures r.Ok? ==> r.value.Keys !! EnvelopeKeys
    ensures r.Ok? && (k.NodeInfo? || k.TextMessage?) ==> ExtrasConform(k, r.value)
    ensures r.Ok? && (k.DeviceTelemetry? || k.EnvironmentTelemetry?) ==> (ExtrasConform(k, r.value) <==> PriorityOk(p))
    ensures r.Ok? && k.NetworkTelemetry? ==>
              "local_stats" in r.value
              && (ExtrasConform(k, r.value) <==> Conforms(LocalStatsSchema, r.value["local_stats"]) && PriorityOk(p))
    ensures k.NodeInfo? ==> r == NodeExtras(p)
    ensures k.TextMessage? ==> r == TextExtras(p)
    ensures !(k.NodeInfo? || k.TextMessage?) ==> r == TelemetryExtras(k, p)
  {
    match k
    case NodeInfo =>
      var m :- NodeExtras(p);
      NodeExtrasConform(m);
      Ok(m)
    case TextMessage =>
      var m :- TextExtras(p);
      TextExtrasConform(m);
      Ok(m)
    case _ =>
      var m :- TelemetryExtras(k, p);
      TelemetryExtrasConform(k, m, p);
      Ok(m)
  }

  lemma NodeExtrasConform(m: Record)
    requires m.Keys == {"user"} && Conforms(UserInfoSchema, m["user"])
    ensures ExtrasConform(NodeInfo, m) && m.Keys !! EnvelopeKeys
  {
  }

  lemma TextExtrasConform(m: Record)
    requires m.Keys == {"to_num", "to_id", "text"}
    requires m["to_num"].VInt? && m["to_id"].VStr? && m["text"].VStr?
    ensures ExtrasConform(TextMessage, m) && m.Keys !! EnvelopeKeys
  {
    assert BodyFields(TextMessage) == [("to_num", IntT), ("to_id", StrT), ("text", StrT)];
  }

  lemma TelemetryExtrasConform(k: RecordKind, m: Record, p: map<string, Value>)
    requires !(k.NodeInfo? || k.TextMessage?)
    requires m.Keys == {BodyFields(k)[0].0, "priority"} && m["priority"] == Priority(p)
    ensures m.Keys !! EnvelopeKeys
    ensures ExtrasConform(k, m) <==> Conforms(BodyFields(k)[0].1, m[BodyFields(k)[0].0]) && PriorityOk(p)
  {
    assert |BodyFields(k)| == 1;
  }

  /** `str(d[k])` for a value `d` that must be a dict. */
  function ReqStr(d: Value, k: string): (r: Outcome<string>)
    ensures r.Ok? <==> d.VDict? && k in d.entries
    ensures r.Ok? ==> r.value == ToStr(d.entries[k])
  {
    var v :- Subscript(d, k);
    Ok(ToStr(v))
  }

  /** The record a normaliser builds, before validation. */
  function Build(k: RecordKind, packet: Value, now: string): (r: Outcome<Record>)
    ensures r.Ok? <==> packet.VDict? && ReadHead(packet.entries).Ok? && Extras(k, packet.entries).Ok?
    ensures r.Ok? ==> EnvelopeOk(k, r.value) && r.value["timestamp"] == VStr(now)
    ensures r.Ok? ==> r.value["from_id"] == VStr(ToStr(packet.entries["fromId"]))
    ensures r.Ok? ==> (Conforms(SchemaOf(k), VDict(r.value)) <==> ExtrasConform(k, Extras(k, packet.entries).value))
    ensures r.Ok? ==> r.value == Envelope(k, now, ReadHead(packet.entries).value) + Extras(k, packet.entries).value
  {
    if !packet.VDict? then Err(TypeError)
    else
      var h :- ReadHead(packet.entries);
      var extra :- Extras(k, packet.entries);
      Assembled(k, now, h, extra);
      Ok(Envelope(k, now, h) + extra)
  }

  /** The envelope joined with the kind-specific fields conforms exactly when those fields do. */
  lemma Assembled(k: RecordKind, now: string, h: Head, extra: Record)
    requires Conforms(MetricsSchema, h.metrics) && extra.Keys !! EnvelopeKeys
    ensures var rec := Envelope(k, now, h) + extra;
            && EnvelopeOk(k, rec) && rec["timestamp"] == VStr(now) && rec["from_id"] == VStr(h.fromId)
            && (Conforms(SchemaOf(k), VDict(rec)) <==> ExtrasConform(k, extra))
  {
    var rec := Envelope(k, now, h) + extra;
    EnvelopeKept(k, now, h, extra);
    RecordConforms(k, rec);
    ExtrasKept(k, Envelope(k, now, h), extra);
  }

  lemma EnvelopeKept(k: RecordKind, now: string, h: Head, extra: Record)
    requires Conforms(MetricsSchema, h.metrics) && extra.Keys !! EnvelopeKeys
    ensures var rec := Envelope(k, now, h) + extra;
            && EnvelopeOk(k, rec) && rec["timestamp"] == VStr(now) && rec["from_id"] == VStr(h.fromId)
  {
  }

  lemma ExtrasKept(k: RecordKind, e: Record, extra: Record)
    requires e.Keys == EnvelopeKeys
    ensures ExtrasConform(k, e + extra) <==> ExtrasConform(k, extra)
  {
    var b := BodyFields(k);
    assert forall i :: 0 <= i < |b| ==> b[i].0 !in EnvelopeKeys;
    if ExtrasConform(k, e + extra) {
      forall i | 0 <= i < |b|
        ensures b[i].0 in extra && Conforms(b[i].1, extra[b[i].0])
      {
        assert b[i].0 in e + extra && b[i].0 !in e;
      }
    }
  }

  /** The `validate_typed_dict(record, Kind)` call that ends every normaliser:
      ValueError and TypeError both propagate. */
  function Checked(k: RecordKind, rec: Record): (r: Outcome<Record>)
    ensures r.Ok? <==> Conforms(SchemaOf(k), VDict(rec))
    ensures r.Ok? ==> r.value == rec
  {
    ValidateIffConforms(SchemaOf(k), rec);
    match Validate(SchemaOf(k), rec)
    case Valid => Ok(rec)
    case Invalid(_) => Err(ValueError)
    case TypeErrorRaised => Err(TypeError)
  }

  /** `_process_nodeinfo`, `_process_textmessage` and the three
      `_process_*_telemetry`: build the record, then validate it. */
  function Normalise(k: RecordKind, packet: Value, now: string): (r: Outcome<Record>)
    ensures r.Ok? ==> Conforms(SchemaOf(k), VDict(r.value))
    ensures r.Ok? ==> EnvelopeOk(k, r.value) && r.value["timestamp"] == VStr(now)
    ensures r.Ok? ==> packet.VDict? && "fromId" in packet.entries && r.value["from_id"] == VStr(ToStr(packet.entries["fromId"]))
    ensures r.Ok? <==> Build(k, packet, now).Ok? && ExtrasConform(k, Extras(k, packet.entries).value)
    ensures r.Ok? ==> r.value == Envelope(k, now, ReadHead(packet.entries).value) + Extras(k, packet.entries).value
    ensures r.Ok? ==> && ToInt(packet.entries["from"]).Ok?
                      && r.value["from_num"] == VInt(ToInt(packet.entries["from"]).value)
                      && r.value["metrics"] == ExtractMetrics(packet.entries).value
                      && "raw" in packet.entries && r.value["raw"] == VStr(ToStr(packet.entries["raw"]))
    ensures r.Ok? ==> forall key :: key in Extras(k, packet.entries).value ==>
                        key in r.value && r.value[key] == Extras(k, packet.entries).value[key]
  {
    var rec :- Build(k, packet, now);
    Checked(k, rec)
  }

  /** Node-info, text, device and environment records always pass validation;
      a network record fails it when an optional counter is not an int; every
      telemetry record fails it when `priority` is neither None nor a string. */
  lemma WhenValidationFails(k: RecordKind, packet: Value, now: string)
    ensures k.NodeInfo? || k.TextMessage? ==> (Normalise(k, packet, now).Ok? <==> Build(k, packet, now).Ok?)
    ensures k.DeviceTelemetry? || k.EnvironmentTelemetry? ==>
              (Normalise(k, packet, now).Ok? <==> Build(k, packet, now).Ok? && PriorityOk(packet.entries))
    ensures k.NetworkTelemetry? ==>
              (Normalise(k, packet, now).Ok? <==>
                 Build(k, packet, now).Ok? && PriorityOk(packet.entries)
                 && Conforms(LocalStatsSchema, Extras(k, packet.entries).value["local_stats"]))
  {
  }
}

=== FILE: platform.dfy ===
/** Platform detection and user-interface selection:
    src/station/utils/platform_utils.py and `create_ui` in
    src/station/ui/factory.py. What the host reports — `platform.system()`,
    the text of /proc/cpuinfo when it can be read, whether `dearpygui` can
    be imported — is an input. */
module Platform {
  import opened Wrappers
  import Text

  datatype UiType = Console | Curses | DearPyGui

  datatype Platform = Windows | Linux | MacOs | RaspberryPi | Other

  /** What the running host reports. */
  datatype Host = Host(system: string, cpuinfo: Option<string>, dearPyGuiImportable: bool)

  /** `detect_platform()`: the lower-cased system name decides; a Linux host
      is a Raspberry Pi when its cpuinfo says so, and plain Linux when it
      does not or cannot be read. */
  function DetectPlatform(h: Host): (p: Platform)
    ensures p == Windows <==> Text.Lower(h.system) == "windows"
    ensures p == MacOs <==> Text.Lower(h.system) == "darwin"
    ensures p == RaspberryPi <==>
              Text.Lower(h.system) == "linux" && h.cpuinfo.Some? && Text.Contains(h.cpuinfo.value, "Raspberry Pi")
    ensures p == Linux <==>
              Text.Lower(h.system) == "linux" && !(h.cpuinfo.Some? && Text.Contains(h.cpuinfo.value, "Raspberry Pi"))
    ensures p == Other <==> Text.Lower(h.system) !in {"windows", "darwin", "linux"}
  {
    var system := Text.Lower(h.system);
    if system == "windows" then Windows
    else if system == "darwin" then MacOs
    else if system == "linux" then
      (match h.cpuinfo
       case Some(text) => if Text.Contains(text, "Raspberry Pi") then RaspberryPi else Linux
       case None => Linux)
    else Other
  }

  /** `get_available_uis()`. */
  function AvailableUis(h: Host): (r: seq<UiType>)
    ensures 2 <= |r| <= 3 && r[..2] == [Console, Curses]
    ensures DearPyGui in r <==> h.dearPyGuiImportable && DetectPlatform(h) != RaspberryPi
  {
    if h.dearPyGuiImportable && DetectPlatform(h) != RaspberryPi then [Console, Curses, DearPyGui]
    else [Console, Curses]
  }

  /** `get_default_ui()`: the most capable interface the host offers. */
  function DefaultUi(h: Host): (u: UiType)
    ensures DetectPlatform(h) == RaspberryPi ==> u == Curses
    ensures DetectPlatform(h) != RaspberryPi ==> (u == DearPyGui <==> DearPyGui in AvailableUis(h))
  {
    if DetectPlatform(h) == RaspberryPi then Curses
    else if DearPyGui in AvailableUis(h) then DearPyGui
    else Curses
  }

  /** The default is always one of the available interfaces, and never the
      bare console. */
  lemma DefaultIsAvailable(h: Host)
    ensures DefaultUi(h) in AvailableUis(h)
    ensures DefaultUi(h) != Console
  {
  }

  /** `check_ui_availability(ui_type)`: only DearPyGui can be missing, and
      only its importability is checked — not the platform. */
  function CheckUiAvailability(u: UiType, h: Host): (ok: bool)
    ensures u != DearPyGui ==> ok
    ensures u == DearPyGui ==> (ok <==> h.dearPyGuiImportable)
  {
    if u == DearPyGui then h.dearPyGuiImportable else true
  }

  /** The interface `create_ui` builds. */
  datatype Ui = DearPyGuiUi | CursesUi | ConsoleUi

  /** `UIType[name.upper()]`: a member name, or None for KeyError. */
  function UiTypeNamed(name: string): (r: Option<UiType>)
    ensures r == Some(Console) <==> name == "CONSOLE"
    ensures r == Some(Curses) <==> name == "CURSES"
    ensures r == Some(DearPyGui) <==> name == "DEARPYGUI"
  {
    if name == "CONSOLE" then Some(Console)
    else if name == "CURSES" then Some(Curses)
    else if name == "DEARPYGUI" then Some(DearPyGui)
    else None
  }

  /** `create_ui(ui_type, ...)`: an unknown name falls back to the console;
      DearPyGui is built when available and its module imports, curses
      stands in when the import fails, and the console when DearPyGui is
      unavailable. `uiModuleImports` is whether importing the DearPyGui
      interface module succeeds. */
  function CreateUi(name: string, h: Host, uiModuleImports: bool): (ui: Ui)
    ensures UiTypeNamed(Text.Upper(name)).None? ==> ui == ConsoleUi
    ensures UiTypeNamed(Text.Upper(name)) == Some(Console) ==> ui == ConsoleUi
    ensures UiTypeNamed(Text.Upper(name)) == Some(Curses) ==> ui == CursesUi
    ensures UiTypeNamed(Text.Upper(name)) == Some(DearPyGui) ==>
              ui == (if !h.dearPyGuiImportable then ConsoleUi else if uiModuleImports then DearPyGuiUi else CursesUi)
  {
    var chosen := UiTypeNamed(Text.Upper(name)).GetOr(Console);
    var afterGui :=
      if chosen == DearPyGui && CheckUiAvailability(DearPyGui, h) then
        (if uiModuleImports then Some(DearPyGuiUi) else None)
      else Some(if chosen == Curses then CursesUi else ConsoleUi);
    match afterGui
    case Some(ui) => ui
    case None => CursesUi
  }

  /** Creation never raises and only builds DearPyGui when it was asked for,
      importable, and its module loaded. */
  lemma CreateUiGuiOnlyWhenPossible(name: string, h: Host, uiModuleImports: bool)
    ensures CreateUi(name, h, uiModuleImports) == DearPyGuiUi ==>
              UiTypeNamed(Text.Upper(name)) == Some(DearPyGui) && h.dearPyGuiImportable && uiModuleImports
  {
  }

  /** `create_ui` as written: it imports `src.station.ui.dearpygui_ui`, but the
      module's file is `dearpygui-ui.py`, a name no import statement can reach,
      so the import always fails and a DearPyGui request ends in curses. */
  function CreateUiAsWritten(name: string, h: Host): (ui: Ui)
    ensures ui != DearPyGuiUi
    ensures UiTypeNamed(Text.Upper(name)) == Some(DearPyGui) && h.dearPyGuiImportable ==> ui == CursesUi
    ensures UiTypeNamed(Text.Upper(name)) != Some(DearPyGui) ==> ui == CreateUi(name, h, true)
  {
    CreateUi(name, h, false)
  }

  /** The gap: a desktop host that can import DearPyGui and asks for it gets
      curses as written, and DearPyGui once the module imports. */
  lemma GuiRequestFallsBackAsWritten()
    ensures var desktop := Host("Linux", None, true);
            DetectPlatform(desktop) == Linux && DearPyGui in AvailableUis(desktop)
            && CreateUiAsWritten("dearpygui", desktop) == CursesUi
            && CreateUi("dearpygui", desktop, true) == DearPyGuiUi
  {
    assert Text.Lower("Linux") == "linux";
    assert Text.Upper("dearpygui") == "DEARPYGUI";
  }

  /** Because creation checks importability only, a Raspberry Pi that asks
      for DearPyGui by name gets it, though its list of available
      interfaces leaves DearPyGui out. */
  lemma PiCanCreateUnlistedGui()
    ensures var pi := Host("Linux", Some("Model: Raspberry Pi 4"), true);
            DetectPlatform(pi) == RaspberryPi && DearPyGui !in AvailableUis(pi)
            && CreateUi("dearpygui", pi, true) == DearPyGuiUi
  {
    var pi := Host("Linux", Some("Model: Raspberry Pi 4"), true);
    assert Text.Lower("Linux") == "linux";
    assert Text.Upper("dearpygui") == "DEARPYGUI";
    Text.ContainsAt("Model: Raspberry Pi 4", "Raspberry Pi", 7);
  }
}

=== FILE: plot_buffers.dfy ===
/** The DearPyGui interface's plot buffers in src/station/ui/dearpygui-ui.py:
    six named series of (time, value) points, each capped at the most recent
    100 points, and the clearing done by `stop`. Plot drawing, the window
    and the viewport are not modelled; a time or a value is a real. */
module PlotBuffers {
  import opened Wrappers
  import opened PyValue

  /** `buffer_size`. */
  const BufferSize := 100

  /** One series: its `times` and `values` lists. */
  datatype Buffer = Buffer(times: seq<real>, values: seq<real>)

  type Buffers = map<string, Buffer>

  const Names: set<string> := {"battery", "voltage", "tx", "rx", "temperature", "humidity"}

  /** The buffers as constructed: the six series, all empty. */
  function InitialBuffers(): (b: Buffers)
    ensures b.Keys == Names
    ensures forall n :: n in b ==> b[n] == Buffer([], [])
  {
    map n | n in Names :: Buffer([], [])
  }

  /** A series the interface can hold: paired lists within the cap. */
  predicate WellFormed(b: Buffer) {
    |b.times| == |b.values| <= BufferSize
  }

  /** The last `n` elements of `xs`, or all of them when there are fewer. */
  function Last<T>(xs: seq<T>, n: nat): (r: seq<T>)
    ensures |r| == if |xs| <= n then |xs| else n
  {
    if |xs| <= n then xs else xs[|xs| - n..]
  }

  /** One point appended, and the oldest point removed once the series
      exceeds the cap. */
  function Push(b: Buffer, t: real, v: real): (r: Buffer)
    requires WellFormed(b)
    ensures WellFormed(r)
    ensures r.times == Last(b.times + [t], BufferSize) && r.values == Last(b.values + [v], BufferSize)
  {
    var times := b.times + [t];
    var values := b.values + [v];
    if |times| > BufferSize then Buffer(times[1..], values[1..]) else Buffer(times, values)
  }

  /** `_update_data_buffer(buffer_name, time_val, value)`: an unknown name
      raises KeyError; otherwise only the named series changes. */
  function UpdateDataBuffer(bufs: Buffers, name: string, t: real, v: real): (r: Outcome<Buffers>)
    requires forall n :: n in bufs ==> WellFormed(bufs[n])
    ensures r.Err? <==> name !in bufs
    ensures r.Err? ==> r.error == KeyError(name)
    ensures r.Ok? ==> r.value.Keys == bufs.Keys
                      && (forall n :: n in bufs ==> WellFormed(r.value[n]))
                      && (forall n :: n in bufs && n != name ==> r.value[n] == bufs[n])
    ensures r.Ok? ==> r.value[name].times == Last(bufs[name].times + [t], BufferSize)
                      && r.value[name].values == Last(bufs[name].values + [v], BufferSize)
  {
    if name !in bufs then Err(KeyError(name))
    else Ok(bufs[name := Push(bufs[name], t, v)])
  }

  /** The times of a run of points. */
  function Times(pts: seq<(real, real)>): (r: seq<real>)
    ensures |r| == |pts|
  {
    if |pts| == 0 then [] else [pts[0].0] + Times(pts[1..])
  }

  /** The values of a run of points. */
  function Values(pts: seq<(real, real)>): (r: seq<real>)
    ensures |r| == |pts|
  {
    if |pts| == 0 then [] else [pts[0].1] + Values(pts[1..])
  }

  /** A run of points pushed one after another. */
  function PushAll(b: Buffer, pts: seq<(real, real)>): (r: Buffer)
    requires WellFormed(b)
    ensures WellFormed(r)
    decreases |pts|
  {
    if |pts| == 0 then b else PushAll(Push(b, pts[0].0, pts[0].1), pts[1..])
  }

  /** Trimming before appending more keeps the same window. */
  lemma LastAppend<T>(xs: seq<T>, ys: seq<T>, n: nat)
    ensures Last(Last(xs, n) + ys, n) == Last(xs + ys, n)
  {
    if |xs| > n {
      var k := |xs| - n;
      assert Last(xs, n) + ys == (xs + ys)[k..];
    }
  }

  /** Whatever the history, a series holds exactly the latest 100 times
      it was given, oldest first. */
  lemma {:induction false} PushAllKeepsTimes(b: Buffer, pts: seq<(real, real)>)
    requires WellFormed(b)
    ensures PushAll(b, pts).times == Last(b.times + Times(pts), BufferSize)
    decreases |pts|
  {
    if |pts| == 0 {
      assert b.times + [] == b.times;
    } else {
      var t := pts[0].0;
      PushAllKeepsTimes(Push(b, t, pts[0].1), pts[1..]);
      LastAppend(b.times + [t], Times(pts[1..]), BufferSize);
      assert b.times + [t] + Times(pts[1..]) == b.times + ([t] + Times(pts[1..]));
    }
  }

  /** Likewise the values, so times and values stay paired. */
  lemma {:induction false} PushAllKeepsValues(b: Buffer, pts: seq<(real, real)>)
    requires WellFormed(b)
    ensures PushAll(b, pts).values == Last(b.values + Values(pts), BufferSize)
    decreases |pts|
  {
    if |pts| == 0 {
      assert b.values + [] == b.values;
    } else {
      var v := pts[0].1;
      PushAllKeepsValues(Push(b, pts[0].0, v), pts[1..]);
      LastAppend(b.values + [v], Values(pts[1..]), BufferSize);
      assert b.values + [v] + Values(pts[1..]) == b.values + ([v] + Values(pts[1..]));
    }
  }

  /** The interface's plot state: the series and the `running` flag. */
  datatype Plots = Plots(buffers: Buffers, running: bool)

  /** `stop()`: every series is emptied first, and `running` is cleared in
      the `finally` clause, so a failure while tearing down the viewport
      (`teardownOk` false) changes neither. */
  function Stop(p: Plots, teardownOk: bool): (r: Plots)
    ensures !r.running
    ensures r.buffers.Keys == p.buffers.Keys
    ensures forall n :: n in r.buffers ==> r.buffers[n] == Buffer([], [])
  {
    Plots(map n | n in p.buffers :: Buffer([], []), false)
  }

  /** After a stop the buffers are as constructed. */
  lemma StopResets(p: Plots, teardownOk: bool)
    requires p.buffers.Keys == Names
    ensures Stop(p, teardownOk).buffers == InitialBuffers()
  {
  }
}

=== FILE: pyvalue.dfy ===
/** The dynamically typed values the Python source passes around (decoded
    packets, normalised records, queue items), the exceptions it raises, and
    the handful of built-in operations it applies to them. */
module PyValue {
  import opened Wrappers
  import Text

  /** A JSON-like Python value; a dict maps string keys to values. */
  datatype Value =
    | VNone
    | VBool(b: bool)
    | VInt(i: int)
    | VFloat(r: real)
    | VStr(s: string)
    | VList(items: seq<Value>)
    | VDict(entries: map<string, Value>)

  /** The exceptions the modelled code raises or catches. */
  datatype Exc =
    | KeyError(key: string)
    | TypeError
    | ValueError
    | AttributeError
    | IndexError
    | NameError
    | RedisError

  type Outcome<T> = Result<T, Exc>

  function Lookup(entries: map<string, Value>, k: string): Option<Value> {
    if k in entries then Some(entries[k]) else None
  }

  /** `d.get(k, dflt)` on a dict's entries. */
  function Get(d: map<string, Value>, k: string, dflt: Value): (v: Value)
    ensures k in d ==> v == d[k]
    ensures k !in d ==> v == dflt
  {
    if k in d then d[k] else dflt
  }

  /** `v[k]` with a string key. */
  function Subscript(v: Value, k: string): (r: Outcome<Value>)
    ensures r.Ok? <==> v.VDict? && k in v.entries
    ensures r.Ok? ==> r.value == v.entries[k]
    ensures v.VDict? && k !in v.entries ==> r == Err(KeyError(k))
    ensures !v.VDict? ==> r == Err(TypeError)
  {
    match v
    case VDict(es) =>
      (match Lookup(es, k)
       case Some(x) => Ok(x)
       case None => Err(KeyError(k)))
    case _ => Err(TypeError)
  }

  /** `v.get(k, d)`: only dicts have `get`. */
  function GetOr(v: Value, k: string, d: Value): (r: Outcome<Value>)
    ensures r.Ok? <==> v.VDict?
    ensures v.VDict? && k in v.entries ==> r.value == v.entries[k]
    ensures v.VDict? && k !in v.entries ==> r.value == d
  {
    match v
    case VDict(es) => Ok(Lookup(es, k).GetOr(d))
    case _ => Err(AttributeError)
  }

  /** `k in v` for a string `k`: key membership for a dict, substring search for
      a string, element membership for a list; other values raise TypeError. */
  function In(k: string, v: Value): (r: Outcome<bool>)
    ensures v.VDict? ==> r == Ok(k in v.entries)
    ensures v.VStr? ==> r == Ok(Text.Contains(v.s, k))
    ensures r.Err? <==> !(v.VDict? || v.VStr? || v.VList?)
  {
    match v
    case VDict(es) => Ok(k in es)
    case VStr(s) => Ok(Text.Contains(s, k))
    case VList(xs) => Ok(VStr(k) in xs)
    case _ => Err(TypeError)
  }

  /** Python truthiness. */
  predicate Truthy(v: Value) {
    match v
    case VNone => false
    case VBool(b) => b
    case VInt(i) => i != 0
    case VFloat(r) => r != 0.0
    case VStr(s) => |s| > 0
    case VList(xs) => |xs| > 0
    case VDict(es) => |es| > 0
  }

  /** Truncation toward zero, as `int()` does to a float. */
  function Trunc(r: real): (n: int)
    ensures r >= 0.0 ==> n as real <= r < n as real + 1.0
    ensures r < 0.0 ==> n as real - 1.0 < r <= n as real
  {
    if r >= 0.0 then r.Floor else -((-r).Floor)
  }

  /** `int(v)`. */
  function ToInt(v: Value): (r: Outcome<int>)
    ensures v.VInt? ==> r == Ok(v.i)
    ensures v.VBool? ==> r == Ok(if v.b then 1 else 0)
    ensures v.VNone? || v.VList? || v.VDict? ==> r == Err(TypeError)
  {
    match v
    case VInt(i) => Ok(i)
    case VBool(b) => Ok(if b then 1 else 0)
    case VFloat(x) => Ok(Trunc(x))
    case VStr(s) =>
      (match Text.ParseInt(s)
       case Some(n) => Ok(n)
       case None => Err(ValueError))
    case _ => Err(TypeError)
  }

  /** `float(v)`. */
  function ToFloat(v: Value): (r: Outcome<real>)
    ensures v.VFloat? ==> r == Ok(v.r)
    ensures v.VInt? ==> r == Ok(v.i as real)
    ensures v.VBool? ==> r == Ok(if v.b then 1.0 else 0.0)
    ensures v.VNone? || v.VList? || v.VDict? ==> r == Err(TypeError)
  {
    match v
    case VInt(i) => Ok(i as real)
    case VBool(b) => Ok(if b then 1.0 else 0.0)
    case VFloat(x) => Ok(x)
    case VStr(s) =>
      (match Text.ParseFloat(s)
       case Some(x) => Ok(x)
       case None => Err(ValueError))
    case _ => Err(TypeError)
  }

  /** `str(v)`. Floats, lists and dicts render as a fixed placeholder. */
  function ToStr(v: Value): (r: string)
    ensures v.VStr? ==> r == v.s
    ensures v.VNone? ==> r == "None"
  {
    match v
    case VNone => "None"
    case VBool(b) => if b then "True" else "False"
    case VInt(i) => Text.IntToDecimal(i)
    case VFloat(_) => "<float>"
    case VStr(s) => s
    case VList(_) => "<list>"
    case VDict(_) => "<dict>"
  }

  /** Python's `isinstance(v, int)`: a bool is an int. */
  predicate IsInt(v: Value) {
    v.VInt? || v.VBool?
  }

  /** The numeric value of a bool, int or float; None for any other value. */
  function NumOf(v: Value): (r: Option<real>)
    ensures r.Some? <==> v.VBool? || v.VInt? || v.VFloat?
  {
    match v
    case VBool(b) => Some(if b then 1.0 else 0.0)
    case VInt(i) => Some(i as real)
    case VFloat(x) => Some(x)
    case _ => None
  }

  /** Python's `a == b`: bools, ints and floats compare by numeric value;
      strings by content; lists element by element; dicts by keys and then
      value by value; values of any other two kinds are unequal. */
  predicate PyEq(a: Value, b: Value)
    decreases a
  {
    if NumOf(a).Some? || NumOf(b).Some? then NumOf(a) == NumOf(b)
    else match (a, b)
      case (VNone, VNone) => true
      case (VStr(s), VStr(t)) => s == t
      case (VList(xs), VList(ys)) => |xs| == |ys| && forall i :: 0 <= i < |xs| ==> PyEq(xs[i], ys[i])
      case (VDict(d), VDict(e)) => d.Keys == e.Keys && forall k :: k in d ==> PyEq(d[k], e[k])
      case _ => false
  }

  /** Every value equals itself under `==`, so structural equality implies it. */
  lemma {:induction false} PyEqReflexive(a: Value)
    ensures PyEq(a, a)
    decreases a
  {
    match a
    case VList(xs) =>
      forall i | 0 <= i < |xs|
        ensures PyEq(xs[i], xs[i])
      {
        PyEqReflexive(xs[i]);
      }
    case VDict(d) =>
      forall k | k in d
        ensures PyEq(d[k], d[k])
      {
        PyEqReflexive(d[k]);
      }
    case _ =>
  }

  /** `==` is wider than structural equality: 1, 1.0 and True are all equal. */
  lemma PyEqAcrossNumbers()
    ensures PyEq(VFloat(1.0), VInt(1)) && PyEq(VBool(true), VInt(1)) && PyEq(VInt(0), VBool(false))
    ensures !PyEq(VStr("1"), VInt(1)) && !PyEq(VNone, VInt(0))
    ensures PyEq(VList([VInt(1)]), VList([VFloat(1.0)]))
  {
    assert PyEq(VInt(1), VFloat(1.0));
  }
}

=== FILE: schema.dfy ===
/** The TypedDict shapes of the normalised records, as data the validator reads. */
module Schema {

  /** A field annotation: a base type, `Optional[T]`, `Literal[...]`, or a
      nested TypedDict whose fields are listed in annotation order. */
  datatype Schema =
    | IntT
    | FloatT
    | StrT
    | Opt(inner: Schema)
    | Lit(allowed: set<string>)
    | Rec(fields: seq<(string, Schema)>)

  const MetricsSchema: Schema := Rec([
    ("rx_time", IntT),
    ("rx_snr", Opt(FloatT)),
    ("rx_rssi", Opt(IntT)),
    ("hop_limit", IntT)
  ])

  const UserInfoSchema: Schema := Rec([
    ("id", StrT),
    ("long_name", StrT),
    ("short_name", StrT),
    ("macaddr", StrT),
    ("hw_model", StrT),
    ("raw", StrT)
  ])

  const DeviceMetricsSchema: Schema := Rec([
    ("battery_level", IntT),
    ("voltage", FloatT),
    ("channel_utilization", Opt(FloatT)),
    ("air_util_tx", FloatT),
    ("uptime_seconds", IntT)
  ])

  const LocalStatsSchema: Schema := Rec([
    ("uptime_seconds", IntT),
    ("channel_utilization", FloatT),
    ("air_util_tx", FloatT),
    ("num_packets_tx", IntT),
    ("num_packets_rx", IntT),
    ("num_packets_rx_bad", IntT),
    ("num_online_nodes", IntT),
    ("num_total_nodes", IntT),
    ("num_rx_dupe", Opt(IntT)),
    ("num_tx_relay", Opt(IntT)),
    ("num_tx_relay_canceled", Opt(IntT))
  ])

  const EnvironmentMetricsSchema: Schema := Rec([
    ("temperature", FloatT),
    ("relative_humidity", FloatT),
    ("barometric_pressure", FloatT),
    ("gas_resistance", FloatT),
    ("iaq", IntT)
  ])

  /** The five kinds of normalised record, one per storage category. */
  datatype RecordKind =
    | NodeInfo
    | TextMessage
    | DeviceTelemetry
    | NetworkTelemetry
    | EnvironmentTelemetry

  /** The literal `type` tag of each record kind. */
  function TypeTag(k: RecordKind): string {
    match k
    case NodeInfo => "nodeinfo"
    case TextMessage => "text"
    case DeviceTelemetry => "device_telemetry"
    case NetworkTelemetry => "network_telemetry"
    case EnvironmentTelemetry => "environment_telemetry"
  }

  /** The fields between the common envelope fields that are specific to a kind. */
  function BodyFields(k: RecordKind): seq<(string, Schema)> {
    match k
    case NodeInfo => [("user", UserInfoSchema)]
    case TextMessage => [("to_num", IntT), ("to_id", StrT), ("text", StrT)]
    case DeviceTelemetry => [("device_metrics", DeviceMetricsSchema)]
    case NetworkTelemetry => [("local_stats", LocalStatsSchema)]
    case EnvironmentTelemetry => [("environment_metrics", EnvironmentMetricsSchema)]
  }

  /** The three telemetry records end with an optional `priority`. */
  function TailFields(k: RecordKind): seq<(string, Schema)> {
    if k.NodeInfo? || k.TextMessage? then [("raw", StrT)]
    else [("priority", Opt(StrT)), ("raw", StrT)]
  }

  /** The full TypedDict of a record kind, in annotation order. */
  function SchemaOf(k: RecordKind): (s: Schema)
    ensures s.Rec? && |s.fields| >= 7
    ensures s.fields[0] == ("type", Lit({TypeTag(k)}))
    ensures s.fields[1] == ("timestamp", StrT)
    ensures s.fields[2] == ("from_num", IntT)
    ensures s.fields[3] == ("from_id", StrT)
    ensures ("metrics", MetricsSchema) in s.fields
    ensures s.fields[|s.fields| - 1] == ("raw", StrT)
    ensures ("priority", Opt(StrT)) in s.fields <==> !(k.NodeInfo? || k.TextMessage?)
  {
    var head := [("type", Lit({TypeTag(k)})), ("timestamp", StrT), ("from_num", IntT), ("from_id", StrT)];
    var fs := head + BodyFields(k) + [("metrics", MetricsSchema)] + TailFields(k);
    assert fs[4 + |BodyFields(k)|] == ("metrics", MetricsSchema);
    assert k.NodeInfo? || k.TextMessage? ==> forall i :: 0 <= i < |fs| ==> fs[i].0 != "priority";
    Rec(fs)
  }

  /** Distinct kinds carry distinct tags, so a tag identifies its schema. */
  lemma TypeTagsDistinct(a: RecordKind, b: RecordKind)
    ensures TypeTag(a) == TypeTag(b) <==> a == b
  {
  }

  /** `PACKET_TYPES`: the record kinds a portnum can produce. */
  function PacketTypes(portnum: string): (r: set<RecordKind>)
    ensures portnum == "NODEINFO_APP" ==> r == {NodeInfo}
    ensures portnum == "TEXT_MESSAGE_APP" ==> r == {TextMessage}
    ensures portnum == "TELEMETRY_APP" ==> r == {DeviceTelemetry, NetworkTelemetry, EnvironmentTelemetry}
    ensures portnum !in {"NODEINFO_APP", "TEXT_MESSAGE_APP", "TELEMETRY_APP"} ==> r == {}
  {
    if portnum == "NODEINFO_APP" then {NodeInfo}
    else if portnum == "TEXT_MESSAGE_APP" then {TextMessage}
    else if portnum == "TELEMETRY_APP" then {DeviceTelemetry, NetworkTelemetry, EnvironmentTelemetry}
    else {}
  }
}

=== FILE: terminal_ui.dfy ===
/** The curses interface's state machine in src/station/ui/terminal_ui.py:
    keys select one of five views or quit, and `update` refetches the
    current view's data only every five seconds or after a view change.
    The key read, the clock and whether drawing succeeds are inputs;
    drawing itself is not modelled. */
module TerminalUi {
  import opened Wrappers
  import opened PyValue

  datatype View = Nodes | Messages | Device | Network | Environment

  /** `running`, `current_view`, `_last_view` and `_last_update`. */
  datatype State = State(running: bool, view: View, lastView: Option<View>, lastUpdate: int)

  /** The state after construction and `start()`: the nodes view, nothing
      shown yet. */
  const Initial := State(true, Nodes, None, 0)

  /** The view a key selects, if any. */
  function ViewFor(ch: int): (v: Option<View>)
    ensures v == Some(Nodes) <==> ch == 'n' as int
    ensures v == Some(Messages) <==> ch == 'm' as int
    ensures v == Some(Device) <==> ch == 'd' as int
    ensures v == Some(Network) <==> ch == 't' as int
    ensures v == Some(Environment) <==> ch == 'e' as int
  {
    if ch == 'n' as int then Some(Nodes)
    else if ch == 'm' as int then Some(Messages)
    else if ch == 'd' as int then Some(Device)
    else if ch == 't' as int then Some(Network)
    else if ch == 'e' as int then Some(Environment)
    else None
  }

  /** `handle_input()`: `key` is what `getch()` returned, or the error it
      raised; `clearOk` is whether clearing the screen after a key
      succeeded. 'q' stops the interface, a view key switches to its view,
      -1 (no key) and any other key change nothing, and an error stops it. */
  function HandleInput(s: State, key: Outcome<int>, clearOk: bool): (r: State)
    ensures r.lastView == s.lastView && r.lastUpdate == s.lastUpdate
    ensures key.Err? ==> r == s.(running := false)
    ensures key == Ok('q' as int) ==> r == s.(running := false)
    ensures key.Ok? && key.value != 'q' as int && key.value != -1 ==>
              r.view == (if ViewFor(key.value).Some? then ViewFor(key.value).value else s.view)
              && r.running == (s.running && clearOk)
    ensures key == Ok(-1) ==> r == s
  {
    match key
    case Err(_) => s.(running := false)
    case Ok(ch) =>
      if ch == 'q' as int then s.(running := false)
      else if ch != -1 then
        var s1 := match ViewFor(ch) case Some(v) => s.(view := v) case None => s;
        if clearOk then s1 else s1.(running := false)
      else s
  }

  /** Only 'q', an error, or a failing clear can stop the interface, and no
      key but a view key moves it off its view. */
  lemma HandleInputStops(s: State, key: Outcome<int>, clearOk: bool)
    ensures s.running && !HandleInput(s, key, clearOk).running ==>
              key.Err? || key == Ok('q' as int) || (key != Ok(-1) && !clearOk)
    ensures HandleInput(s, key, clearOk).view != s.view ==> key.Ok? && ViewFor(key.value).Some?
  {
  }

  /** The refresh gate of `update()`. */
  predicate Due(s: State, now: int) {
    now - s.lastUpdate >= 5 || s.lastView != Some(s.view)
  }

  /** `update()` at time `now`: `drawOk` is whether clearing and drawing the
      header succeeded; if not, the error is logged before the gate and
      nothing changes. A due refresh records the view and the time and
      fetches the current view's data, reported as the view refreshed. */
  function Update(s: State, now: int, drawOk: bool): (r: (State, Option<View>))
    ensures r.0.running == s.running && r.0.view == s.view
    ensures r.1.Some? <==> drawOk && Due(s, now)
    ensures r.1.Some? ==> r.1.value == s.view && r.0.lastView == Some(s.view) && r.0.lastUpdate == now
    ensures r.1.None? ==> r.0 == s
  {
    if drawOk && Due(s, now) then (s.(lastView := Some(s.view), lastUpdate := now), Some(s.view))
    else (s, None)
  }

  /** The first update always refreshes, since nothing has been shown. */
  lemma FirstUpdateRefreshes(now: int)
    ensures Update(Initial, now, true).1 == Some(Nodes)
  {
  }

  /** Within five seconds of a refresh, with the view unchanged, nothing is
      refetched; after a view key, the next update refetches at once. */
  lemma RateLimited(s: State, t: int, t': int, ch: int)
    requires Update(s, t, true).1.Some? && t <= t' < t + 5
    ensures Update(Update(s, t, true).0, t', true).1.None?
    ensures var s' := HandleInput(Update(s, t, true).0, Ok(ch), true);
            s'.view != s.view ==> Update(s', t', true).1 == Some(s'.view)
  {
  }
}

=== FILE: text.dfy ===
/** Character-level helpers the Python source gets from `str`: case mapping,
    substring search, code-point ordering, and decimal rendering and parsing. */
module Text {
  import opened Wrappers

  predicate IsDigit(c: char) {
    '0' <= c <= '9'
  }

  /** The whitespace `str.strip()` removes from ASCII text. */
  predicate IsSpace(c: char) {
    c == ' ' || c == '\t' || c == '\n' || c == '\r' || c == 11 as char || c == 12 as char
  }

  function UpperChar(c: char): char {
    if 'a' <= c <= 'z' then (c as int - 32) as char else c
  }

  function LowerChar(c: char): char {
    if 'A' <= c <= 'Z' then (c as int + 32) as char else c
  }

  /** `str.upper()` on ASCII letters; every other character is kept. */
  function Upper(s: string): (r: string)
    ensures |r| == |s|
    ensures forall i :: 0 <= i < |s| ==> r[i] == UpperChar(s[i])
  {
    seq(|s|, i requires 0 <= i < |s| => UpperChar(s[i]))
  }

  /** `str.lower()` on ASCII letters; every other character is kept. */
  function Lower(s: string): (r: string)
    ensures |r| == |s|
    ensures forall i :: 0 <= i < |s| ==> r[i] == LowerChar(s[i])
  {
    seq(|s|, i requires 0 <= i < |s| => LowerChar(s[i]))
  }

  predicate StartsWith(s: string, prefix: string) {
    |prefix| <= |s| && s[..|prefix|] == prefix
  }

  /** Python's `needle in hay` for two strings. */
  predicate Contains(hay: string, needle: string)
    decreases |hay|
  {
    StartsWith(hay, needle) || (|hay| > 0 && Contains(hay[1..], needle))
  }

  lemma {:induction false} ContainsAt(hay: string, needle: string, i: nat)
    requires i + |needle| <= |hay| && hay[i..i + |needle|] == needle
    ensures Contains(hay, needle)
    decreases i
  {
    if i > 0 {
      assert hay[1..][i - 1..i - 1 + |needle|] == hay[i..i + |needle|];
      ContainsAt(hay[1..], needle, i - 1);
    }
  }

  /** Python's `<=` on strings: lexicographic by code point. */
  predicate StrLe(a: string, b: string)
    decreases |a|
  {
    |a| == 0 || (|b| > 0 && (a[0] < b[0] || (a[0] == b[0] && StrLe(a[1..], b[1..]))))
  }

  lemma {:induction false} StrLeTotal(a: string, b: string)
    ensures StrLe(a, b) || StrLe(b, a)
    decreases |a|
  {
    if |a| > 0 && |b| > 0 && a[0] == b[0] {
      StrLeTotal(a[1..], b[1..]);
    }
  }

  lemma {:induction false} StrLeTransitive(a: string, b: string, c: string)
    requires StrLe(a, b) && StrLe(b, c)
    ensures StrLe(a, c)
    decreases |a|
  {
    if |a| > 0 && a[0] == b[0] && b[0] == c[0] {
      StrLeTransitive(a[1..], b[1..], c[1..]);
    }
  }

  function DigitChar(d: nat): (c: char)
    requires d < 10
    ensures IsDigit(c)
  {
    ('0' as int + d) as char
  }

  function DigitValue(c: char): (d: nat)
    requires IsDigit(c)
    ensures d < 10
  {
    c as int - '0' as int
  }

  /** Decimal digits of `n`, without leading zeros. */
  function NatToDecimal(n: nat): (r: string)
    ensures |r| > 0
    ensures forall i :: 0 <= i < |r| ==> IsDigit(r[i])
    decreases n
  {
    if n < 10 then [DigitChar(n)] else NatToDecimal(n / 10) + [DigitChar(n % 10)]
  }

  /** `str(i)` for a Python int. */
  function IntToDecimal(i: int): string {
    if i < 0 then "-" + NatToDecimal(-i) else NatToDecimal(i)
  }

  predicate AllDigits(s: string) {
    forall i :: 0 <= i < |s| ==> IsDigit(s[i])
  }

  /** The value of a string of decimal digits, most significant first. */
  function DigitsValue(s: string): nat
    requires AllDigits(s)
    decreases |s|
  {
    if |s| == 0 then 0 else DigitsValue(s[..|s| - 1]) * 10 + DigitValue(s[|s| - 1])
  }

  lemma {:induction false} NatToDecimalValue(n: nat)
    ensures DigitsValue(NatToDecimal(n)) == n
    decreases n
  {
    if n >= 10 {
      var r := NatToDecimal(n);
      assert r[..|r| - 1] == NatToDecimal(n / 10);
      NatToDecimalValue(n / 10);
    }
  }

  function TrimStart(s: string): (r: string)
    ensures |r| <= |s|
    decreases |s|
  {
    if |s| > 0 && IsSpace(s[0]) then TrimStart(s[1..]) else s
  }

  function TrimEnd(s: string): (r: string)
    ensures |r| <= |s|
    decreases |s|
  {
    if |s| > 0 && IsSpace(s[|s| - 1]) then TrimEnd(s[..|s| - 1]) else s
  }

  function Strip(s: string): string {
    TrimEnd(TrimStart(s))
  }

  /** `int(s)` for a base-10 string: surrounding whitespace, one optional sign,
      then at least one digit. `None` is Python's ValueError. */
  function ParseInt(s: string): Option<int> {
    var t := Strip(s);
    if |t| > 0 && (t[0] == '-' || t[0] == '+') then
      var body := t[1..];
      if |body| > 0 && AllDigits(body) then
        var v: int := DigitsValue(body);
        Some(if t[0] == '-' then -v else v)
      else None
    else if |t| > 0 && AllDigits(t) then Some(DigitsValue(t))
    else None
  }

  lemma DecimalHasNoSpace(s: string)
    requires AllDigits(s)
    ensures TrimStart(s) == s && TrimEnd(s) == s
  {
  }

  /** `int(str(i)) == i`: rendering a Python int and parsing it back is the identity. */
  lemma IntDecimalRoundTrip(i: int)
    ensures ParseInt(IntToDecimal(i)) == Some(i)
  {
    var d := NatToDecimal(if i < 0 then -i else i);
    NatToDecimalValue(if i < 0 then -i else i);
    if i < 0 {
      var s := "-" + d;
      assert TrimStart(s) == s;
      assert TrimEnd(s) == s by {
        assert s[|s| - 1] == d[|d| - 1];
      }
      assert s[1..] == d;
    } else {
      DecimalHasNoSpace(d);
    }
  }

  function Pow10(k: nat): (r: nat)
    ensures r >= 1
  {
    if k == 0 then 1 else 10 * Pow10(k - 1)
  }

  /** Index of the first '.' in `t`, or |t| when there is none. */
  function DotIndex(t: string): (i: nat)
    ensures i <= |t|
    ensures i < |t| ==> t[i] == '.'
    ensures forall j :: 0 <= j < i ==> t[j] != '.'
  {
    if |t| == 0 then 0
    else if t[0] == '.' then 0
    else 1 + DotIndex(t[1..])
  }

  /** The value of `digits[.digits]` with at least one digit in all; `None`
      when the text has another shape. */
  function DecimalValue(t: string): Option<real> {
    var i := DotIndex(t);
    if i < |t| then
      var whole := t[..i];
      var frac := t[i + 1..];
      if |whole| + |frac| > 0 && AllDigits(whole) && AllDigits(frac) then
        Some(DigitsValue(whole) as real + DigitsValue(frac) as real / Pow10(|frac|) as real)
      else None
    else if |t| > 0 && AllDigits(t) then Some(DigitsValue(t) as real)
    else None
  }

  /** `float(s)` for plain decimal notation: surrounding whitespace, one optional
      sign, then `digits[.digits]`. `None` is Python's ValueError. */
  function ParseFloat(s: string): Option<real> {
    var t := Strip(s);
    if |t| > 0 && (t[0] == '-' || t[0] == '+') then
      match DecimalValue(t[1..])
      case Some(x) => Some(if t[0] == '-' then -x else x)
      case None => None
    else DecimalValue(t)
  }
}

=== FILE: validation.dfy ===
/** `validate_typed_dict`: the recursive structural check of a dict against a
    TypedDict. The two copies of the function in the source have the same logic
    and share this one model. */
module Validation {
  import opened Wrappers
  import opened PyValue
  import opened Schema

  /** What a failed check names. `InNested(f, p)` is the message of `p` prefixed
      with "In nested field f: ". */
  datatype Problem =
    | Missing(field: string)
    | WrongType(field: string)
    | NotAllowed(field: string)
    | InNested(field: string, inner: Problem)

  /** `Valid` is the `True` the function returns; `Invalid` is its ValueError;
      `TypeErrorRaised` is the TypeError `isinstance` raises when a record-typed
      field holds something that is not a dict. */
  datatype Verdict = Valid | Invalid(problem: Problem) | TypeErrorRaised

  /** Python's `isinstance(v, t)` for the base types. */
  predicate IsInstance(v: Value, t: Schema)
    requires t.IntT? || t.FloatT? || t.StrT?
  {
    match t
    case IntT => IsInt(v)
    case FloatT => v.VFloat?
    case StrT => v.VStr?
  }

  /** The check of one field `name` whose annotation is `t` and whose value is `v`. */
  function CheckField(name: string, t: Schema, v: Value): Verdict
    decreases t, 1, 0
  {
    match t
    case Opt(inner) => if v.VNone? then Valid else CheckField(name, inner, v)
    case Rec(fs) =>
      if v.VDict? then
        (match ValidateFields(fs, v.entries, 0)
         case Invalid(p) => Invalid(InNested(name, p))
         case other => other)
      else TypeErrorRaised
    case Lit(allowed) => if v.VStr? && v.s in allowed then Valid else Invalid(NotAllowed(name))
    case _ => if IsInstance(v, t) then Valid else Invalid(WrongType(name))
  }

  /** The loop over the annotated fields from index `i` on, in annotation order;
      keys of `data` that are not annotated are never looked at. */
  function ValidateFields(fields: seq<(string, Schema)>, data: map<string, Value>, i: nat): Verdict
    requires i <= |fields|
    decreases Rec(fields), 0, |fields| - i
  {
    if i == |fields| then Valid
    else
      var (name, t) := fields[i];
      if name !in data then Invalid(Missing(name))
      else
        match CheckField(name, t, data[name])
        case Valid => ValidateFields(fields, data, i + 1)
        case other => other
  }

  /** `validate_typed_dict(data, schema)` for a TypedDict `schema`. */
  function Validate(schema: Schema, data: map<string, Value>): Verdict
    requires schema.Rec?
  {
    ValidateFields(schema.fields, data, 0)
  }

  /** When a value conforms to an annotation, stated without reference to the
      order in which the source checks things. */
  ghost predicate Conforms(t: Schema, v: Value)
    decreases t
  {
    match t
    case IntT => IsInt(v)
    case FloatT => v.VFloat?
    case StrT => v.VStr?
    case Opt(inner) => v.VNone? || Conforms(inner, v)
    case Lit(allowed) => v.VStr? && v.s in allowed
    case Rec(fs) => v.VDict? && FieldsConform(fs, v.entries, 0)
  }

  /** Every field from index `i` on is a key of `data` and its value conforms. */
  ghost predicate FieldsConform(fs: seq<(string, Schema)>, data: map<string, Value>, i: nat)
    decreases Rec(fs), 0
  {
    forall j :: i <= j < |fs| ==> fs[j].0 in data && Conforms(fs[j].1, data[fs[j].0])
  }

  /** The check accepts a field exactly when its value conforms. */
  lemma {:induction false} CheckFieldIffConforms(name: string, t: Schema, v: Value)
    ensures CheckField(name, t, v) == Valid <==> Conforms(t, v)
    decreases t, 1, 0
  {
    match t
    case Opt(inner) =>
      if !v.VNone? {
        CheckFieldIffConforms(name, inner, v);
      }
    case Rec(fs) =>
      if v.VDict? {
        ValidateFieldsIffConform(fs, v.entries, 0);
      }
    case _ =>
  }

  /** The loop returns `Valid` exactly when every remaining annotated field is
      present and conforms. */
  lemma {:induction false} ValidateFieldsIffConform(fs: seq<(string, Schema)>, data: map<string, Value>, i: nat)
    requires i <= |fs|
    ensures ValidateFields(fs, data, i) == Valid <==> FieldsConform(fs, data, i)
    decreases Rec(fs), 0, |fs| - i
  {
    if i < |fs| {
      var (name, t) := fs[i];
      if name in data {
        CheckFieldIffConforms(name, t, data[name]);
        ValidateFieldsIffConform(fs, data, i + 1);
        if FieldsConform(fs, data, i + 1) && Conforms(t, data[name]) {
          assert FieldsConform(fs, data, i) by {
            forall j | i <= j < |fs|
              ensures fs[j].0 in data && Conforms(fs[j].1, data[fs[j].0])
            {
              if j > i {
                assert i + 1 <= j < |fs|;
              }
            }
          }
        }
      }
    }
  }

  /** A dict is accepted exactly when it conforms to the schema: all annotated
      keys present (Optional ones included) and every value of its declared type. */
  lemma ValidateIffConforms(schema: Schema, data: map<string, Value>)
    requires schema.Rec?
    ensures Validate(schema, data) == Valid <==> Conforms(schema, VDict(data))
  {
    ValidateFieldsIffConform(schema.fields, data, 0);
  }

  /** The first annotated field missing from `data` is the one reported, provided
      every field before it passes. */
  lemma {:induction false} FirstMissingFieldReported(fs: seq<(string, Schema)>, data: map<string, Value>, i: nat, m: nat)
    requires i <= m < |fs|
    requires fs[m].0 !in data
    requires forall j :: i <= j < m ==> fs[j].0 in data && CheckField(fs[j].0, fs[j].1, data[fs[j].0]) == Valid
    ensures ValidateFields(fs, data, i) == Invalid(Missing(fs[m].0))
    decreases m - i
  {
    if i < m {
      FirstMissingFieldReported(fs, data, i + 1, m);
    }
  }

  /** Only annotated keys matter: two dicts that agree on them get the same verdict. */
  lemma {:induction false} UnannotatedKeysIgnored(fs: seq<(string, Schema)>, d1: map<string, Value>, d2: map<string, Value>, i: nat)
    requires i <= |fs|
    requires forall j :: i <= j < |fs| ==> (fs[j].0 in d1 <==> fs[j].0 in d2)
    requires forall j :: i <= j < |fs| && fs[j].0 in d1 ==> d1[fs[j].0] == d2[fs[j].0]
    ensures ValidateFields(fs, d1, i) == ValidateFields(fs, d2, i)
    decreases |fs| - i
  {
    if i < |fs| {
      UnannotatedKeysIgnored(fs, d1, d2, i + 1);
    }
  }

  /** An `Optional[T]` field accepts None; any other value is checked as `T`. */
  lemma OptionalField(name: string, t: Schema, v: Value)
    ensures CheckField(name, Opt(t), VNone) == Valid
    ensures !v.VNone? ==> CheckField(name, Opt(t), v) == CheckField(name, t, v)
  {
  }

  /** A dict under a record-typed field is checked recursively and its problem is
      reported under the field's name; a non-dict there raises TypeError. */
  lemma NestedRecordField(name: string, fs: seq<(string, Schema)>, v: Value)
    ensures v.VDict? && ValidateFields(fs, v.entries, 0).Invalid? ==>
      CheckField(name, Rec(fs), v) == Invalid(InNested(name, ValidateFields(fs, v.entries, 0).problem))
    ensures v.VDict? && !ValidateFields(fs, v.entries, 0).Invalid? ==>
      CheckField(name, Rec(fs), v) == ValidateFields(fs, v.entries, 0)
    ensures !v.VDict? ==> CheckField(name, Rec(fs), v) == TypeErrorRaised
  {
  }

  /** A `Literal` field accepts exactly the listed strings. */
  lemma LiteralField(name: string, allowed: set<string>, v: Value)
    ensures CheckField(name, Lit(allowed), v) == Valid <==> v.VStr? && v.s in allowed
    ensures CheckField(name, Lit(allowed), v) != Valid ==> CheckField(name, Lit(allowed), v) == Invalid(NotAllowed(name))
  {
  }

  /** Base types are checked with `isinstance`: an int does not satisfy a float
      field, while a bool does satisfy an int field. */
  lemma BaseTypeField(name: string, v: Value)
    ensures CheckField(name, FloatT, VInt(0)) == Invalid(WrongType(name))
    ensures CheckField(name, IntT, VBool(true)) == Valid
    ensures CheckField(name, StrT, v) == Valid <==> v.VStr?
  {
  }
}

=== FILE: wrappers.dfy ===
/** Option and Result, the two failure-carrying datatypes the model is written with. */
module Wrappers {

  datatype Option<+T> = None | Some(value: T) {
    /** The value, or `default` when there is none. */
    function GetOr(default: T): T {
      match this
      case Some(v) => v
      case None => default
    }
  }

  /** `Ok` is a normal return; `Err` carries what the source raises or reports. */
  datatype Result<+T, +E> = Ok(value: T) | Err(error: E) {
    predicate IsFailure() {
      Err?
    }

    function PropagateFailure<U>(): Result<U, E>
      requires Err?
    {
      Err(error)
    }

    function Extract(): T
      requires Ok?
    {
      value
    }
  }

  /** The values of the `Some`s, in order: the `None`s dropped. */
  function Somes<T>(xs: seq<Option<T>>): (r: seq<T>)
    ensures |r| <= |xs|
  {
    if |xs| == 0 then []
    else (if xs[0].Some? then [xs[0].value] else []) + Somes(xs[1..])
  }
}
